=== FILE: README.md ===
# Filmorate domain model in Dafny

This project models the domain logic of the Filmorate film-rating service as pure functions over immutable state. Each operation has the shape `state -> (result, state)`. The SQL tables become maps, sets and sequences. The areas covered are:

- users and the friendship relation (`UserService`, `UserFriendDbStorage`, `InMemoryUserStorage`);
- films, their likes ("appraisers"), genres and director links (`FilmService`, `InMemoryFilmStorage`, `FilmDbStorage`, `DirectorDbStorage`);
- the activity feed (`FeedDbStorage`);
- reviews and their votes (`ReviewService`, `ReviewDbStorage`);
- the two request validators (`FilmController.validateFilm`, `UserController.validateUser`).

Errors are values of `Common.Error`:

| error | what raises it in the source |
|---|---|
| `NotFound` | `NotFoundException` |
| `Conflict` | `ConflictException` |
| `Validation` | `ValidationException` |
| `Integrity` | a constraint violation raised by the database |
| `Internal` | any other runtime exception, such as a null dereference or `Optional.get` on an empty value |

Several inputs are parameters rather than computed:

- **Scan order.** Where the source reads rows or map values in an order it does not fix, the model takes that order as an `order: seq<int>` parameter. `Common.IsEnumeration` states that the parameter lists every key exactly once. Rankings are stated through `Ranking.IsTopByKey` and `Ranking.IsOrderedByKey`, which make no promise about ties.
- **Clock.** The clock is a parameter: `today` for validation, `timestamp` for feed events.

Modules, one per source component:

| module | source |
|---|---|
| `Common` | Option/Result/Error, `LocalDate`, Java `trim`, sets listed as sorted sequences |
| `Model` | the records `User`, `Film`, `Director`, `UserFriend`, `Review` |
| `Ranking` | the stable sort and cut behind the popularity and director listings |
| `FeedLog` | `FeedDbStorage` |
| `UserStore` | `InMemoryUserStorage` |
| `FriendTable` | `UserFriendDbStorage` |
| `UserService` | `UserService` |
| `FilmStore` | `InMemoryFilmStorage` |
| `DirectorTable` | `DirectorDbStorage` |
| `FilmTables` | `FilmDbStorage` |
| `FilmService` | `FilmService` over `FilmDbStorage` |
| `ReviewTables` | `ReviewDbStorage` |
| `ReviewService` | `ReviewService` |
| `Validation` | the two static validators |

The database schema is not part of this model. Only these constraints are modelled; the services' own error handling names the first three, and the last is an assumption:

- a friendship row needs both users;
- one review per (user, film);
- one vote per (review, user);
- one like per (user, film) in APPRAISERS, which no handler names but which the shape of the likes (a set per film) implies.

## Model

All source paths are under `src/main/java/ru/yandex/practicum/filmorate/`; the table writes them in full.

| member | source | states |
|---|---|---|
| Common.Trim | src/main/java/ru/yandex/practicum/filmorate/controller/FilmController.java:36-39 | Java `trim()`: the result is the slice of the input left once the characters at or below U+0020 are stripped from both ends; it neither starts nor ends with such a character, and is empty exactly when the input is blank |
| Common.Utf16Length | src/main/java/ru/yandex/practicum/filmorate/controller/FilmController.java:38 | `String.length()` counts UTF-16 units: the number of characters plus the number of characters above U+FFFF, so between one and two units per character |
| Common.TrimUtf16Shorter | src/main/java/ru/yandex/practicum/filmorate/controller/FilmController.java:38 | trimming never makes a description longer in UTF-16 units |
| Common.DayNumberReflectsOrder | src/main/java/ru/yandex/practicum/filmorate/storage/impl/FilmDbStorage.java:276-282 | ordering films by the day number is ordering them chronologically (`isBefore` iff smaller number) |
| Common.SortedElements | src/main/java/ru/yandex/practicum/filmorate/service/UserService.java:116-122 | a set of ids listed once each, strictly ascending, with exactly the set's members |
| Ranking.SortDescending | src/main/java/ru/yandex/practicum/filmorate/storage/impl/InMemoryFilmStorage.java:44-49 | the result is non-increasing by key and a permutation of its input |
| Ranking.TopOfSortedIsTopByKey | src/main/java/ru/yandex/practicum/filmorate/storage/impl/InMemoryFilmStorage.java:44-49 | sorting by descending key and cutting after `count` gives min(count, n) distinct keys, non-increasing, with no omitted key ranked above the last one kept |
| Ranking.SortedIsOrderedByKey | src/main/java/ru/yandex/practicum/filmorate/storage/impl/FilmDbStorage.java:255-294 | the ascending stable sort lists every key exactly once in non-decreasing key order |
| Ranking.UniqueBestHeadsTop | src/main/java/ru/yandex/practicum/filmorate/storage/impl/FilmDbStorage.java:209-217 | a key strictly above all others heads any non-empty top-`count` list |
| FeedLog.ParseType | src/main/java/ru/yandex/practicum/filmorate/storage/impl/FeedDbStorage.java:43 | `EventType.valueOf` accepts exactly the constant names and returns the constant so named |
| FeedLog.ParseOperation | src/main/java/ru/yandex/practicum/filmorate/storage/impl/FeedDbStorage.java:44 | `Operation.valueOf` accepts exactly the constant names and returns the constant so named |
| FeedLog.MakeFeed | src/main/java/ru/yandex/practicum/filmorate/storage/impl/FeedDbStorage.java:38-47 | a row reads back as an event exactly when both enum names are valid, and then writing that event gives the row again; otherwise Internal |
| FeedLog.NamesRoundTrip | src/main/java/ru/yandex/practicum/filmorate/storage/impl/FeedDbStorage.java:35 | `valueOf(toString())` gives back every event type and operation |
| FeedLog.RowRoundTrip | src/main/java/ru/yandex/practicum/filmorate/storage/impl/FeedDbStorage.java:35-47 | every field written for an event reads back unchanged |
| FeedLog.CreateFeed | src/main/java/ru/yandex/practicum/filmorate/storage/impl/FeedDbStorage.java:30-36 | appends exactly one row, carrying the given user, entity, type, operation and time under a fresh identity; earlier rows are untouched |
| FeedLog.GetFeeds | src/main/java/ru/yandex/practicum/filmorate/storage/impl/FeedDbStorage.java:22-28 | the events whose actor is the user, all of them, and no others; an undecodable row of that user fails the read |
| FeedLog.ValidFeedsRead | src/main/java/ru/yandex/practicum/filmorate/storage/impl/FeedDbStorage.java:22-36 | a table written only by `createFeed` always reads without error |
| FeedLog.OtherActorLeavesFeed | src/main/java/ru/yandex/practicum/filmorate/storage/impl/FeedDbStorage.java:24-35 | an event for another actor leaves a user's feed unchanged |
| FeedLog.OwnEventJoinsFeed | src/main/java/ru/yandex/practicum/filmorate/storage/impl/FeedDbStorage.java:22-36 | an event for the user adds exactly that event to the user's feed |
| UserStore.AddUser | src/main/java/ru/yandex/practicum/filmorate/storage/impl/InMemoryUserStorage.java:18-24 | the user gets the next counter value, which is not yet in use, and is stored under it |
| UserStore.EditUser | src/main/java/ru/yandex/practicum/filmorate/storage/impl/InMemoryUserStorage.java:26-31 | NotFound exactly for a null or unknown id, with nothing changed; otherwise only that entry is replaced |
| UserStore.GetAll | src/main/java/ru/yandex/practicum/filmorate/storage/impl/InMemoryUserStorage.java:33-36 | exactly the stored users |
| UserStore.GetById | src/main/java/ru/yandex/practicum/filmorate/storage/impl/InMemoryUserStorage.java:38-41 | empty exactly when the id is not stored; otherwise the user stored under it |
| UserStore.GetUsersById | src/main/java/ru/yandex/practicum/filmorate/storage/impl/InMemoryUserStorage.java:43-46 | no more users than ids given, only users stored under a requested id, every requested stored id present, unknown ids dropped |
| UserStore.GetUsersByIdMembers | src/main/java/ru/yandex/practicum/filmorate/storage/impl/InMemoryUserStorage.java:43-46 | a user is in the answer exactly when it is stored under an id that was asked for |
| UserStore.GetUsersByIdAppend | src/main/java/ru/yandex/practicum/filmorate/storage/impl/InMemoryUserStorage.java:43-46 | the lookup keeps the order of the ids: looking up two lists one after the other is looking up their concatenation |
| UserStore.AddThenGet | src/main/java/ru/yandex/practicum/filmorate/storage/impl/InMemoryUserStorage.java:18-41 | a user just added is found under its new id, every other id reads as before, and the user set gains exactly that user |
| FriendTable.NewRequest | src/main/java/ru/yandex/practicum/filmorate/model/UserFriend.java:15-19 | a new request carries no id and status 0 |
| FriendTable.ToUserFriend | src/main/java/ru/yandex/practicum/filmorate/storage/impl/UserFriendDbStorage.java:58-65 | reading a row keeps its id, both users and its status |
| FriendTable.Save | src/main/java/ru/yandex/practicum/filmorate/storage/impl/UserFriendDbStorage.java:26-40 | a request with an id is left as it is; a new one gets the next id and is appended, and fails with Integrity when either user is unknown |
| FriendTable.FindByUserAndFriend | src/main/java/ru/yandex/practicum/filmorate/storage/impl/UserFriendDbStorage.java:43-56 | empty exactly when no row links the pair in either direction; a found row links the pair; the lookup fails (Internal) exactly when more than one row links it |
| FriendTable.FindAllByUser | src/main/java/ru/yandex/practicum/filmorate/storage/impl/UserFriendDbStorage.java:67-75 | exactly the rows whose requesting user is the user, one direction only |
| FriendTable.Delete | src/main/java/ru/yandex/practicum/filmorate/storage/impl/UserFriendDbStorage.java:77-81 | removes exactly the rows with that id; a request without an id changes nothing |
| FriendTable.FindSymmetric | src/main/java/ru/yandex/practicum/filmorate/storage/impl/UserFriendDbStorage.java:43-52 | looking up (a, b) and (b, a) gives the same answer |
| FriendTable.LinkingAtMostOne | src/main/java/ru/yandex/practicum/filmorate/storage/impl/UserFriendDbStorage.java:43-56 | with one row per unordered pair, at most one row links two users |
| FriendTable.FindNeverFails | src/main/java/ru/yandex/practicum/filmorate/storage/impl/UserFriendDbStorage.java:43-56 | with one row per unordered pair the lookup never hits the more-than-one-row error |
| FriendTable.SaveThenFind | src/main/java/ru/yandex/practicum/filmorate/storage/impl/UserFriendDbStorage.java:26-56 | a saved request is found again, in both directions, with the new id and status 0 |
| FriendTable.SaveKeepsOnePerPair | src/main/java/ru/yandex/practicum/filmorate/storage/impl/UserFriendDbStorage.java:26-40 | saving a request for an unlinked pair keeps one row per unordered pair |
| FriendTable.DeleteKeepsOnePerPair | src/main/java/ru/yandex/practicum/filmorate/storage/impl/UserFriendDbStorage.java:77-81 | deleting keeps one row per unordered pair |
| FriendTable.DeleteThenFind | src/main/java/ru/yandex/practicum/filmorate/storage/impl/UserFriendDbStorage.java:43-81 | deleting the row found for a pair leaves that pair unlinked |
| FriendTable.DeleteFoundRow | src/main/java/ru/yandex/practicum/filmorate/storage/impl/UserFriendDbStorage.java:77-81 | with unique row ids, deleting the row the pair lookup found removes exactly the rows linking the pair and keeps every other row |
| FriendTable.WithoutStoredId | src/main/java/ru/yandex/practicum/filmorate/storage/impl/UserFriendDbStorage.java:77-81 | deleting a stored id removes exactly one row |
| FriendTable.SaveListsOneWay | src/main/java/ru/yandex/practicum/filmorate/storage/impl/UserFriendDbStorage.java:67-75 | after a saves a request to b, a's list gains that request and b's list is unchanged |
| UserService.AddFriend | src/main/java/ru/yandex/practicum/filmorate/service/UserService.java:63-84 | NotFound for an unknown user, checked before the self and duplicate checks; Conflict for oneself or an existing link in either direction; success exactly otherwise, appending a FRIEND/ADD event and one row with status 0 |
| UserService.DeleteFriend | src/main/java/ru/yandex/practicum/filmorate/service/UserService.java:86-96 | Conflict for oneself or when no row links the pair, with nothing changed; on success one FRIEND/REMOVE event is appended, and with unique row ids exactly the rows linking the pair go while every other row stays |
| UserService.GetUserById | src/main/java/ru/yandex/practicum/filmorate/service/UserService.java:55-61 | NotFound exactly for an unknown user; otherwise the stored user, and its request list holds exactly the stored rows it sent |
| UserService.MapToUser | src/main/java/ru/yandex/practicum/filmorate/service/UserService.java:149-153 | the answer is one of the row's two users, and for a row between two different users that has `u` at one end it is the end that is not `u` |
| UserService.GetFriends | src/main/java/ru/yandex/practicum/filmorate/service/UserService.java:98-104 | NotFound exactly for an unknown user |
| UserService.FriendsAreSentRequests | src/main/java/ru/yandex/practicum/filmorate/service/UserService.java:98-104 | the friends are the users named as `friendId` by the requests the user sent, in the order the request scan returns them |
| UserService.GetFriendsMembers | src/main/java/ru/yandex/practicum/filmorate/service/UserService.java:98-104 | a user is a friend exactly when it is stored and the user sent it a request |
| UserService.AddFriendLeavesOtherList | src/main/java/ru/yandex/practicum/filmorate/service/UserService.java:63-104 | after a adds b, b's friend list is unchanged: friendship is one-directional |
| UserService.AddFriendExtendsOwnList | src/main/java/ru/yandex/practicum/filmorate/service/UserService.java:63-104 | after a adds b, a user is on a's friend list exactly when it was before or it is b |
| UserService.GetCommonFriends | src/main/java/ru/yandex/practicum/filmorate/service/UserService.java:106-123 | NotFound exactly when either user is unknown; for the same user twice it is that user's friend list |
| UserService.CommonFriendsMembers | src/main/java/ru/yandex/practicum/filmorate/service/UserService.java:106-123 | for two different users, a user is a common friend exactly when both sent it a request |
| UserService.CommonFriendsSymmetric | src/main/java/ru/yandex/practicum/filmorate/service/UserService.java:106-123 | swapping the two users gives the same answer |
| UserService.GetFeeds | src/main/java/ru/yandex/practicum/filmorate/service/UserService.java:143-147 | NotFound for an unknown user; otherwise the user's feed |
| UserService.KnownUserFeedReads | src/main/java/ru/yandex/practicum/filmorate/service/UserService.java:143-147 | a known user's feed reads without error and holds only that user's events |
| UserService.GetRecommendations | src/main/java/ru/yandex/practicum/filmorate/service/UserService.java:125-135 | NotFound exactly for an unknown user; otherwise the storage's list as given |
| UserService.AddFriendKeepsInv | src/main/java/ru/yandex/practicum/filmorate/service/UserService.java:63-84 | adding a friend keeps ids fresh and one row per unordered pair |
| UserService.DeleteFriendKeepsInv | src/main/java/ru/yandex/practicum/filmorate/service/UserService.java:86-96 | deleting a friend keeps ids fresh and one row per unordered pair |
| UserService.AddFriendFailsOnlyByChecks | src/main/java/ru/yandex/practicum/filmorate/service/UserService.java:63-84 | in a consistent state a failed add is a NotFound for an unknown user or a Conflict, and changes nothing |
| UserService.DeleteFriendUnlinks | src/main/java/ru/yandex/practicum/filmorate/service/UserService.java:86-96 | after a successful delete no row links the pair in either direction |
| FilmStore.AddFilm | src/main/java/ru/yandex/practicum/filmorate/storage/impl/InMemoryFilmStorage.java:17-24 | the film gets the next counter value, which is not yet in use, and is stored under it |
| FilmStore.EditFilm | src/main/java/ru/yandex/practicum/filmorate/storage/impl/InMemoryFilmStorage.java:26-31 | NotFound exactly for a null or unknown id, with nothing changed; otherwise only that entry is replaced |
| FilmStore.GetAll | src/main/java/ru/yandex/practicum/filmorate/storage/impl/InMemoryFilmStorage.java:33-36 | exactly the stored films |
| FilmStore.GetById | src/main/java/ru/yandex/practicum/filmorate/storage/impl/InMemoryFilmStorage.java:38-41 | null exactly for an id not stored |
| FilmStore.AddAppraiser | src/main/java/ru/yandex/practicum/filmorate/storage/impl/InMemoryFilmStorage.java:51-54 | a set insert into that film's appraisers, every other film and field unchanged; an unknown film is Internal |
| FilmStore.IsFilmHasAppraiser | src/main/java/ru/yandex/practicum/filmorate/storage/impl/InMemoryFilmStorage.java:56-59 | true exactly when the user is among the film's appraisers; an unknown film is Internal |
| FilmStore.RemoveAppraiser | src/main/java/ru/yandex/practicum/filmorate/storage/impl/InMemoryFilmStorage.java:61-64 | a set remove from that film's appraisers, every other film unchanged; an unknown film is Internal |
| FilmStore.GetPopularFilms | src/main/java/ru/yandex/practicum/filmorate/storage/impl/InMemoryFilmStorage.java:43-49 | min(count, n) distinct stored films, like counts non-increasing, no omitted film above the last one kept; genre and year play no part; a negative count fails |
| FilmStore.AddThenGet | src/main/java/ru/yandex/practicum/filmorate/storage/impl/InMemoryFilmStorage.java:17-41 | a film just added is found under its new id, and every other id reads as before |
| FilmStore.AddAppraiserIdempotent | src/main/java/ru/yandex/practicum/filmorate/storage/impl/InMemoryFilmStorage.java:51-54 | adding the same appraiser twice is adding it once |
| FilmStore.AppraiserAfterAddAndRemove | src/main/java/ru/yandex/practicum/filmorate/storage/impl/InMemoryFilmStorage.java:51-64 | the pair is recorded right after an add and not recorded right after a remove |
| FilmStore.AddThenRemoveRestores | src/main/java/ru/yandex/practicum/filmorate/storage/impl/InMemoryFilmStorage.java:51-64 | adding a new appraiser and removing it restores the store |
| FilmStore.UniqueFavouriteFirst | src/main/java/ru/yandex/practicum/filmorate/storage/impl/InMemoryFilmStorage.java:43-49 | a film liked strictly more than every other heads the answer |
| DirectorTable.Get | src/main/java/ru/yandex/practicum/filmorate/storage/impl/DirectorDbStorage.java:31-38 | NotFound exactly when no director has that id |
| DirectorTable.Create | src/main/java/ru/yandex/practicum/filmorate/storage/impl/DirectorDbStorage.java:40-55 | the director is returned under a fresh id, is found under it, and no earlier director changes |
| DirectorTable.Update | src/main/java/ru/yandex/practicum/filmorate/storage/impl/DirectorDbStorage.java:57-74 | NotFound for a null or unknown id with nothing changed; otherwise only that director's name changes |
| DirectorTable.Delete | src/main/java/ru/yandex/practicum/filmorate/storage/impl/DirectorDbStorage.java:76-85 | NotFound for an unknown id; otherwise exactly that director goes |
| DirectorTable.DeleteAllDirectorByFilm | src/main/java/ru/yandex/practicum/filmorate/storage/impl/DirectorDbStorage.java:87-93 | the film has no links afterwards, and every link of another film stays |
| DirectorTable.CreateDirectorByFilm | src/main/java/ru/yandex/practicum/filmorate/storage/impl/DirectorDbStorage.java:95-103 | the pair is linked afterwards and nothing else changes |
| DirectorTable.GetDirectorIdsForFilmId | src/main/java/ru/yandex/practicum/filmorate/storage/impl/DirectorDbStorage.java:105-120 | nothing for a film whose row is gone; otherwise one director per link of the film: the stored director, or id 0 with no name when its row is gone |
| DirectorTable.CreateDirectorByFilmIdempotent | src/main/java/ru/yandex/practicum/filmorate/storage/impl/DirectorDbStorage.java:95-103 | linking the same pair twice is linking it once |
| DirectorTable.UpdateThenGet | src/main/java/ru/yandex/practicum/filmorate/storage/impl/DirectorDbStorage.java:31-74 | an updated director reads back as sent; every other reads as before |
| DirectorTable.DeleteAllKeepsOtherFilms | src/main/java/ru/yandex/practicum/filmorate/storage/impl/DirectorDbStorage.java:87-93 | the directors of every other film are untouched |
| FilmTables.LinkAll | src/main/java/ru/yandex/practicum/filmorate/storage/impl/FilmDbStorage.java:116-120 | succeeds exactly when every listed director has an id, and then adds exactly those ids to the film's links; other films untouched |
| FilmTables.SaveDirectorByFilm | src/main/java/ru/yandex/practicum/filmorate/storage/impl/FilmDbStorage.java:113-121 | on success the film's directors are exactly the listed ids (none for a null list); other films' links untouched |
| FilmTables.ResyncGenres | src/main/java/ru/yandex/practicum/filmorate/storage/impl/FilmDbStorage.java:91-109 | the film's genres become exactly the requested set; other films' genre rows untouched |
| FilmTables.AddFilm | src/main/java/ru/yandex/practicum/filmorate/storage/impl/FilmDbStorage.java:47-74 | a null rating fails before any write; the row goes under a fresh id with its genres; with a null genre list it returns early and links no directors |
| FilmTables.EditFilm | src/main/java/ru/yandex/practicum/filmorate/storage/impl/FilmDbStorage.java:76-111 | overwrites the row if present, makes the genres exactly the requested set and the directors exactly the listed ones; likes and other films untouched |
| FilmTables.DeleteFilmById | src/main/java/ru/yandex/practicum/filmorate/storage/impl/FilmDbStorage.java:362-366 | exactly that film's row goes |
| FilmTables.ReadFilm | src/main/java/ru/yandex/practicum/filmorate/storage/impl/FilmDbStorage.java:177-189 | a row reads as a film with its own name, description, release date and rating id, its duration with NULL read as 0, an empty genre list, no likes and no directors |
| FilmTables.FillFilms | src/main/java/ru/yandex/practicum/filmorate/storage/impl/FilmDbStorage.java:133-161 | the first film with each id gains exactly its likers and its genre rows; later duplicates and other fields are left alone |
| FilmTables.FillReadShows | src/main/java/ru/yandex/practicum/filmorate/storage/impl/FilmDbStorage.java:123-161 | reading distinct ids and filling them shows each film with exactly its likers and genres |
| FilmTables.GetAll | src/main/java/ru/yandex/practicum/filmorate/storage/impl/FilmDbStorage.java:123-131 | every stored film once, each with exactly its likers and genres |
| FilmTables.GetById | src/main/java/ru/yandex/practicum/filmorate/storage/impl/FilmDbStorage.java:191-207 | empty exactly for an id not stored; otherwise the film with exactly its likers and genres |
| FilmTables.AddAppraiser | src/main/java/ru/yandex/practicum/filmorate/storage/impl/FilmDbStorage.java:219-228 | a new (user, film) pair is inserted and nothing else changes; an existing pair breaks the unique key and fails with Internal, changing nothing |
| FilmTables.AddAppraiserCounts | src/main/java/ru/yandex/practicum/filmorate/storage/impl/FilmDbStorage.java:209-228 | the count `getPopularFilms` ranks by rises by one on a first like, not at all on a repeated one, and never for another film |
| FilmTables.IsFilmHasAppraiser | src/main/java/ru/yandex/practicum/filmorate/storage/impl/FilmDbStorage.java:230-241 | true exactly when the (user, film) pair is stored |
| FilmTables.RemoveAppraiser | src/main/java/ru/yandex/practicum/filmorate/storage/impl/FilmDbStorage.java:243-252 | deletes exactly the (user, film) pair; nothing else changes |
| FilmTables.GetPopularFilms | src/main/java/ru/yandex/practicum/filmorate/storage/impl/FilmDbStorage.java:209-217 | the top `count` films by like count, each shown in full; a negative count fails |
| FilmTables.UniqueFavouriteIsSoleAnswer | src/main/java/ru/yandex/practicum/filmorate/storage/impl/FilmDbStorage.java:209-217 | with count 1, a film liked strictly more than every other is the only answer |
| FilmTables.GetSortDirectorsOfFilms | src/main/java/ru/yandex/practicum/filmorate/storage/impl/FilmDbStorage.java:254-294 | exactly the director's films, ascending by release day or by like count; a film without a release date makes it fail |
| FilmTables.SearchBy | src/main/java/ru/yandex/practicum/filmorate/storage/impl/FilmDbStorage.java:316-342 | NotFound exactly when `by` names neither "title" nor "director"; otherwise title and director matching are used exactly as named |
| FilmTables.MoviesSharedWithFriend | src/main/java/ru/yandex/practicum/filmorate/storage/impl/FilmDbStorage.java:348-360 | exactly the stored films liked by both users, once each, read from their rows |
| FilmTables.SharedWithFriendSymmetric | src/main/java/ru/yandex/practicum/filmorate/storage/impl/FilmDbStorage.java:348-360 | swapping the two users gives the same answer |
| FilmTables.SharedMeansLikedByBoth | src/main/java/ru/yandex/practicum/filmorate/storage/impl/FilmDbStorage.java:230-360 | a film is shared exactly when both users are its appraisers |
| FilmTables.AppraiserAfterAddAndRemove | src/main/java/ru/yandex/practicum/filmorate/storage/impl/FilmDbStorage.java:219-252 | the pair is recorded right after an add and not recorded right after a remove |
| FilmTables.AddThenRemoveRestores | src/main/java/ru/yandex/practicum/filmorate/storage/impl/FilmDbStorage.java:219-252 | adding a new like and removing it restores the database |
| FilmTables.EditThenGenres | src/main/java/ru/yandex/practicum/filmorate/storage/impl/FilmDbStorage.java:91-109 | after an edit the film's genres are exactly those requested, and another film's are as before |
| FilmTables.AddThenGet | src/main/java/ru/yandex/practicum/filmorate/storage/impl/FilmDbStorage.java:47-207 | a film just added reads back under its new id with its name, description, release date and rating |
| FilmService.SetMPA | src/main/java/ru/yandex/practicum/filmorate/service/FilmService.java:41-47 | NotFound exactly for a rating id that is unknown; a null rating passes |
| FilmService.SetGenres | src/main/java/ru/yandex/practicum/filmorate/service/FilmService.java:64-69 | a null or empty list is left alone; otherwise the list holds each known requested genre exactly once and nothing else |
| FilmService.SetGenresIdempotent | src/main/java/ru/yandex/practicum/filmorate/service/FilmService.java:64-69 | resolving genres twice is resolving them once |
| FilmService.AddFilm | src/main/java/ru/yandex/practicum/filmorate/service/FilmService.java:35-39 | NotFound for an unknown rating, Internal for a null one; succeeds exactly for a known rating with no genre list, no director list or only identified directors; with a known rating the row written under the fresh id carries the sent fields and rating, the film gains exactly the known requested genres and no other film's genre rows change; on success with a genre list its director links are exactly the requested ids; the feed is untouched |
| FilmService.GetFilmById | src/main/java/ru/yandex/practicum/filmorate/service/FilmService.java:75-81 | NotFound exactly for an unknown film; otherwise the film read in full, with one director per link: every linked director still stored appears with its name, and every entry is a linked stored director or id 0 with no name |
| FilmService.EditFilm | src/main/java/ru/yandex/practicum/filmorate/service/FilmService.java:49-62 | Internal for a null id; otherwise NotFound exactly for an unknown film or rating, with nothing changed; succeeds exactly for a stored film, a known rating, a genre list and no director list or only identified directors; with a stored film and known rating the film's row becomes the sent fields and rating and no other row changes, a genre list becomes exactly the film's known requested genres with no other film's genre rows changed; on success the director links are exactly the requested ids, and every returned field comes from the request; the likes and feed are kept |
| FilmService.EditWritesRequest | src/main/java/ru/yandex/practicum/filmorate/service/FilmService.java:49-62 | the record built from the stored film and the request is written as the request: its row, its known genres, its director links, and the success condition of the write |
| FilmService.EditThenGet | src/main/java/ru/yandex/practicum/filmorate/service/FilmService.java:49-81 | an edited film reads back with the sent fields, its resolved genres and its old likes |
| FilmService.LikeFilm | src/main/java/ru/yandex/practicum/filmorate/service/FilmService.java:83-86 | with no duplicate check of its own, a repeated like fails with Internal before any event is written and changes nothing; otherwise the like is recorded and one LIKE/ADD event by the user on the film is appended |
| FilmService.UnLikeFilm | src/main/java/ru/yandex/practicum/filmorate/service/FilmService.java:88-94 | NotFound with nothing written unless the user liked the film; otherwise the like goes and one LIKE/REMOVE event is appended |
| FilmService.LikeThenUnlike | src/main/java/ru/yandex/practicum/filmorate/service/FilmService.java:83-94 | an unlike right after a like succeeds, restores the likes of a first like, and leaves two events |
| FilmService.RepeatedLikeRejected | src/main/java/ru/yandex/practicum/filmorate/service/FilmService.java:83-86 | liking the same film twice: the second like fails and leaves the state the first one made |
| FilmService.GetSortDirectorsOfFilms | src/main/java/ru/yandex/practicum/filmorate/service/FilmService.java:96-99 | NotFound for an unknown director before any film is read; otherwise only that director's films |
| FilmService.DeleteFilmById | src/main/java/ru/yandex/practicum/filmorate/service/FilmService.java:109-113 | NotFound exactly for an unknown film; otherwise exactly that film goes |
| FilmService.DeleteThenGet | src/main/java/ru/yandex/practicum/filmorate/service/FilmService.java:75-113 | a deleted film is NotFound on read and on a second delete |
| FilmService.AddFilmKeepsRefsKnown | src/main/java/ru/yandex/practicum/filmorate/service/FilmService.java:35-47 | adding a film keeps every film's rating and every genre row's genre among the known ids |
| FilmService.EditFilmKeepsRefsKnown | src/main/java/ru/yandex/practicum/filmorate/service/FilmService.java:49-69 | editing a film keeps every film's rating and every genre row's genre among the known ids |
| FilmService.OtherWritesKeepRefsKnown | src/main/java/ru/yandex/practicum/filmorate/service/FilmService.java:83-113 | deleting, liking and unliking a film keep every reference known |
| FilmService.GetPopularFilms | src/main/java/ru/yandex/practicum/filmorate/service/FilmService.java:115-117 | the top `count` films by like count; genre and year play no part |
| ReviewTables.FindById | src/main/java/ru/yandex/practicum/filmorate/storage/impl/ReviewDbStorage.java:56-80 | empty exactly for an unknown id; the stored fields, the BIT read as `== 1`, and `useful` the sum of the vote rates |
| ReviewTables.Save | src/main/java/ru/yandex/practicum/filmorate/storage/impl/ReviewDbStorage.java:23-46 | without an id: NotFound for an unknown user or film, Integrity for a second review of the film by the user, otherwise a fresh id; with an id: only content and isPositive change, and an unknown id is Internal |
| ReviewTables.IsPositiveRoundTrip | src/main/java/ru/yandex/practicum/filmorate/storage/impl/ReviewDbStorage.java:30-75 | `isPositive` written as 1/0 reads back as the same boolean, on insert and on update |
| ReviewTables.DeleteById | src/main/java/ru/yandex/practicum/filmorate/storage/impl/ReviewDbStorage.java:48-54 | the review is no longer found; every other reads as before |
| ReviewTables.UsefulWithoutVotes | src/main/java/ru/yandex/practicum/filmorate/storage/impl/ReviewDbStorage.java:61 | a review with no votes has `useful` 0 |
| ReviewTables.UsefulAppend | src/main/java/ru/yandex/practicum/filmorate/storage/impl/ReviewDbStorage.java:61 | a new vote adds its rate to its own review's `useful` and nothing to another's |
| ReviewTables.FindAll | src/main/java/ru/yandex/practicum/filmorate/storage/impl/ReviewDbStorage.java:92-100 | the `count` most useful reviews, best first; a negative count fails |
| ReviewTables.FindAllByFilm | src/main/java/ru/yandex/practicum/filmorate/storage/impl/ReviewDbStorage.java:82-90 | the `count` most useful reviews of the film and of no other film, best first |
| ReviewTables.AddLike | src/main/java/ru/yandex/practicum/filmorate/storage/impl/ReviewDbStorage.java:102-109 | Integrity exactly when the user already voted on the review; otherwise the review's `useful` moves by the rate and no other review's does |
| ReviewTables.DeleteLike | src/main/java/ru/yandex/practicum/filmorate/storage/impl/ReviewDbStorage.java:111-118 | removes exactly the vote with that review, user and rate; every other vote stays |
| ReviewTables.RemoveTakesRateOff | src/main/java/ru/yandex/practicum/filmorate/storage/impl/ReviewDbStorage.java:111-118 | with one vote per (review, user), removing a stored vote takes exactly its rate off its review's `useful` |
| ReviewTables.DeleteLikeEffect | src/main/java/ru/yandex/practicum/filmorate/storage/impl/ReviewDbStorage.java:111-118 | deleting with the stored vote's rate lowers `useful` by that rate; with any other rate nothing changes |
| ReviewTables.AddThenDeleteRestores | src/main/java/ru/yandex/practicum/filmorate/storage/impl/ReviewDbStorage.java:102-118 | a first vote added and deleted with the same rate restores the votes |
| ReviewService.AddReview | src/main/java/ru/yandex/practicum/filmorate/service/ReviewService.java:26-37 | any id sent is ignored; NotFound for an unknown user or film; Conflict for a second review; on success a fresh id and a REVIEW/ADD event by the author on the new review |
| ReviewService.AddReviewJoinsAuthorFeed | src/main/java/ru/yandex/practicum/filmorate/service/ReviewService.java:26-37 | a new review adds exactly one REVIEW/ADD event to its author's feed |
| ReviewService.AddThenGet | src/main/java/ru/yandex/practicum/filmorate/service/ReviewService.java:26-64 | a new review reads back with the content, polarity, user and film sent |
| ReviewService.EditReview | src/main/java/ru/yandex/practicum/filmorate/service/ReviewService.java:39-50 | with an id: Internal for an unknown one, otherwise only content and polarity change and the REVIEW/UPDATE event names the stored author; without an id it creates, and a duplicate is NotFound |
| ReviewService.EditCreditsStoredAuthor | src/main/java/ru/yandex/practicum/filmorate/service/ReviewService.java:39-50 | an edit sent in another user's name lands in the author's feed and not in the sender's |
| ReviewService.DeleteReview | src/main/java/ru/yandex/practicum/filmorate/service/ReviewService.java:52-58 | NotFound with nothing written for an unknown id; otherwise the review goes and a REVIEW/REMOVE event names its author |
| ReviewService.GetReviewById | src/main/java/ru/yandex/practicum/filmorate/service/ReviewService.java:60-64 | NotFound exactly when the review is absent |
| ReviewService.DeleteThenGet | src/main/java/ru/yandex/practicum/filmorate/service/ReviewService.java:52-64 | a deleted review is NotFound on read and on a second delete |
| ReviewService.GetReviews | src/main/java/ru/yandex/practicum/filmorate/service/ReviewService.java:66-74 | the `count` most useful reviews, of one film when one is given |
| ReviewService.Rate | src/main/java/ru/yandex/practicum/filmorate/service/ReviewService.java:76-92 | a second vote by the user on the review is NotFound; otherwise `useful` moves by the rate, no other review's does, and the feed is untouched |
| ReviewService.AddLike | src/main/java/ru/yandex/practicum/filmorate/service/ReviewService.java:76-83 | a first vote raises `useful` by one |
| ReviewService.AddDislike | src/main/java/ru/yandex/practicum/filmorate/service/ReviewService.java:85-92 | a first vote lowers `useful` by one |
| ReviewService.LikeBlocksDislike | src/main/java/ru/yandex/practicum/filmorate/service/ReviewService.java:76-92 | after a like, a dislike by the same user fails with NotFound and changes nothing |
| ReviewService.DeleteLike | src/main/java/ru/yandex/practicum/filmorate/service/ReviewService.java:94-97 | removes only a +1 vote by the user |
| ReviewService.DeleteDislike | src/main/java/ru/yandex/practicum/filmorate/service/ReviewService.java:99-102 | removes only a -1 vote by the user |
| ReviewService.DeleteLikeEffect | src/main/java/ru/yandex/practicum/filmorate/service/ReviewService.java:94-97 | removing a like lowers `useful` by one and leaves a dislike by the same user in place |
| ReviewService.LikeThenDeleteLike | src/main/java/ru/yandex/practicum/filmorate/service/ReviewService.java:76-97 | a first like followed by its deletion restores the state |
| Validation.ValidateFilm | src/main/java/ru/yandex/practicum/filmorate/controller/FilmController.java:34-48 | accepted exactly when the name is present and not blank, the trimmed description has at most 200 UTF-16 units, the release date is present and not before 1895-12-28, and the duration is absent or positive |
| Validation.ReleaseDateBoundary | src/main/java/ru/yandex/practicum/filmorate/controller/FilmController.java:22-41 | 1895-12-28 passes; 1895-12-27 and a missing date fail |
| Validation.DescriptionBoundary | src/main/java/ru/yandex/practicum/filmorate/controller/FilmController.java:38-39 | a description of at most 200 UTF-16 units leaves the verdict to the other rules; more than 200 without blanks at either end fail |
| Validation.SurrogatePairsCountTwice | src/main/java/ru/yandex/practicum/filmorate/controller/FilmController.java:38-39 | 101 emoji (202 UTF-16 units) fail the description rule, while 200 plain letters pass it |
| Validation.DurationRule | src/main/java/ru/yandex/practicum/filmorate/controller/FilmController.java:42-43 | a missing duration passes; a present one passes exactly when at least 1 |
| Validation.WithDefaultName | src/main/java/ru/yandex/practicum/filmorate/controller/UserController.java:40-41 | only the name changes, and it ends up non-blank exactly when it was non-blank or the login is |
| Validation.ValidateUser | src/main/java/ru/yandex/practicum/filmorate/controller/UserController.java:34-48 | accepted exactly when the email is present, not blank and has '@', the login passes, and the birthday is present and not after today; once email and login pass, the name is non-blank |
| Validation.ValidateUserIdempotent | src/main/java/ru/yandex/practicum/filmorate/controller/UserController.java:34-48 | an accepted user passes again, unchanged |
| Validation.NameDefaultPrecedesBirthday | src/main/java/ru/yandex/practicum/filmorate/controller/UserController.java:40-43 | a missing name becomes the login even when the birthday then rejects the user |
| Validation.BirthdayBoundary | src/main/java/ru/yandex/practicum/filmorate/controller/UserController.java:42-43 | a birthday of today passes; a later one fails |
| Validation.SpacedLoginPasses | src/main/java/ru/yandex/practicum/filmorate/controller/UserController.java:38-39 | the whitespace check never rejects a non-blank login, so "sd " passes |
| Validation.ValidateUserIntended | src/main/java/ru/yandex/practicum/filmorate/controller/UserController.java:38-39 | as `validateUser`, but an accepted login contains no whitespace character |
| Validation.IntendedRefinesWritten | src/main/java/ru/yandex/practicum/filmorate/controller/UserController.java:34-48 | the intended rule accepts only what the written one accepts, agrees with it on logins without whitespace, and rejects "sd " |

## Left out

- SQL text, JDBC mapping and key holders are not modelled. Each table is a map, set or sequence, and each statement is its effect on it.
- The database schema is not part of this model. Foreign keys, cascades on delete and unique keys are assumed only where an error handler names them, and in one more place, APPRAISERS (below). As a result, deleting a film, director or review leaves its links, likes and votes in place. A vote on an unknown review or by an unknown user is accepted.
- Concurrency is not modelled. `ConcurrentHashMap` and `AtomicInteger` are modelled sequentially.
- Transactions are modelled only as the source has them. The review operations are `@Transactional`, and a failing one returns the state it was given. The friend and film operations keep the writes made before an exception, as the source does:
  - `FilmTables.EditFilm` keeps the row it wrote before a null genre list fails;
  - `FilmTables.LinkAll` keeps the links made before a director without an id;
  - `UserService.AddFriend` writes its feed event before the save. A failed save would keep the event, but that branch cannot be taken: both users were found first, so the friend row's foreign keys hold, and the contract's success condition covers every request that gets past the checks.
- The overflow of the `int` id counters is not modelled: integers are unbounded.
- The clock (`LocalDate.now()`, `Instant.now()`) is a parameter.
- Recommendations are not modelled. The film-side storage has no algorithm: the in-memory version throws and the user-side version returns null. `UserService.GetRecommendations` takes the computed list as a parameter.
- The LIKE matching of `searchMovieByTitleAndDirector` is not modelled: string wildcards are out of scope. Only the dispatch on `by` is modelled, as `FilmTables.SearchBy`.
- Genre and year filters on popular films are not modelled. The in-memory store ignores them, and `FilmDbStorage` has only `getPopularFilms(int count)`. `FilmService.GetPopularFilms` calls a three-argument method that the database storage does not declare, so the model uses the database ranking and ignores genre and year.
- FilmService.GetPopularFilms: the comparator's tie order is left open (the `order` parameter); no id tie-break is promised.
- FilmTables.GetSortDirectorsOfFilms: sorts by like count ascending, as the code does (`ASC`). The likes sort is not descending.
- Scans without ORDER BY are listed in ascending id order. This covers genre rows, director links, shared-like films and the feed (a set). The hash set that `getCommonFriends` iterates is listed the same way. Most statements about these lists are at set level. Two state list equality, and rest on the ascending choice: FilmTables.SharedWithFriendSymmetric and UserService.CommonFriendsSymmetric. With another scan order, only their set-level readings (`FilmTables.SharedMeansLikedByBoth`, `UserService.CommonFriendsMembers`) carry over.
- The scan of USER_FRIENDS behind `findAllByUser` has no ORDER BY either; the model returns the rows in insertion order. FriendTable.SaveListsOneWay and UserService.FriendsAreSentRequests state list order on that basis, and a database may return the rows in another order.
- UserService is wired to the database user storage, but `UserStore` models the in-memory one. Its `getUsersById` looks the ids up in the order given and keeps repeats, while the database version is one unordered `IN` query that returns each user once. `UserStore.GetUsersById` and `UserStore.GetUsersByIdAppend` state the in-memory order.
- FilmTables.AddAppraiser: APPRAISERS is assumed to have a unique key on (user_id, film_id), so a repeated like fails with Internal. Without that key the INSERT would add a second row, and `getPopularFilms` would count it. No foreign key is assumed, so a like for an unknown user or film is accepted.
- FilmService.LikeFilm: rests on the same unique key. A repeated like fails before the feed event is written.
- A negative `count` for `Stream.limit` or SQL `LIMIT` is modelled as failing with Internal. The controller declares `@Positive` on the review count, but the class is not marked for method validation, so nothing enforces it.
- FilmService delegates (`getAll`, `searchMovieByTitleAndDirector`, `moviesSharedWithFriend`) are modelled at the storage layer (`FilmTables.GetAll`, `FilmTables.SearchBy`, `FilmTables.MoviesSharedWithFriend`), because the service adds nothing.
- The service-level user delegates (`getAll`, `addUser`, `editUser`, `deleteUserById`) are not modelled: they only forward to the user storage, which `UserStore` models.
- The names of genres and ratings are not modelled. The lookups by id (`GenreDbStorage`, `MotionPictureAssociationDbStorage`) become the sets of known ids in `FilmService.State`.
- Interfaces that disagree with their callers are modelled as the callers use them:
  - `UserStorage.getById` is used as returning `Optional`;
  - `UserFriend` has no `id` field but is given one;
  - `DirectorStorage` declares `getDirectorsForFilmId` while the implementation defines `getDirectorIdsForFilmId`.
- `FilmTables.EditFilm` with a null id is modelled as Internal with nothing written. The source would bind a null id into the UPDATE.
- A null appraiser set is not told apart from an empty one.
- FilmTables.FillFilms: the inner join of FILM_GENRES with GENRES (FilmDbStorage.java:137-138) is not modelled. The source would drop a genre row whose genre is unknown; the model reads it. No such row exists while `FilmService.RefsKnown` holds. The film writers keep that invariant (`FilmService.AddFilmKeepsRefsKnown`, `FilmService.EditFilmKeepsRefsKnown`, `FilmService.OtherWritesKeepRefsKnown`), because `setGenres` drops unknown genre ids. Only a direct storage call could store such a row.
- FilmTables.GetAll: the inner join with MOTION_PICTURE_ASSOCIATIONS (FilmDbStorage.java:126) is not modelled. The source would leave out a film whose rating is unknown; the model lists it. No such film exists while `FilmService.RefsKnown` holds, because `setMPA` checks the rating on every add and edit.
- FilmTables.GetById: the inner join with MOTION_PICTURE_ASSOCIATIONS (FilmDbStorage.java:193-194) is not modelled. The source would read a film with an unknown rating as absent; the model returns it. This cannot happen while `FilmService.RefsKnown` holds.
- FilmTables.GetPopularFilms: the inner join with MOTION_PICTURE_ASSOCIATIONS (FilmDbStorage.java:212) is not modelled. The source would rank without a film whose rating is unknown; the model ranks it. This cannot happen while `FilmService.RefsKnown` holds.
- FilmTables.MoviesSharedWithFriend: the inner join with MOTION_PICTURE_ASSOCIATIONS (FilmDbStorage.java:351) is not modelled. The source would leave out a shared film whose rating is unknown; the model lists it. This cannot happen while `FilmService.RefsKnown` holds.
- FilmTables.ResyncGenres: FILM_GENRES is modelled as a set of (film, genre) pairs, so it cannot hold a repeated row. The path that handles one is not modelled. A direct storage call with a repeated genre id could store two equal rows if the table has no unique key. A later edit keeping that genre would then remove it: `removeIf` (FilmDbStorage.java:98) leaves one copy in the removal list, and the DELETE matches both rows. Through the service this cannot arise, because `setGenres` passes each id once (`FilmService.SetGenres` proves the list distinct).
- Bean-validation annotations (`@Valid`, `@NotNull`) on the review body are not modelled: a review's content and flags are always present.
- `FilmTables.AddFilm` returns early for a null genre list and links no directors. This is modelled as the code behaves, not as a defect.
- HTTP status mapping, controllers other than the two validators, logging and console output are not modelled.

## Findings

| source | as written | input that shows it | evidently intended | confidence | as-written member | corrected member |
|---|---|---|---|---|---|---|
| src/main/java/ru/yandex/practicum/filmorate/controller/UserController.java:38-39 | the login check `login.matches("\\s")` accepts any non-blank login, because `matches` needs the whole string to be one whitespace character | login "sd " with a valid email and birthday passes | a login that contains whitespace anywhere is rejected, as the error message says and as the test `userLoginHasSpaceTest` expects | medium, not executed | Validation.SpacedLoginPasses | Validation.ValidateUserIntended |

=== FILE: common.dfy ===
/** Shared vocabulary of the filmorate model: optional values, the error kinds
    the services surface, calendar dates, Java's `String.trim`, and the
    enumeration of a finite set of identifiers. */
module Common {

  /** A value that may be absent; stands for a Java reference that may be null
      and for `java.util.Optional`. */
  datatype Option<+T> = None | Some(value: T)

  /** The failures an operation can end in.
      NotFound, Conflict and Validation are the application's own exceptions.
      Integrity is a constraint violation reported by the database.
      Internal is any other runtime failure: a null dereference, a query that
      returns more rows than expected, `Optional.get` on an empty value, an
      illegal argument. */
  datatype Error = NotFound | Conflict | Validation | Integrity | Internal

  datatype Result<+T> = Ok(value: T) | Err(error: Error)

  /** A calendar day. */
  datatype Date = Date(year: int, month: int, day: int)
  {
    predicate Valid() {
      1 <= month <= 12 && 1 <= day <= 31
    }
  }

  /** The days a `java.time.LocalDate` can denote (the month length is not
      checked: no operation of the model depends on it). */
  type LocalDate = d: Date | d.Valid() witness Date(1970, 1, 1)

  /** `a.isBefore(b)`: chronological order is lexicographic on
      (year, month, day). */
  predicate IsBefore(a: Date, b: Date) {
    || a.year < b.year
    || (a.year == b.year && a.month < b.month)
    || (a.year == b.year && a.month == b.month && a.day < b.day)
  }

  /** A number per day that grows with the date; sorting by it sorts
      chronologically. */
  function DayNumber(d: LocalDate): int {
    d.year * 372 + (d.month - 1) * 31 + (d.day - 1)
  }

  /** Sorting by `DayNumber` is sorting chronologically. */
  lemma DayNumberReflectsOrder(a: LocalDate, b: LocalDate)
    ensures IsBefore(a, b) <==> DayNumber(a) < DayNumber(b)
  {
    var da := (a.month - 1) * 31 + (a.day - 1);
    var db := (b.month - 1) * 31 + (b.day - 1);
    assert 0 <= da < 372 && 0 <= db < 372;
    if a.year < b.year {
      assert a.year * 372 + 372 <= b.year * 372;
    } else if a.year > b.year {
      assert b.year * 372 + 372 <= a.year * 372;
    }
  }

  // ---------------------------------------------------------------------
  // Java `String.trim()`: strips every character whose code is at most
  // U+0020 from both ends.

  predicate IsTrimmable(c: char) {
    c <= ' '
  }

  /** `s.trim().isEmpty()`, the source's notion of a blank string. */
  predicate IsBlank(s: string) {
    forall i :: 0 <= i < |s| ==> IsTrimmable(s[i])
  }

  function TrimStart(s: string): (r: string)
    ensures |r| <= |s| && r == s[|s| - |r|..]
    ensures forall i :: 0 <= i < |s| - |r| ==> IsTrimmable(s[i])
    ensures |r| > 0 ==> !IsTrimmable(r[0])
  {
    if |s| > 0 && IsTrimmable(s[0]) then TrimStart(s[1..]) else s
  }

  function TrimEnd(s: string): (r: string)
    ensures |r| <= |s| && r == s[..|r|]
    ensures forall i :: |r| <= i < |s| ==> IsTrimmable(s[i])
    ensures |r| > 0 ==> !IsTrimmable(r[|r| - 1])
  {
    if |s| > 0 && IsTrimmable(s[|s| - 1]) then TrimEnd(s[..|s| - 1]) else s
  }

  /** `s.trim()`: the longest slice of `s` that neither starts nor ends with a
      trimmable character. */
  function Trim(s: string): (r: string)
    ensures |r| <= |s|
    ensures |r| > 0 ==> !IsTrimmable(r[0]) && !IsTrimmable(r[|r| - 1])
    ensures r == [] <==> IsBlank(s)
    ensures exists i, j :: 0 <= i <= j <= |s| && r == s[i..j] && TrimmedAround(s, i, j)
  {
    var r1 := TrimStart(s);
    var r := TrimEnd(r1);
    var i := |s| - |r1|;
    assert r == s[i..i + |r|] && TrimmedAround(s, i, i + |r|);
    r
  }

  /** Everything of `s` before `i` and from `j` on is trimmable. */
  predicate TrimmedAround(s: string, i: int, j: int)
    requires 0 <= i <= j <= |s|
  {
    (forall k :: 0 <= k < i ==> IsTrimmable(s[k])) && (forall k :: j <= k < |s| ==> IsTrimmable(s[k]))
  }

  /** `String.length()`: Java counts UTF-16 code units, so a character above
      U+FFFF (a surrogate pair) counts twice. */
  function Utf16Length(s: string): (n: nat)
    ensures |s| <= n <= 2 * |s|
    ensures n == |s| + |Supplementary(s)|
  {
    if s == [] then 0
    else
      var k := |s| - 1;
      SupplementaryLast(s);
      Utf16Length(s[..k]) + (if IsSupplementary(s[k]) then 2 else 1)
  }

  /** A character outside the Basic Multilingual Plane, which UTF-16 stores
      as a surrogate pair. */
  predicate IsSupplementary(c: char) {
    c as int > 0xFFFF
  }

  /** The positions of `s` holding such characters. */
  function Supplementary(s: string): set<int> {
    set i | 0 <= i < |s| && IsSupplementary(s[i])
  }

  lemma SupplementaryLast(s: string)
    requires s != []
    ensures |Supplementary(s)| == |Supplementary(s[..|s| - 1])| + (if IsSupplementary(s[|s| - 1]) then 1 else 0)
  {
    var k := |s| - 1;
    var init := Supplementary(s[..k]);
    if IsSupplementary(s[k]) {
      assert Supplementary(s) == init + {k};
      assert k !in init;
    } else {
      assert Supplementary(s) == init;
    }
  }

  lemma {:induction false} Utf16LengthAppend(a: string, b: string)
    ensures Utf16Length(a + b) == Utf16Length(a) + Utf16Length(b)
    decreases |b|
  {
    if b != [] {
      var b0 := b[..|b| - 1];
      assert (a + b)[..|a + b| - 1] == a + b0;
      Utf16LengthAppend(a, b0);
    } else {
      assert a + b == a;
    }
  }

  /** Trimming never lengthens a string in UTF-16 units either. */
  lemma TrimUtf16Shorter(s: string)
    ensures Utf16Length(Trim(s)) <= Utf16Length(s)
  {
    var i, j :| 0 <= i <= j <= |s| && Trim(s) == s[i..j] && TrimmedAround(s, i, j);
    assert s == s[..i] + s[i..j] + s[j..];
    Utf16LengthAppend(s[..i] + s[i..j], s[j..]);
    Utf16LengthAppend(s[..i], s[i..j]);
  }

  /** `n` copies of one character: `n` units, or `2n` above U+FFFF. */
  lemma {:induction false} Utf16LengthRepeat(c: char, n: nat)
    ensures Utf16Length(seq(n, _ => c)) == n * (if c as int > 0xFFFF then 2 else 1)
  {
    if n > 0 {
      assert seq(n, _ => c)[..n - 1] == seq(n - 1, _ => c);
      Utf16LengthRepeat(c, n - 1);
    }
  }

  // ---------------------------------------------------------------------
  // Finite sets of identifiers as sequences.

  predicate Distinct<T(==)>(s: seq<T>) {
    forall i, j :: 0 <= i < j < |s| ==> s[i] != s[j]
  }

  /** `order` lists every element of `keys` exactly once: one iteration of a
      hash map's key set, or one scan of a table, in an order the source does
      not fix. */
  predicate IsEnumeration(order: seq<int>, keys: set<int>) {
    && Distinct(order)
    && (forall k :: k in order ==> k in keys)
    && (forall k :: k in keys ==> k in order)
  }

  /** A set is empty or has a member. */
  lemma EmptyOrInhabited(s: set<int>)
    ensures s == {} || exists y :: y in s
  {
    if forall y :: y !in s {
      assert s == {};
    }
  }

  lemma LeastExists(s: set<int>)
    requires s != {}
    ensures exists m :: m in s && forall x | x in s :: m <= x
    decreases |s|
  {
    EmptyOrInhabited(s);
    var y :| y in s;
    var rest := s - {y};
    if rest == {} {
      assert s == {y};
    } else {
      LeastExists(rest);
      var m :| m in rest && forall x | x in rest :: m <= x;
      var least := if y < m then y else m;
      forall x | x in s
        ensures least <= x
      {
        if x != y {
          assert x in rest;
        }
      }
    }
  }

  /** The least element of a non-empty set. */
  function Least(s: set<int>): (m: int)
    requires s != {}
    ensures m in s && forall x | x in s :: m <= x
  {
    LeastExists(s);
    var m :| m in s && forall x | x in s :: m <= x;
    m
  }

  /** The elements of `s` in ascending order. */
  function SortedElements(s: set<int>): (r: seq<int>)
    ensures |r| == |s|
    ensures forall x :: x in r <==> x in s
    ensures forall i, j :: 0 <= i < j < |r| ==> r[i] < r[j]
    decreases |s|
  {
    if s == {} then []
    else
      var m := Least(s);
      [m] + SortedElements(s - {m})
  }

  lemma SortedElementsEnumerates(s: set<int>)
    ensures IsEnumeration(SortedElements(s), s)
  {
  }

  function Min(a: int, b: int): int {
    if a <= b then a else b
  }
}

=== FILE: director_table.dfy ===
/** Directors and their links to films (storage/impl/DirectorDbStorage.java):
    the DIRECTORS table as a map from id to name, and FILM_DIRECTORS as a set
    of (directorId, filmId) pairs. */
module DirectorTable {
  import opened Common
  import opened Model

  datatype Table = Table(names: map<int, Option<string>>, links: set<(int, int)>, lastId: int)

  const Empty := Table(map[], {}, 0)

  /** Every stored id is one the identity column has handed out. */
  predicate Valid(t: Table) {
    t.lastId >= 0 && forall k :: k in t.names ==> 1 <= k <= t.lastId
  }

  /** `get`: the director with that id; none is NotFound. */
  function Get(t: Table, id: int): (r: Result<Director>)
    ensures r.Err? <==> id !in t.names
    ensures r.Err? ==> r.error == NotFound
    ensures r.Ok? ==> r.value.id == Some(id) && r.value.name == t.names[id]
  {
    if id in t.names then Ok(Director(Some(id), t.names[id])) else Err(NotFound)
  }

  /** `create`: a new row under the next identity; the director is returned
      carrying it. */
  function Create(t: Table, d: Director): (res: (Director, Table))
    ensures res.0 == d.(id := Some(t.lastId + 1))
    ensures Valid(t) ==> t.lastId + 1 !in t.names && Valid(res.1)
    ensures Get(res.1, t.lastId + 1) == Ok(res.0)
    ensures Valid(t) ==> forall k :: k in t.names ==> k in res.1.names && res.1.names[k] == t.names[k]
    ensures res.1.links == t.links
  {
    var id := t.lastId + 1;
    (d.(id := Some(id)), Table(t.names[id := d.name], t.links, id))
  }

  /** `update`: a missing id and an unknown id are both NotFound; otherwise
      only the name stored under that id changes. */
  function Update(t: Table, d: Director): (res: (Result<Director>, Table))
    ensures res.0.Err? <==> d.id.None? || d.id.value !in t.names
    ensures res.0.Err? ==> res.0.error == NotFound && res.1 == t
    ensures res.0.Ok? ==>
      && res.0.value == d
      && Get(res.1, d.id.value) == Ok(d)
      && res.1.names.Keys == t.names.Keys
      && (forall k :: k in t.names && k != d.id.value ==> res.1.names[k] == t.names[k])
      && res.1.links == t.links && res.1.lastId == t.lastId
  {
    match d.id
    case None => (Err(NotFound), t)
    case Some(id) =>
      match Get(t, id)
      case Err(e) => (Err(e), t)
      case Ok(_) => (Ok(d), t.(names := t.names[id := d.name]))
  }

  /** `delete`: an unknown id is NotFound; otherwise that director's row
      goes and nothing else. */
  function Delete(t: Table, id: int): (res: (Result<()>, Table))
    ensures res.0.Err? <==> id !in t.names
    ensures res.0.Err? ==> res.0.error == NotFound && res.1 == t
    ensures res.0.Ok? ==>
      && Get(res.1, id) == Err(NotFound)
      && res.1.names.Keys == t.names.Keys - {id}
      && (forall k :: k in res.1.names ==> res.1.names[k] == t.names[k])
      && res.1.links == t.links
  {
    match Get(t, id)
    case Err(e) => (Err(e), t)
    case Ok(_) => (Ok(()), t.(names := t.names - {id}))
  }

  /** The directors linked to a film. */
  function LinkedTo(t: Table, filmId: int): set<int> {
    set l | l in t.links && l.1 == filmId :: l.0
  }

  /** `deleteAllDirectorByFilm`: every link of that film goes; links of other
      films stay. */
  function DeleteAllDirectorByFilm(t: Table, filmId: int): (t': Table)
    ensures LinkedTo(t', filmId) == {}
    ensures forall l :: l in t'.links <==> l in t.links && l.1 != filmId
    ensures t'.names == t.names && t'.lastId == t.lastId
  {
    var t' := t.(links := set l | l in t.links && l.1 != filmId);
    assert forall d :: d !in LinkedTo(t', filmId);
    t'
  }

  /** `createDirectorByFilm`: a MERGE, so the pair is present afterwards
      whether or not it was before. */
  function CreateDirectorByFilm(t: Table, directorId: int, filmId: int): (t': Table)
    ensures (directorId, filmId) in t'.links
    ensures forall l :: l in t'.links <==> l in t.links || l == (directorId, filmId)
    ensures LinkedTo(t', filmId) == LinkedTo(t, filmId) + {directorId}
    ensures t'.names == t.names && t'.lastId == t.lastId
  {
    var t' := t.(links := t.links + {(directorId, filmId)});
    assert directorId in LinkedTo(t', filmId) by {
      assert (directorId, filmId) in t'.links;
    }
    t'
  }

  /** `getDirectorIdsForFilmId`: the film's directors, read through outer
      joins: a link whose director row is gone reads as id 0 with no name
      (`getInt` on NULL), and the WHERE clause on the joined FILMS row drops
      every link of a film whose row is gone (`films` are the stored film
      ids). The query fixes no order; the model lists director ids
      ascending. */
  function GetDirectorIdsForFilmId(t: Table, films: set<int>, filmId: int): (r: seq<Director>)
    ensures filmId !in films ==> r == []
    ensures filmId in films ==> |r| == |LinkedTo(t, filmId)|
    ensures filmId in films ==>
      forall d :: d in LinkedTo(t, filmId) && d in t.names ==> Director(Some(d), t.names[d]) in r
    ensures forall i :: 0 <= i < |r| ==>
      || (r[i].id.Some? && r[i].id.value in LinkedTo(t, filmId) && Get(t, r[i].id.value) == Ok(r[i]))
      || r[i] == Director(Some(0), None)
  {
    if filmId !in films then []
    else
      var ids := SortedElements(LinkedTo(t, filmId));
      var r := seq(|ids|, i requires 0 <= i < |ids| => ReadDirector(t, ids[i]));
      assert forall d :: d in ids ==> exists i :: 0 <= i < |ids| && ids[i] == d && r[i] == ReadDirector(t, d);
      r
  }

  /** One row of the outer join. */
  function ReadDirector(t: Table, d: int): Director {
    if d in t.names then Director(Some(d), t.names[d]) else Director(Some(0), None)
  }

  // ---------------------------------------------------------------------
  // Properties.

  /** Linking the same pair twice is linking it once. */
  lemma CreateDirectorByFilmIdempotent(t: Table, directorId: int, filmId: int)
    ensures CreateDirectorByFilm(CreateDirectorByFilm(t, directorId, filmId), directorId, filmId)
         == CreateDirectorByFilm(t, directorId, filmId)
  {
  }

  /** After an update, reading the director back gives the new name, and
      every other director reads as before. */
  lemma UpdateThenGet(t: Table, d: Director, k: int)
    requires d.id.Some? && d.id.value in t.names
    ensures Get(Update(t, d).1, d.id.value) == Ok(d)
    ensures k != d.id.value ==> Get(Update(t, d).1, k) == Get(t, k)
  {
  }

  /** The links of other films are untouched by removing one film's links. */
  lemma DeleteAllKeepsOtherFilms(t: Table, filmId: int, other: int)
    requires other != filmId
    ensures LinkedTo(DeleteAllDirectorByFilm(t, filmId), other) == LinkedTo(t, other)
  {
    var t' := DeleteAllDirectorByFilm(t, filmId);
    forall d
      ensures d in LinkedTo(t', other) <==> d in LinkedTo(t, other)
    {
      if d in LinkedTo(t, other) {
        assert (d, other) in t.links;
        assert (d, other) in t'.links;
      }
      if d in LinkedTo(t', other) {
        assert (d, other) in t'.links;
      }
    }
  }
}

=== FILE: feed_log.dfy ===
/** The activity feed (storage/impl/FeedDbStorage.java): an append-only FEEDS
    table whose rows store the event type and operation by enum name. */
module FeedLog {
  import opened Common

  datatype EventType = LIKE | FRIEND | REVIEW
  datatype Operation = ADD | REMOVE | UPDATE

  /** A feed event as the application reads it (model/Feed.java). `userId` is
      the actor; `entityId` the film, user or review acted upon. */
  datatype Event = Event(
    eventId: int,
    userId: int,
    entityId: int,
    eventType: EventType,
    operation: Operation,
    timestamp: int)

  /** A row of FEEDS: the two enums are stored as their names. */
  datatype Row = Row(
    feedId: int,
    userId: int,
    entityId: int,
    eventType: string,
    operation: string,
    times: int)

  /** The FEEDS table together with the last identity value handed out. */
  datatype Table = Table(rows: seq<Row>, lastId: int)

  const Empty := Table([], 0)

  // ---------------------------------------------------------------------
  // Enum names: `toString()` on write, `valueOf` on read.

  function TypeName(t: EventType): string {
    match t
    case LIKE => "LIKE"
    case FRIEND => "FRIEND"
    case REVIEW => "REVIEW"
  }

  /** `EventType.valueOf`, which throws for a name that is no constant. */
  function ParseType(s: string): (r: Option<EventType>)
    ensures r.Some? ==> s == TypeName(r.value)
    ensures r.None? ==> forall t :: s != TypeName(t)
  {
    if s == "LIKE" then Some(LIKE)
    else if s == "FRIEND" then Some(FRIEND)
    else if s == "REVIEW" then Some(REVIEW)
    else None
  }

  function OperationName(o: Operation): string {
    match o
    case ADD => "ADD"
    case REMOVE => "REMOVE"
    case UPDATE => "UPDATE"
  }

  function ParseOperation(s: string): (r: Option<Operation>)
    ensures r.Some? ==> s == OperationName(r.value)
    ensures r.None? ==> forall o :: s != OperationName(o)
  {
    if s == "ADD" then Some(ADD)
    else if s == "REMOVE" then Some(REMOVE)
    else if s == "UPDATE" then Some(UPDATE)
    else None
  }

  // ---------------------------------------------------------------------
  // Rows and events.

  predicate Decodable(r: Row) {
    ParseType(r.eventType).Some? && ParseOperation(r.operation).Some?
  }

  /** The row that records `e`. */
  function ToRow(e: Event): Row {
    Row(e.eventId, e.userId, e.entityId, TypeName(e.eventType), OperationName(e.operation), e.timestamp)
  }

  /** `makeFeed`: read an event back from a row; an unknown enum name makes
      `valueOf` throw. */
  function MakeFeed(r: Row): (e: Result<Event>)
    ensures e.Ok? <==> Decodable(r)
    ensures e.Ok? ==> ToRow(e.value) == r
    ensures e.Err? ==> e.error == Internal
  {
    match (ParseType(r.eventType), ParseOperation(r.operation))
    case (Some(t), Some(o)) => Ok(Event(r.feedId, r.userId, r.entityId, t, o, r.times))
    case _ => Err(Internal)
  }

  /** Writing a name and reading it back gives the constant written. */
  lemma NamesRoundTrip(t: EventType, o: Operation)
    ensures ParseType(TypeName(t)) == Some(t)
    ensures ParseOperation(OperationName(o)) == Some(o)
  {
  }

  /** Every field written for an event reads back unchanged. */
  lemma RowRoundTrip(e: Event)
    ensures MakeFeed(ToRow(e)) == Ok(e)
  {
  }

  // ---------------------------------------------------------------------
  // The table.

  /** Identity values are positive, distinct and never above the counter;
      every row was written by `CreateFeed`, so every row decodes. */
  predicate Valid(t: Table) {
    && t.lastId >= 0
    && (forall i :: 0 <= i < |t.rows| ==> 1 <= t.rows[i].feedId <= t.lastId)
    && (forall i, j :: 0 <= i < j < |t.rows| ==> t.rows[i].feedId != t.rows[j].feedId)
    && (forall i :: 0 <= i < |t.rows| ==> Decodable(t.rows[i]))
  }

  /** `createFeed`: append one row with a fresh identity; earlier rows are
      never touched. */
  function CreateFeed(t: Table, userId: int, entityId: int, eventType: EventType, operation: Operation, timestamp: int): (t': Table)
    ensures |t'.rows| == |t.rows| + 1
    ensures t'.rows[..|t.rows|] == t.rows
    ensures MakeFeed(t'.rows[|t.rows|]) == Ok(Event(t'.rows[|t.rows|].feedId, userId, entityId, eventType, operation, timestamp))
    ensures Valid(t) ==> Valid(t')
    ensures Valid(t) ==> forall i :: 0 <= i < |t.rows| ==> t.rows[i].feedId != t'.rows[|t.rows|].feedId
  {
    var row := Row(t.lastId + 1, userId, entityId, TypeName(eventType), OperationName(operation), timestamp);
    Table(t.rows + [row], t.lastId + 1)
  }

  /** `getFeeds(id)`: the events whose actor is `id`. The source collects
      them into a set; the query has no ORDER BY, so no order is promised. A
      row that does not decode makes the whole read fail. */
  function GetFeeds(t: Table, id: int): (r: Result<set<Event>>)
    ensures r.Ok? <==> forall i :: 0 <= i < |t.rows| && t.rows[i].userId == id ==> Decodable(t.rows[i])
    ensures r.Ok? ==> forall e :: e in r.value ==> e.userId == id && ToRow(e) in t.rows
    ensures r.Ok? ==> forall i :: 0 <= i < |t.rows| && t.rows[i].userId == id ==> MakeFeed(t.rows[i]).value in r.value
  {
    if exists i :: 0 <= i < |t.rows| && t.rows[i].userId == id && !Decodable(t.rows[i]) then Err(Internal)
    else Ok(set i | 0 <= i < |t.rows| && t.rows[i].userId == id && Decodable(t.rows[i]) :: MakeFeed(t.rows[i]).value)
  }

  /** A valid table never fails to read. */
  lemma ValidFeedsRead(t: Table, id: int)
    requires Valid(t)
    ensures GetFeeds(t, id).Ok?
  {
  }

  /** An event recorded for another actor does not change `id`'s feed. */
  lemma OtherActorLeavesFeed(t: Table, id: int, userId: int, entityId: int, eventType: EventType, operation: Operation, timestamp: int)
    requires userId != id
    ensures GetFeeds(CreateFeed(t, userId, entityId, eventType, operation, timestamp), id) == GetFeeds(t, id)
  {
    var t' := CreateFeed(t, userId, entityId, eventType, operation, timestamp);
    assert forall i :: 0 <= i < |t.rows| ==> t'.rows[i] == t.rows[i];
    var r := GetFeeds(t, id);
    var r' := GetFeeds(t', id);
    assert r.Ok? <==> r'.Ok?;
    if r.Ok? {
      forall e | e in r'.value
        ensures e in r.value
      {
        var i :| 0 <= i < |t'.rows| && t'.rows[i].userId == id && Decodable(t'.rows[i]) && MakeFeed(t'.rows[i]).value == e;
        assert i < |t.rows|;
      }
      forall e | e in r.value
        ensures e in r'.value
      {
        var i :| 0 <= i < |t.rows| && t.rows[i].userId == id && Decodable(t.rows[i]) && MakeFeed(t.rows[i]).value == e;
        assert t'.rows[i] == t.rows[i];
      }
      assert r'.value == r.value;
    }
  }

  /** An event recorded for `id` joins `id`'s feed, and nothing else does. */
  lemma OwnEventJoinsFeed(t: Table, id: int, entityId: int, eventType: EventType, operation: Operation, timestamp: int)
    requires Valid(t)
    ensures GetFeeds(CreateFeed(t, id, entityId, eventType, operation, timestamp), id)
         == Ok(GetFeeds(t, id).value + {Event(t.lastId + 1, id, entityId, eventType, operation, timestamp)})
  {
    var t' := CreateFeed(t, id, entityId, eventType, operation, timestamp);
    var e := Event(t.lastId + 1, id, entityId, eventType, operation, timestamp);
    ValidFeedsRead(t, id);
    ValidFeedsRead(t', id);
    var r := GetFeeds(t, id).value;
    var r' := GetFeeds(t', id).value;
    FeedGainsOnlyNewEvent(t, t', id, e);
    FeedKeepsOldEvents(t, t', id, e);
    assert r' == r + {e};
  }

  /** Every event of the longer feed is an old one or the new one. */
  lemma FeedGainsOnlyNewEvent(t: Table, t': Table, id: int, e: Event)
    requires GetFeeds(t, id).Ok? && GetFeeds(t', id).Ok?
    requires |t'.rows| == |t.rows| + 1 && t'.rows[..|t.rows|] == t.rows
    requires MakeFeed(t'.rows[|t.rows|]) == Ok(e)
    ensures forall x :: x in GetFeeds(t', id).value ==> x in GetFeeds(t, id).value || x == e
  {
    forall x | x in GetFeeds(t', id).value
      ensures x in GetFeeds(t, id).value || x == e
    {
      RowRoundTrip(x);
      var k :| 0 <= k < |t'.rows| && t'.rows[k] == ToRow(x);
      if k < |t.rows| {
        assert t.rows[k] == t'.rows[k];
      }
    }
  }

  /** Every old event, and the new one when it is `id`'s, is in the longer
      feed. */
  lemma FeedKeepsOldEvents(t: Table, t': Table, id: int, e: Event)
    requires GetFeeds(t, id).Ok? && GetFeeds(t', id).Ok?
    requires |t'.rows| == |t.rows| + 1 && t'.rows[..|t.rows|] == t.rows
    requires MakeFeed(t'.rows[|t.rows|]) == Ok(e) && e.userId == id
    ensures forall x :: x in GetFeeds(t, id).value || x == e ==> x in GetFeeds(t', id).value
  {
    assert ToRow(e) == t'.rows[|t.rows|];
    forall x | x in GetFeeds(t, id).value
      ensures x in GetFeeds(t', id).value
    {
      RowRoundTrip(x);
      var k :| 0 <= k < |t.rows| && t.rows[k] == ToRow(x);
      assert t'.rows[k] == t.rows[k];
    }
  }
}

=== FILE: film_service.dfy ===
/** The film service (service/FilmService.java) over the film tables, the
    feed, and the rating (MPA) and genre reference tables, which are given
    as the sets of ids they hold. */
module FilmService {
  import opened Common
  import opened Model
  import FeedLog
  import DirectorTable
  import FilmTables
  import Ranking

  datatype State = State(db: FilmTables.Db, feed: FeedLog.Table, mpas: set<int>, genres: set<int>)

  /** `setMPA`: a rating, when given, must exist. The record found replaces
      the film's and carries the same id, so only the check is left. */
  function SetMPA(s: State, f: Film): (r: Result<()>)
    ensures r.Err? <==> f.mpa.Some? && f.mpa.value !in s.mpas
    ensures r.Err? ==> r.error == NotFound
  {
    if f.mpa.Some? && f.mpa.value !in s.mpas then Err(NotFound) else Ok(())
  }

  /** `setGenres`: a missing or empty list is left alone; otherwise the list
      becomes the genres found for its ids, so duplicates collapse and ids
      with no genre drop out. The lookup has no ORDER BY; the model lists
      ids ascending. */
  function SetGenres(s: State, f: Film): (f': Film)
    ensures f.genres.None? || f.genres.value == [] ==> f' == f
    ensures f' == f.(genres := f'.genres)
    ensures f.genres.Some? ==>
      && f'.genres.Some?
      && FilmTables.GenreSet(f'.genres.value) == FilmTables.GenreSet(f.genres.value) * s.genres
    ensures f.genres.Some? && f.genres.value != [] ==> Distinct(f'.genres.value)
  {
    if f.genres.None? || f.genres.value == [] then f
    else
      var found := SortedElements(FilmTables.GenreSet(f.genres.value) * s.genres);
      assert FilmTables.GenreSet(found) == FilmTables.GenreSet(f.genres.value) * s.genres;
      f.(genres := Some(found))
  }

  /** Every stored film names a known rating and every genre row a known
      genre. The film reads join FILMS with MOTION_PICTURE_ASSOCIATIONS and
      FILM_GENRES with GENRES by inner joins; while this holds those joins
      drop no row, which is why the model's reads leave them out. */
  predicate RefsKnown(s: State)
  {
    && (forall k :: k in s.db.films ==> s.db.films[k].mpaId in s.mpas)
    && (forall p :: p in s.db.filmGenres ==> p.1 in s.genres)
  }

  /** `addFilm`: check the rating, resolve the genres, store the film. */
  function AddFilm(s: State, f: Film): (res: (Result<Film>, State))
    ensures f.mpa.Some? && f.mpa.value !in s.mpas ==> res == (Err(NotFound), s)
    ensures f.mpa.None? ==> res == (Err(Internal), s)
    ensures res.0.Ok? ==>
      && res.0.value.id == Some(s.db.lastId + 1)
      && res.0.value == SetGenres(s, f).(id := res.0.value.id)
      && s.db.lastId + 1 in res.1.db.films
    ensures res.0.Ok? <==>
      && f.mpa.Some? && f.mpa.value in s.mpas
      && (f.genres.None? || f.directors.None? || FilmTables.AllIdentified(f.directors.value))
    ensures f.mpa.Some? && f.mpa.value in s.mpas ==>
      && res.1.db.films == s.db.films[s.db.lastId + 1 := FilmTables.RowOf(f, f.mpa.value)]
      && res.1.db.lastId == s.db.lastId + 1
      && res.1.db.appraisers == s.db.appraisers
    ensures f.mpa.Some? && f.mpa.value in s.mpas && f.genres.Some? ==>
      FilmTables.GenresOf(res.1.db, s.db.lastId + 1)
        == FilmTables.GenresOf(s.db, s.db.lastId + 1) + FilmTables.GenreSet(f.genres.value) * s.genres
    ensures forall p: (int, int) :: p.0 != s.db.lastId + 1 ==> (p in res.1.db.filmGenres <==> p in s.db.filmGenres)
    ensures res.0.Ok? && f.genres.Some? ==>
      DirectorTable.LinkedTo(res.1.db.directors, s.db.lastId + 1) == FilmTables.Requested(f.directors)
    ensures res.1.feed == s.feed && res.1.mpas == s.mpas && res.1.genres == s.genres
  {
    match SetMPA(s, f)
    case Err(e) => (Err(e), s)
    case Ok(_) =>
      var (r, db') := FilmTables.AddFilm(s.db, SetGenres(s, f));
      (r, s.(db := db'))
  }

  /** `getFilmById`: NotFound for an id not stored; otherwise the film read in
      full, with its directors. */
  function GetFilmById(s: State, id: int): (r: Result<Film>)
    ensures r.Err? <==> id !in s.db.films
    ensures r.Err? ==> r.error == NotFound
    ensures r.Ok? ==>
      && FilmTables.Shows(s.db, id, r.value.(directors := None))
      && r.value.directors.Some?
      && |r.value.directors.value| == |DirectorTable.LinkedTo(s.db.directors, id)|
    ensures r.Ok? ==>
      forall d :: d in DirectorTable.LinkedTo(s.db.directors, id) && d in s.db.directors.names ==>
        Director(Some(d), s.db.directors.names[d]) in r.value.directors.value
    ensures r.Ok? ==>
      var ds := r.value.directors.value;
      forall i :: 0 <= i < |ds| ==>
        || (ds[i].id.Some? && ds[i].id.value in DirectorTable.LinkedTo(s.db.directors, id)
            && DirectorTable.Get(s.db.directors, ds[i].id.value) == Ok(ds[i]))
        || ds[i] == Director(Some(0), None)
  {
    match FilmTables.GetById(s.db, id)
    case None => Err(NotFound)
    case Some(f) => Ok(f.(directors := Some(DirectorTable.GetDirectorIdsForFilmId(s.db.directors, s.db.films.Keys, id))))
  }

  /** `editFilm`: the stored film takes the request's rating, duration, name,
      description, release date, genres and directors, keeps its likes,
      and is written back. A request without id fails unboxing it; an
      unknown film or rating is NotFound with nothing written. */
  function EditFilm(s: State, f: Film): (res: (Result<Film>, State))
    ensures res.0.Err? && res.0.error == NotFound <==>
      f.id.Some? && (f.id.value !in s.db.films || (f.mpa.Some? && f.mpa.value !in s.mpas))
    ensures res.0.Err? && res.0.error == NotFound ==> res.1 == s
    ensures f.id.None? ==> res == (Err(Internal), s)
    ensures res.0.Ok? ==>
      && f.id.Some?
      && res.0.value.id == f.id
      && res.0.value.name == f.name && res.0.value.description == f.description
      && res.0.value.releaseDate == f.releaseDate && res.0.value.duration == f.duration
      && res.0.value.mpa == f.mpa && res.0.value.directors == f.directors
      && res.0.value.genres == SetGenres(s, f).genres
      && res.0.value.appraisers == FilmTables.AppraisersOf(s.db, f.id.value)
    ensures res.1.db.appraisers == s.db.appraisers && res.1.feed == s.feed
    ensures res.1.mpas == s.mpas && res.1.genres == s.genres
    ensures res.0.Ok? <==>
      && f.id.Some? && f.id.value in s.db.films
      && f.mpa.Some? && f.mpa.value in s.mpas
      && f.genres.Some?
      && (f.directors.None? || FilmTables.AllIdentified(f.directors.value))
    ensures f.id.Some? && f.id.value in s.db.films && f.mpa.Some? && f.mpa.value in s.mpas ==>
      res.1.db.films == s.db.films[f.id.value := FilmTables.RowOf(f, f.mpa.value)]
    ensures f.id.Some? && f.id.value in s.db.films && f.mpa.Some? && f.mpa.value in s.mpas && f.genres.Some? ==>
      FilmTables.GenresOf(res.1.db, f.id.value) == FilmTables.GenreSet(f.genres.value) * s.genres
    ensures f.id.Some? ==>
      forall p: (int, int) :: p.0 != f.id.value ==> (p in res.1.db.filmGenres <==> p in s.db.filmGenres)
    ensures res.0.Ok? ==>
      DirectorTable.LinkedTo(res.1.db.directors, f.id.value) == FilmTables.Requested(f.directors)
  {
    match f.id
    case None => (Err(Internal), s)
    case Some(id) =>
      match GetFilmById(s, id)
      case Err(e) => (Err(e), s)
      case Ok(stored) =>
        match SetMPA(s, f)
        case Err(e) => (Err(e), s)
        case Ok(_) =>
          var updated := stored.(mpa := f.mpa, duration := f.duration, name := f.name,
                                 description := f.description, releaseDate := f.releaseDate,
                                 genres := SetGenres(s, f).genres, directors := f.directors);
          EditWritesRequest(s, f, updated);
          var (r, db') := FilmTables.EditFilm(s.db, updated);
          (if r.Ok? then Ok(updated) else Err(r.error), s.(db := db'))
  }

  /** What the film tables write for the record `updateFilm` builds, stated
      in terms of the request: its row, its genres after `setGenres`, its
      director links. */
  lemma EditWritesRequest(s: State, f: Film, updated: Film)
    requires f.id.Some? && f.id.value in s.db.films
    requires updated.id == f.id && updated.mpa == f.mpa && updated.name == f.name
    requires updated.description == f.description && updated.releaseDate == f.releaseDate
    requires updated.duration == f.duration && updated.directors == f.directors
    requires updated.genres == SetGenres(s, f).genres
    ensures var (r, db') := FilmTables.EditFilm(s.db, updated);
      && (r.Ok? <==> f.mpa.Some? && f.genres.Some? && (f.directors.None? || FilmTables.AllIdentified(f.directors.value)))
      && (f.mpa.None? ==> db' == s.db)
      && (f.mpa.Some? ==> db'.films == s.db.films[f.id.value := FilmTables.RowOf(f, f.mpa.value)])
      && (f.mpa.Some? && f.genres.Some? ==>
            FilmTables.GenresOf(db', f.id.value) == FilmTables.GenreSet(f.genres.value) * s.genres)
      && (forall p: (int, int) :: p.0 != f.id.value ==> (p in db'.filmGenres <==> p in s.db.filmGenres))
      && (r.Ok? ==> DirectorTable.LinkedTo(db'.directors, f.id.value) == FilmTables.Requested(f.directors))
  {
  }

  /** `likeFilm`: record the like, with no check for a repeated one, then
      append a LIKE/ADD event of the user on the film. A repeated like fails
      the INSERT, so the server error comes before any event is written. */
  function LikeFilm(s: State, id: int, userId: int, timestamp: int): (res: (Result<()>, State))
    ensures res.0.Err? <==> FilmTables.IsFilmHasAppraiser(s.db, id, userId)
    ensures res.0.Err? ==> res.0.error == Internal && res.1 == s
    ensures FilmTables.IsFilmHasAppraiser(res.1.db, id, userId)
    ensures res.0.Ok? ==>
      && res.1.db == FilmTables.AddAppraiser(s.db, id, userId).1
      && |res.1.feed.rows| == |s.feed.rows| + 1 && res.1.feed.rows[..|s.feed.rows|] == s.feed.rows
      && FeedLog.MakeFeed(res.1.feed.rows[|s.feed.rows|]) ==
           Ok(FeedLog.Event(res.1.feed.rows[|s.feed.rows|].feedId, userId, id, FeedLog.LIKE, FeedLog.ADD, timestamp))
  {
    var (r, db') := FilmTables.AddAppraiser(s.db, id, userId);
    if r.Err? then (Err(r.error), s)
    else (Ok(()), s.(db := db', feed := FeedLog.CreateFeed(s.feed, userId, id, FeedLog.LIKE, FeedLog.ADD, timestamp)))
  }

  /** `unLikeFilm`: NotFound, with nothing written, unless the user liked the
      film; otherwise remove the like and append a LIKE/REMOVE event. */
  function UnLikeFilm(s: State, id: int, userId: int, timestamp: int): (res: (Result<()>, State))
    ensures res.0.Err? <==> !FilmTables.IsFilmHasAppraiser(s.db, id, userId)
    ensures res.0.Err? ==> res.0.error == NotFound && res.1 == s
    ensures res.0.Ok? ==>
      && !FilmTables.IsFilmHasAppraiser(res.1.db, id, userId)
      && res.1.db == FilmTables.RemoveAppraiser(s.db, id, userId)
      && |res.1.feed.rows| == |s.feed.rows| + 1 && res.1.feed.rows[..|s.feed.rows|] == s.feed.rows
      && FeedLog.MakeFeed(res.1.feed.rows[|s.feed.rows|]) ==
           Ok(FeedLog.Event(res.1.feed.rows[|s.feed.rows|].feedId, userId, id, FeedLog.LIKE, FeedLog.REMOVE, timestamp))
  {
    if !FilmTables.IsFilmHasAppraiser(s.db, id, userId) then (Err(NotFound), s)
    else
      (Ok(()), s.(db := FilmTables.RemoveAppraiser(s.db, id, userId),
                  feed := FeedLog.CreateFeed(s.feed, userId, id, FeedLog.LIKE, FeedLog.REMOVE, timestamp)))
  }

  /** `getSortDirectorsOfFilms`: an unknown director is NotFound before any
      film is read. */
  function GetSortDirectorsOfFilms(s: State, directorId: int, sort: FilmTables.SortingFilms, order: seq<int>): (r: Result<seq<Film>>)
    requires IsEnumeration(order, FilmTables.DirectedBy(s.db, directorId))
    ensures directorId !in s.db.directors.names ==> r == Err(NotFound)
    ensures r.Err? && r.error != NotFound ==> r.error == Internal
    ensures r.Ok? ==> forall i :: 0 <= i < |r.value| ==>
      r.value[i].id.Some? && r.value[i].id.value in FilmTables.DirectedBy(s.db, directorId)
    ensures directorId in s.db.directors.names ==>
      (r.Ok? <==> forall k :: k in FilmTables.DirectedBy(s.db, directorId) ==> s.db.films[k].releaseDate.Some?)
  {
    match DirectorTable.Get(s.db.directors, directorId)
    case Err(e) => Err(e)
    case Ok(_) => FilmTables.GetSortDirectorsOfFilms(s.db, directorId, sort, order)
  }

  /** `deleteFilmById`: NotFound for an id not stored; otherwise the film's
      row goes. */
  function DeleteFilmById(s: State, id: int): (res: (Result<()>, State))
    ensures res.0.Err? <==> id !in s.db.films
    ensures res.0.Err? ==> res.0.error == NotFound && res.1 == s
    ensures res.0.Ok? ==> res.1.db.films.Keys == s.db.films.Keys - {id} && res.1.feed == s.feed
  {
    if FilmTables.GetById(s.db, id).None? then (Err(NotFound), s)
    else (Ok(()), s.(db := FilmTables.DeleteFilmById(s.db, id)))
  }

  /** `getPopularFilms`: genre and year are passed on and play no part; the
      film tables rank by likes alone. */
  function GetPopularFilms(s: State, order: seq<int>, count: int, genreId: int, year: int): (r: Result<seq<Film>>)
    requires IsEnumeration(order, s.db.films.Keys)
    ensures r.Err? <==> count < 0
    ensures r.Ok? ==> exists ids ::
      Ranking.IsTopByKey(ids, s.db.films.Keys, count, FilmTables.LikeCount(s.db)) && FilmTables.ShowsAll(s.db, ids, r.value)
  {
    FilmTables.GetPopularFilms(s.db, order, count)
  }

  // ---------------------------------------------------------------------
  // Properties.

  /** Resolving genres a second time changes nothing. */
  lemma SetGenresIdempotent(s: State, f: Film)
    ensures SetGenres(s, SetGenres(s, f)) == SetGenres(s, f)
  {
    var f1 := SetGenres(s, f);
    if f.genres.Some? && f.genres.value != [] && f1.genres.value != [] {
      var found := FilmTables.GenreSet(f.genres.value) * s.genres;
      assert FilmTables.GenreSet(f1.genres.value) == found;
      assert found * s.genres == found;
    }
  }

  /** A like followed by an unlike succeeds; when the like was new, the film
      tables end as they began and the feed gains the ADD then the REMOVE. */
  lemma LikeThenUnlike(s: State, id: int, userId: int, t1: int, t2: int)
    ensures UnLikeFilm(LikeFilm(s, id, userId, t1).1, id, userId, t2).0.Ok?
    ensures !FilmTables.IsFilmHasAppraiser(s.db, id, userId) ==>
      && UnLikeFilm(LikeFilm(s, id, userId, t1).1, id, userId, t2).1.db == s.db
      && |UnLikeFilm(LikeFilm(s, id, userId, t1).1, id, userId, t2).1.feed.rows| == |s.feed.rows| + 2
  {
    if !FilmTables.IsFilmHasAppraiser(s.db, id, userId) {
      FilmTables.AddThenRemoveRestores(s.db, id, userId);
    }
  }

  /** Liking twice: the second like is a server error that leaves the state
      of the first, so the film's like count and the feed grow only once. */
  lemma RepeatedLikeRejected(s: State, id: int, userId: int, t1: int, t2: int)
    ensures var s1 := LikeFilm(s, id, userId, t1).1;
      LikeFilm(s1, id, userId, t2) == (Err(Internal), s1)
  {
  }

  /** After a successful edit the film reads back with the request's fields,
      its resolved genres and its old likes. */
  lemma EditThenGet(s: State, f: Film)
    requires EditFilm(s, f).0.Ok?
    ensures var s' := EditFilm(s, f).1;
      var g := GetFilmById(s', f.id.value);
      && g.Ok?
      && g.value.name == f.name && g.value.releaseDate == f.releaseDate && g.value.mpa == f.mpa
      && g.value.appraisers == FilmTables.AppraisersOf(s.db, f.id.value)
      && FilmTables.GenreSet(g.value.genres.value) == FilmTables.GenreSet(f.genres.value) * s.genres
  {
    var s' := EditFilm(s, f).1;
    var id := f.id.value;
    var updated := EditFilm(s, f).0.value;
    assert FilmTables.GenresOf(s'.db, id) == FilmTables.GenreSet(updated.genres.value);
  }

  /** A deleted film is no longer found, and deleting it again is NotFound. */
  lemma DeleteThenGet(s: State, id: int)
    requires id in s.db.films
    ensures GetFilmById(DeleteFilmById(s, id).1, id) == Err(NotFound)
    ensures DeleteFilmById(DeleteFilmById(s, id).1, id).0 == Err(NotFound)
  {
  }

  /** Storing a film keeps the references known: `setMPA` checked the
      rating and `setGenres` filtered the genre ids. */
  lemma AddFilmKeepsRefsKnown(s: State, f: Film)
    requires RefsKnown(s)
    ensures RefsKnown(AddFilm(s, f).1)
  {
  }

  /** Editing a film keeps the references known, for the same reasons. */
  lemma EditFilmKeepsRefsKnown(s: State, f: Film)
    requires RefsKnown(s)
    ensures RefsKnown(EditFilm(s, f).1)
  {
  }

  /** Deleting, liking and unliking a film add no reference. */
  lemma OtherWritesKeepRefsKnown(s: State, id: int, userId: int, timestamp: int)
    requires RefsKnown(s)
    ensures RefsKnown(DeleteFilmById(s, id).1)
    ensures RefsKnown(LikeFilm(s, id, userId, timestamp).1)
    ensures RefsKnown(UnLikeFilm(s, id, userId, timestamp).1)
  {
  }
}

=== FILE: film_store.dfy ===
/** The keyed film store (storage/impl/InMemoryFilmStorage.java): a map from
    id to film, a counter that hands out ids 1, 2, 3, ..., and each film's
    set of appraisers (users who liked it). */
module FilmStore {
  import opened Common
  import opened Model
  import Ranking

  datatype Store = Store(films: map<int, Film>, counter: int)

  const Empty := Store(map[], 0)

  /** Every stored film sits under its own id, and every id is one the
      counter has already handed out. */
  predicate Valid(s: Store) {
    && s.counter >= 0
    && (forall k :: k in s.films ==> 1 <= k <= s.counter && s.films[k].id == Some(k))
  }

  /** `addFilm`: the film receives the next id and is stored under it. */
  function AddFilm(s: Store, f: Film): (res: (Film, Store))
    ensures res.0 == f.(id := Some(s.counter + 1))
    ensures Valid(s) ==> s.counter + 1 !in s.films
    ensures res.1.films == s.films[s.counter + 1 := res.0]
    ensures res.1.counter == s.counter + 1
    ensures Valid(s) ==> Valid(res.1)
  {
    var id := s.counter + 1;
    var f' := f.(id := Some(id));
    (f', Store(s.films[id := f'], id))
  }

  /** `editFilm`: replaces the film stored under the same id; a missing or
      unknown id is NotFound. */
  function EditFilm(s: Store, f: Film): (res: (Result<()>, Store))
    ensures res.0.Err? <==> f.id.None? || f.id.value !in s.films
    ensures res.0.Err? ==> res.0.error == NotFound && res.1 == s
    ensures res.0.Ok? ==> res.1 == s.(films := s.films[f.id.value := f])
    ensures Valid(s) ==> Valid(res.1)
  {
    if f.id.None? || f.id.value !in s.films then (Err(NotFound), s)
    else (Ok(()), s.(films := s.films[f.id.value := f]))
  }

  /** `getAll`: the stored films. */
  function GetAll(s: Store): (r: set<Film>)
    ensures forall k :: k in s.films ==> s.films[k] in r
    ensures forall f :: f in r ==> exists k :: k in s.films && s.films[k] == f
  {
    set k | k in s.films :: s.films[k]
  }

  /** `getById`: `null` (here None) exactly when the id is not stored. */
  function GetById(s: Store, id: int): (r: Option<Film>)
    ensures r.None? <==> id !in s.films
    ensures r.Some? ==> r.value == s.films[id]
  {
    if id in s.films then Some(s.films[id]) else None
  }

  // ---------------------------------------------------------------------
  // Appraisers. The source dereferences `films.get(filmId)` without a
  // check, so an unknown film is a NullPointerException (Internal).

  /** `addAppraiser`: a set insert into that film's appraisers. */
  function AddAppraiser(s: Store, filmId: int, userId: int): (res: (Result<()>, Store))
    ensures res.0.Err? <==> filmId !in s.films
    ensures res.0.Err? ==> res.0.error == Internal && res.1 == s
    ensures res.0.Ok? ==>
      && res.1.films.Keys == s.films.Keys
      && res.1.films[filmId].appraisers == s.films[filmId].appraisers + {userId}
      && res.1.films[filmId] == s.films[filmId].(appraisers := res.1.films[filmId].appraisers)
      && (forall k :: k in s.films && k != filmId ==> res.1.films[k] == s.films[k])
      && res.1.counter == s.counter
  {
    if filmId !in s.films then (Err(Internal), s)
    else
      var f := s.films[filmId];
      (Ok(()), s.(films := s.films[filmId := f.(appraisers := f.appraisers + {userId})]))
  }

  /** `isFilmHasAppraiser`. */
  function IsFilmHasAppraiser(s: Store, filmId: int, userId: int): (r: Result<bool>)
    ensures r.Err? <==> filmId !in s.films
    ensures r.Err? ==> r.error == Internal
    ensures r.Ok? ==> (r.value <==> userId in s.films[filmId].appraisers)
  {
    if filmId !in s.films then Err(Internal) else Ok(userId in s.films[filmId].appraisers)
  }

  /** `removeAppraiser`: a set remove from that film's appraisers. */
  function RemoveAppraiser(s: Store, filmId: int, userId: int): (res: (Result<()>, Store))
    ensures res.0.Err? <==> filmId !in s.films
    ensures res.0.Err? ==> res.0.error == Internal && res.1 == s
    ensures res.0.Ok? ==>
      && res.1.films.Keys == s.films.Keys
      && res.1.films[filmId].appraisers == s.films[filmId].appraisers - {userId}
      && res.1.films[filmId] == s.films[filmId].(appraisers := res.1.films[filmId].appraisers)
      && (forall k :: k in s.films && k != filmId ==> res.1.films[k] == s.films[k])
      && res.1.counter == s.counter
  {
    if filmId !in s.films then (Err(Internal), s)
    else
      var f := s.films[filmId];
      (Ok(()), s.(films := s.films[filmId := f.(appraisers := f.appraisers - {userId})]))
  }

  // ---------------------------------------------------------------------
  // Popular films.

  /** A film's like count; zero for an id not stored. */
  function Likes(s: Store): int -> int {
    k => if k in s.films then |s.films[k].appraisers| else 0
  }

  /** `films` are the films stored under `ids`, in the same order. */
  predicate Lists(s: Store, ids: seq<int>, films: seq<Film>) {
    && |ids| == |films|
    && forall i :: 0 <= i < |ids| ==> ids[i] in s.films && films[i] == s.films[ids[i]]
  }

  /** `getPopularFilms`: the films by descending like count, cut after
      `count`. `order` is the order in which the map yields its values, on
      which the stable sort leaves ties; `genreId` and `year` play no part.
      `Stream.limit` rejects a negative count with an exception. */
  function GetPopularFilms(s: Store, order: seq<int>, count: int, genreId: int, year: int): (r: Result<seq<Film>>)
    requires IsEnumeration(order, s.films.Keys)
    ensures r.Err? <==> count < 0
    ensures r.Err? ==> r.error == Internal
    ensures r.Ok? ==> exists ids :: Ranking.IsTopByKey(ids, s.films.Keys, count, Likes(s)) && Lists(s, ids, r.value)
  {
    if count < 0 then Err(Internal)
    else
      var ids := Ranking.Top(Ranking.SortDescending(order, Likes(s)), count);
      Ranking.TopOfSortedIsTopByKey(order, s.films.Keys, count, Likes(s));
      var films := seq(|ids|, i requires 0 <= i < |ids| => s.films[ids[i]]);
      assert Lists(s, ids, films);
      Ok(films)
  }

  // ---------------------------------------------------------------------
  // Properties.

  /** A film added is found under its new id, and no other film moved. */
  lemma AddThenGet(s: Store, f: Film, id: int)
    requires Valid(s)
    ensures var (f', s') := AddFilm(s, f);
      && GetById(s', f'.id.value) == Some(f')
      && (id != f'.id.value ==> GetById(s', id) == GetById(s, id))
  {
  }

  /** Adding the same appraiser twice is adding it once. */
  lemma AddAppraiserIdempotent(s: Store, filmId: int, userId: int)
    ensures AddAppraiser(AddAppraiser(s, filmId, userId).1, filmId, userId) == AddAppraiser(s, filmId, userId)
  {
    if filmId in s.films {
      var f := s.films[filmId];
      var s1 := AddAppraiser(s, filmId, userId).1;
      assert f.appraisers + {userId} + {userId} == f.appraisers + {userId};
      assert s1.films[filmId := s1.films[filmId]] == s1.films;
    }
  }

  /** Right after an add the pair is recorded; right after a remove it is not. */
  lemma AppraiserAfterAddAndRemove(s: Store, filmId: int, userId: int)
    requires filmId in s.films
    ensures IsFilmHasAppraiser(AddAppraiser(s, filmId, userId).1, filmId, userId) == Ok(true)
    ensures IsFilmHasAppraiser(RemoveAppraiser(s, filmId, userId).1, filmId, userId) == Ok(false)
  {
  }

  /** Adding a new appraiser and removing it again restores the store. */
  lemma AddThenRemoveRestores(s: Store, filmId: int, userId: int)
    requires filmId in s.films && userId !in s.films[filmId].appraisers
    ensures RemoveAppraiser(AddAppraiser(s, filmId, userId).1, filmId, userId).1 == s
  {
    var f := s.films[filmId];
    assert f.appraisers + {userId} - {userId} == f.appraisers;
    assert s.films[filmId := f] == s.films;
  }

  /** When one film has strictly more likes than every other, it heads any
      non-empty answer. */
  lemma UniqueFavouriteFirst(s: Store, order: seq<int>, count: int, genreId: int, year: int, best: int)
    requires IsEnumeration(order, s.films.Keys)
    requires count >= 1 && best in s.films
    requires forall k :: k in s.films && k != best ==> |s.films[k].appraisers| < |s.films[best].appraisers|
    ensures GetPopularFilms(s, order, count, genreId, year).Ok?
    ensures var r := GetPopularFilms(s, order, count, genreId, year).value; |r| >= 1 && r[0] == s.films[best]
  {
    var r := GetPopularFilms(s, order, count, genreId, year).value;
    var ids :| Ranking.IsTopByKey(ids, s.films.Keys, count, Likes(s)) && Lists(s, ids, r);
    Ranking.UniqueBestHeadsTop(ids, s.films.Keys, count, Likes(s), best);
  }
}

=== FILE: film_tables.dfy ===
/** The film tables (storage/impl/FilmDbStorage.java): FILMS as a map from
    id to row, FILM_GENRES as (filmId, genreId) pairs, APPRAISERS (likes)
    as (userId, filmId) pairs, and the director tables of `DirectorTable`.

    The schema itself is not part of this model. APPRAISERS is taken to
    have a unique key on (user_id, film_id), so a second like of the same
    film by the same user fails the INSERT; no other key and no foreign key
    is assumed, and a genre or director pair already present is written
    again without effect. Where the query has no ORDER BY the
    model either takes the scan order as a parameter or lists ids ascending,
    and contracts promise nothing about that order. */
module FilmTables {
  import opened Common
  import opened Model
  import Ranking
  import DirectorTable

  /** A row of FILMS; the rating is stored by id. */
  datatype FilmRow = FilmRow(
    name: Option<string>,
    description: Option<string>,
    releaseDate: Option<LocalDate>,
    duration: Option<int>,
    mpaId: int)

  datatype Db = Db(
    films: map<int, FilmRow>,
    lastId: int,
    filmGenres: set<(int, int)>,
    appraisers: set<(int, int)>,
    directors: DirectorTable.Table)

  const Empty := Db(map[], 0, {}, {}, DirectorTable.Empty)

  /** Every stored id is one the identity column has handed out. */
  predicate Valid(db: Db) {
    db.lastId >= 0 && forall k :: k in db.films ==> 1 <= k <= db.lastId
  }

  /** The genre ids recorded for a film. */
  function GenresOf(db: Db, filmId: int): set<int> {
    set p | p in db.filmGenres && p.0 == filmId :: p.1
  }

  /** The users who liked a film. */
  function AppraisersOf(db: Db, filmId: int): set<int> {
    set p | p in db.appraisers && p.1 == filmId :: p.0
  }

  /** The films a user liked. */
  function LikedBy(db: Db, userId: int): set<int> {
    set p | p in db.appraisers && p.0 == userId :: p.1
  }

  // ---------------------------------------------------------------------
  // Director links of a film (`saveDirectorByFilm`).

  /** Every director in the list carries an id. */
  predicate AllIdentified(ds: seq<Director>) {
    forall i :: 0 <= i < |ds| ==> ds[i].id.Some?
  }

  /** The ids the directors of a list carry. */
  function IdsOf(ds: seq<Director>): set<int> {
    set i | 0 <= i < |ds| && ds[i].id.Some? :: ds[i].id.value
  }

  /** The loop of `saveDirectorByFilm`: one MERGE per listed director, in
      list order. Unboxing a missing id throws, leaving the links made so
      far in place. */
  function LinkAll(t: DirectorTable.Table, ds: seq<Director>, filmId: int): (res: (Result<()>, DirectorTable.Table))
    ensures res.0.Ok? <==> AllIdentified(ds)
    ensures res.0.Err? ==> res.0.error == Internal
    ensures res.0.Ok? ==> DirectorTable.LinkedTo(res.1, filmId) == DirectorTable.LinkedTo(t, filmId) + IdsOf(ds)
    ensures forall l: (int, int) :: l.1 != filmId ==> (l in res.1.links <==> l in t.links)
    ensures res.1.names == t.names && res.1.lastId == t.lastId
    decreases |ds|
  {
    if ds == [] then (Ok(()), t)
    else
      var n := |ds| - 1;
      var (r, t1) := LinkAll(t, ds[..n], filmId);
      assert forall i :: 0 <= i < n ==> ds[..n][i] == ds[i];
      if r.Err? then (r, t1)
      else if ds[n].id.None? then (Err(Internal), t1)
      else
        assert IdsOf(ds) == IdsOf(ds[..n]) + {ds[n].id.value} by {
          forall d | d in IdsOf(ds)
            ensures d in IdsOf(ds[..n]) + {ds[n].id.value}
          {
            var i :| 0 <= i < |ds| && ds[i].id.Some? && ds[i].id.value == d;
            if i < n {
              assert ds[..n][i] == ds[i];
            }
          }
        }
        (Ok(()), DirectorTable.CreateDirectorByFilm(t1, ds[n].id.value, filmId))
  }

  /** The director ids a film should end up linked to: none for a missing
      list. */
  function Requested(directors: Option<seq<Director>>): set<int> {
    if directors.None? then {} else IdsOf(directors.value)
  }

  /** `saveDirectorByFilm`: drop every link of the film, then link each
      listed director. */
  function SaveDirectorByFilm(t: DirectorTable.Table, filmId: int, directors: Option<seq<Director>>): (res: (Result<()>, DirectorTable.Table))
    ensures res.0.Ok? <==> directors.None? || AllIdentified(directors.value)
    ensures res.0.Err? ==> res.0.error == Internal
    ensures res.0.Ok? ==> DirectorTable.LinkedTo(res.1, filmId) == Requested(directors)
    ensures forall l: (int, int) :: l.1 != filmId ==> (l in res.1.links <==> l in t.links)
    ensures res.1.names == t.names && res.1.lastId == t.lastId
  {
    var t0 := DirectorTable.DeleteAllDirectorByFilm(t, filmId);
    match directors
    case None => (Ok(()), t0)
    case Some(ds) => LinkAll(t0, ds, filmId)
  }

  // ---------------------------------------------------------------------
  // Genre rows of a film (the re-sync in `editFilm`).

  /** Delete the film's genres that are no longer requested, insert the
      requested ones not yet recorded. */
  function ResyncGenres(rows: set<(int, int)>, filmId: int, requested: set<int>): (rows': set<(int, int)>)
    ensures forall g :: (filmId, g) in rows' <==> g in requested
    ensures forall p: (int, int) :: p.0 != filmId ==> (p in rows' <==> p in rows)
  {
    var stored := set p | p in rows && p.0 == filmId :: p.1;
    var removed := stored - requested;
    var added := requested - stored;
    var rows' := (rows - set g | g in removed :: (filmId, g)) + set g | g in added :: (filmId, g);
    assert forall g :: g in requested && g !in added ==> (filmId, g) in rows;
    assert forall g :: (filmId, g) in rows && g !in requested ==> g in removed;
    rows'
  }

  // ---------------------------------------------------------------------
  // Writing films.

  /** The FILMS row that records a film with a rating. */
  function RowOf(f: Film, mpaId: int): FilmRow {
    FilmRow(f.name, f.description, f.releaseDate, f.duration, mpaId)
  }

  /** The genre ids of a list. */
  function GenreSet(genres: seq<int>): set<int> {
    set g | g in genres
  }

  /** `addFilm`: insert the row under the next identity, then its genre rows
      and its director links. A missing rating throws before anything is
      written; a missing genre list returns early, so such a film gets no
      director links. */
  function AddFilm(db: Db, f: Film): (res: (Result<Film>, Db))
    ensures f.mpa.None? ==> res == (Err(Internal), db)
    ensures res.0.Ok? <==>
      f.mpa.Some? && (f.genres.None? || f.directors.None? || AllIdentified(f.directors.value))
    ensures res.0.Err? ==> res.0.error == Internal
    ensures res.0.Ok? ==> res.0.value == f.(id := Some(db.lastId + 1))
    ensures f.mpa.Some? ==>
      && res.1.films == db.films[db.lastId + 1 := RowOf(f, f.mpa.value)]
      && res.1.lastId == db.lastId + 1
      && res.1.appraisers == db.appraisers
    ensures Valid(db) ==> db.lastId + 1 !in db.films && Valid(res.1)
    ensures f.mpa.Some? && f.genres.None? ==>
      res.1.filmGenres == db.filmGenres && res.1.directors == db.directors
    ensures f.mpa.Some? && f.genres.Some? ==>
      GenresOf(res.1, db.lastId + 1) == GenresOf(db, db.lastId + 1) + GenreSet(f.genres.value)
    ensures forall p: (int, int) :: p.0 != db.lastId + 1 ==> (p in res.1.filmGenres <==> p in db.filmGenres)
    ensures res.0.Ok? && f.genres.Some? ==>
      DirectorTable.LinkedTo(res.1.directors, db.lastId + 1) == Requested(f.directors)
  {
    match f.mpa
    case None => (Err(Internal), db)
    case Some(mpaId) =>
      var id := db.lastId + 1;
      var db1 := db.(films := db.films[id := RowOf(f, mpaId)], lastId := id);
      var f' := f.(id := Some(id));
      match f.genres
      case None => (Ok(f'), db1)
      case Some(gs) =>
        var db2 := db1.(filmGenres := db1.filmGenres + set g | g in gs :: (id, g));
        assert GenresOf(db2, id) == GenresOf(db, id) + GenreSet(gs) by {
          forall g | g in GenreSet(gs)
            ensures g in GenresOf(db2, id)
          {
            assert (id, g) in db2.filmGenres;
          }
        }
        var (r, dt) := SaveDirectorByFilm(db2.directors, id, f.directors);
        (if r.Ok? then Ok(f') else Err(r.error), db2.(directors := dt))
  }

  /** `editFilm`: overwrite the film's row (a no-op for an id not stored),
      re-sync its genre rows to the requested set, then replace its
      director links. A missing rating throws before anything is written;
      a missing genre list throws after the row is written. */
  function EditFilm(db: Db, f: Film): (res: (Result<()>, Db))
    ensures res.0.Ok? <==>
      && f.mpa.Some? && f.id.Some? && f.genres.Some?
      && (f.directors.None? || AllIdentified(f.directors.value))
    ensures res.0.Err? ==> res.0.error == Internal
    ensures f.mpa.None? || f.id.None? ==> res.1 == db
    ensures f.mpa.Some? && f.id.Some? ==>
      && res.1.films.Keys == db.films.Keys
      && (f.id.value in db.films ==> res.1.films[f.id.value] == RowOf(f, f.mpa.value))
      && (forall k :: k in db.films && k != f.id.value ==> res.1.films[k] == db.films[k])
    ensures res.1.appraisers == db.appraisers && res.1.lastId == db.lastId
    ensures f.mpa.Some? && f.id.Some? && f.genres.Some? ==>
      && GenresOf(res.1, f.id.value) == GenreSet(f.genres.value)
      && (forall p: (int, int) :: p.0 != f.id.value ==> (p in res.1.filmGenres <==> p in db.filmGenres))
    ensures res.0.Ok? ==> DirectorTable.LinkedTo(res.1.directors, f.id.value) == Requested(f.directors)
    ensures f.id.Some? ==> forall l: (int, int) :: l.1 != f.id.value ==> (l in res.1.directors.links <==> l in db.directors.links)
  {
    match (f.mpa, f.id)
    case (None, _) => (Err(Internal), db)
    case (_, None) => (Err(Internal), db)
    case (Some(mpaId), Some(id)) =>
      var db1 := if id in db.films then db.(films := db.films[id := RowOf(f, mpaId)]) else db;
      match f.genres
      case None => (Err(Internal), db1)
      case Some(gs) =>
        var db2 := db1.(filmGenres := ResyncGenres(db1.filmGenres, id, GenreSet(gs)));
        assert GenresOf(db2, id) == GenreSet(gs) by {
          forall g | g in GenreSet(gs)
            ensures g in GenresOf(db2, id)
          {
            assert (id, g) in db2.filmGenres;
          }
        }
        var (r, dt) := SaveDirectorByFilm(db2.directors, id, f.directors);
        (r, db2.(directors := dt))
  }

  /** `deleteFilmById`: removes the film's row. What the schema does to the
      rows that refer to it is not part of this model. */
  function DeleteFilmById(db: Db, id: int): (db': Db)
    ensures id !in db'.films
    ensures db'.films.Keys == db.films.Keys - {id}
    ensures forall k :: k in db'.films ==> db'.films[k] == db.films[k]
    ensures db'.appraisers == db.appraisers && db'.filmGenres == db.filmGenres
  {
    db.(films := db.films - {id})
  }

  // ---------------------------------------------------------------------
  // Reading films.

  /** A film as `mapToFilm` builds it from its row: the no-argument
      constructor starts with no likes and an empty genre list, and no
      directors; a NULL duration reads as 0. */
  function ReadFilm(db: Db, id: int): (f: Film)
    requires id in db.films
    ensures f.id == Some(id) && f.appraisers == {} && f.genres == Some([]) && f.directors.None?
    ensures f.name == db.films[id].name && f.releaseDate == db.films[id].releaseDate
    ensures f.description == db.films[id].description && f.mpa == Some(db.films[id].mpaId)
    ensures f.duration.Some? && (db.films[id].duration.Some? ==> f.duration == db.films[id].duration)
    ensures db.films[id].duration.None? ==> f.duration == Some(0)
  {
    var row := db.films[id];
    Film(Some(id), row.name, row.description, row.releaseDate,
         Some(if row.duration.Some? then row.duration.value else 0),
         {}, Some([]), Some(row.mpaId), None)
  }

  /** A film as the builder of `getSortDirectorsOfFilms` makes it: the
      builder leaves the genre list absent. */
  function BuildFilm(db: Db, id: int): (f: Film)
    requires id in db.films
    ensures f == ReadFilm(db, id).(genres := None)
  {
    var row := db.films[id];
    Film(Some(id), row.name, row.description, row.releaseDate,
         Some(if row.duration.Some? then row.duration.value else 0),
         {}, None, Some(row.mpaId), None)
  }

  /** The genre list after the rows found for the film are appended; the
      list is created only when a row is found. */
  function AddGenres(genres: Option<seq<int>>, found: seq<int>): (r: Option<seq<int>>)
    ensures found == [] ==> r == genres
    ensures found != [] ==> r.Some? && GenreSet(r.value) == (if genres.None? then {} else GenreSet(genres.value)) + GenreSet(found)
  {
    if found == [] then genres
    else Some((if genres.None? then [] else genres.value) + found)
  }

  /** One film with its genre rows and like rows added. */
  function Fill(db: Db, f: Film): Film
    requires f.id.Some?
  {
    f.(genres := AddGenres(f.genres, SortedElements(GenresOf(db, f.id.value))),
       appraisers := f.appraisers + AppraisersOf(db, f.id.value))
  }

  /** Position `i` holds the first film of the list with its id. */
  predicate FirstWithId(films: seq<Film>, i: int)
    requires 0 <= i < |films|
  {
    forall j :: 0 <= j < i ==> films[j].id != films[i].id
  }

  /** `a` and `b` agree on everything but genres and likes. */
  predicate SameBesideLinks(a: Film, b: Film) {
    a.(genres := b.genres, appraisers := b.appraisers) == b
  }

  /** `fillFilms`: groups the genre rows and like rows by film id and adds
      them to the films of the list. The map it builds keeps the first
      film of each id, so only that one is filled; a later film with the
      same id is left as it was. Genre rows come without an order; the
      model appends them by ascending id. */
  function FillFilms(db: Db, films: seq<Film>): (r: seq<Film>)
    ensures |r| == |films|
    ensures forall i :: 0 <= i < |films| && films[i].id.Some? && FirstWithId(films, i) ==>
      && SameBesideLinks(r[i], films[i])
      && r[i].appraisers == films[i].appraisers + AppraisersOf(db, films[i].id.value)
      && (GenresOf(db, films[i].id.value) == {} ==> r[i].genres == films[i].genres)
      && (GenresOf(db, films[i].id.value) != {} ==>
            r[i].genres.Some? &&
            GenreSet(r[i].genres.value) == (if films[i].genres.None? then {} else GenreSet(films[i].genres.value)) + GenresOf(db, films[i].id.value))
    ensures forall i :: 0 <= i < |films| && !(films[i].id.Some? && FirstWithId(films, i)) ==> r[i] == films[i]
  {
    seq(|films|, i requires 0 <= i < |films| =>
      if films[i].id.Some? && FirstWithId(films, i) then Fill(db, films[i]) else films[i])
  }

  /** The films read under `ids`, in order. */
  function ReadAll(db: Db, ids: seq<int>): (r: seq<Film>)
    requires forall i :: 0 <= i < |ids| ==> ids[i] in db.films
    ensures |r| == |ids| && forall i :: 0 <= i < |ids| ==> r[i] == ReadFilm(db, ids[i])
  {
    seq(|ids|, i requires 0 <= i < |ids| => ReadFilm(db, ids[i]))
  }

  /** The films built under `ids`, in order. */
  function BuildAll(db: Db, ids: seq<int>): (r: seq<Film>)
    requires forall i :: 0 <= i < |ids| ==> ids[i] in db.films
    ensures |r| == |ids| && forall i :: 0 <= i < |ids| ==> r[i] == BuildFilm(db, ids[i])
  {
    seq(|ids|, i requires 0 <= i < |ids| => BuildFilm(db, ids[i]))
  }

  /** The stored film `id` as a full read shows it: its row, every user who
      liked it and every genre recorded for it. */
  predicate Shows(db: Db, id: int, f: Film) {
    && id in db.films
    && SameBesideLinks(f, ReadFilm(db, id))
    && f.appraisers == AppraisersOf(db, id)
    && f.genres.Some? && GenreSet(f.genres.value) == GenresOf(db, id)
  }

  /** `films` shows the stored films `ids`, one each, in the same order. */
  predicate ShowsAll(db: Db, ids: seq<int>, films: seq<Film>) {
    |ids| == |films| && forall i :: 0 <= i < |ids| ==> Shows(db, ids[i], films[i])
  }

  /** Reading distinct stored ids and filling them shows each film. */
  lemma FillReadShows(db: Db, ids: seq<int>)
    requires Distinct(ids)
    requires forall i :: 0 <= i < |ids| ==> ids[i] in db.films
    ensures ShowsAll(db, ids, FillFilms(db, ReadAll(db, ids)))
  {
    var fs := ReadAll(db, ids);
    var r := FillFilms(db, fs);
    forall i | 0 <= i < |ids|
      ensures Shows(db, ids[i], r[i])
    {
      assert FirstWithId(fs, i);
      assert GenreSet([]) == {};
    }
  }

  /** Every id of an enumeration of the stored films is stored. */
  lemma EnumeratedAreStored(db: Db, order: seq<int>)
    requires IsEnumeration(order, db.films.Keys)
    ensures forall i :: 0 <= i < |order| ==> order[i] in db.films
  {
    forall i | 0 <= i < |order|
      ensures order[i] in db.films
    {
      assert order[i] in order;
      assert forall k :: k in order ==> k in db.films.Keys;
      assert order[i] in db.films.Keys;
    }
  }

  /** `getAll`: every film, each read in full. `order` is the order of the
      unordered scan. */
  function GetAll(db: Db, order: seq<int>): (r: seq<Film>)
    requires IsEnumeration(order, db.films.Keys)
    ensures |r| == |db.films|
    ensures ShowsAll(db, order, r)
  {
    Ranking.EnumerationSize(order, db.films.Keys);
    EnumeratedAreStored(db, order);
    FillReadShows(db, order);
    FillFilms(db, ReadAll(db, order))
  }

  /** `getById`: `null` (here None) for an id not stored; otherwise the film
      read in full. */
  function GetById(db: Db, id: int): (r: Option<Film>)
    ensures r.None? <==> id !in db.films
    ensures r.Some? ==> Shows(db, id, r.value)
  {
    if id !in db.films then None
    else
      FillReadShows(db, [id]);
      Some(FillFilms(db, ReadAll(db, [id]))[0])
  }

  // ---------------------------------------------------------------------
  // Likes.

  /** `addAppraiser`: insert the (user, film) row. A row already there
      breaks the unique key and the INSERT throws, which the generic handler
      answers with a server error. */
  function AddAppraiser(db: Db, filmId: int, userId: int): (res: (Result<()>, Db))
    ensures res.0.Err? <==> userId in AppraisersOf(db, filmId)
    ensures res.0.Err? ==> res.0.error == Internal && res.1 == db
    ensures res.0.Ok? ==> AppraisersOf(res.1, filmId) == AppraisersOf(db, filmId) + {userId}
    ensures forall p :: p in res.1.appraisers <==> p in db.appraisers || p == (userId, filmId)
    ensures res.1 == db.(appraisers := res.1.appraisers)
  {
    if (userId, filmId) in db.appraisers then
      assert userId in AppraisersOf(db, filmId);
      (Err(Internal), db)
    else
      var db' := db.(appraisers := db.appraisers + {(userId, filmId)});
      assert userId in AppraisersOf(db', filmId) by {
        assert (userId, filmId) in db'.appraisers;
      }
      (Ok(()), db')
  }

  /** `isFilmHasAppraiser`: whether a row for the pair exists. */
  function IsFilmHasAppraiser(db: Db, filmId: int, userId: int): (r: bool)
    ensures r <==> userId in AppraisersOf(db, filmId)
  {
    assert (userId, filmId) in db.appraisers ==> userId in AppraisersOf(db, filmId);
    (userId, filmId) in db.appraisers
  }

  /** `removeAppraiser`: delete the row for the pair and no other. */
  function RemoveAppraiser(db: Db, filmId: int, userId: int): (db': Db)
    ensures AppraisersOf(db', filmId) == AppraisersOf(db, filmId) - {userId}
    ensures forall p :: p in db'.appraisers <==> p in db.appraisers && p != (userId, filmId)
    ensures db' == db.(appraisers := db'.appraisers)
  {
    var db' := db.(appraisers := db.appraisers - {(userId, filmId)});
    forall u | u in AppraisersOf(db, filmId) - {userId}
      ensures u in AppraisersOf(db', filmId)
    {
      assert (u, filmId) in db'.appraisers;
    }
    db'
  }

  /** The like count of a film, as the count subqueries compute it. */
  function LikeCount(db: Db): int -> int {
    k => |AppraisersOf(db, k)|
  }

  /** `getPopularFilms`: the films by descending like count, at most
      `count`, each read in full; ties are left in scan order `order`. */
  function GetPopularFilms(db: Db, order: seq<int>, count: int): (r: Result<seq<Film>>)
    requires IsEnumeration(order, db.films.Keys)
    ensures r.Err? <==> count < 0
    ensures r.Err? ==> r.error == Internal
    ensures r.Ok? ==> exists ids :: Ranking.IsTopByKey(ids, db.films.Keys, count, LikeCount(db)) && ShowsAll(db, ids, r.value)
  {
    if count < 0 then Err(Internal)
    else
      var ids := Ranking.Top(Ranking.SortDescending(order, LikeCount(db)), count);
      Ranking.TopOfSortedIsTopByKey(order, db.films.Keys, count, LikeCount(db));
      FillReadShows(db, ids);
      Ok(FillFilms(db, ReadAll(db, ids)))
  }

  // ---------------------------------------------------------------------
  // Films of a director.

  datatype SortingFilms = YEAR | LIKES

  /** The stored films linked to an existing director. */
  function DirectedBy(db: Db, directorId: int): set<int> {
    set k | k in db.films && directorId in db.directors.names && (directorId, k) in db.directors.links
  }

  /** The sort key: the release day, or the number of distinct likers. */
  function SortKey(db: Db, sort: SortingFilms): int -> int {
    match sort
    case YEAR => k => if k in db.films && db.films[k].releaseDate.Some? then DayNumber(db.films[k].releaseDate.value) else 0
    case LIKES => LikeCount(db)
  }

  /** The stored film `id` as the builder shows it after filling: its row,
      its likers, and its genres if it has any. */
  predicate ShowsBuilt(db: Db, id: int, f: Film) {
    && id in db.films
    && SameBesideLinks(f, ReadFilm(db, id))
    && f.appraisers == AppraisersOf(db, id)
    && (GenresOf(db, id) == {} <==> f.genres.None?)
    && (f.genres.Some? ==> GenreSet(f.genres.value) == GenresOf(db, id))
  }

  /** Building distinct stored ids and filling them shows each film. */
  lemma FillBuiltShows(db: Db, ids: seq<int>)
    requires Distinct(ids)
    requires forall i :: 0 <= i < |ids| ==> ids[i] in db.films
    ensures var r := FillFilms(db, BuildAll(db, ids));
      |r| == |ids| && forall i :: 0 <= i < |ids| ==> ShowsBuilt(db, ids[i], r[i])
  {
    var fs := BuildAll(db, ids);
    var r := FillFilms(db, fs);
    forall i | 0 <= i < |ids|
      ensures ShowsBuilt(db, ids[i], r[i])
    {
      assert FirstWithId(fs, i);
    }
  }

  /** `getSortDirectorsOfFilms`: the films of the director in ascending
      order of the key (the query says ASC for both keys); ties are left in
      scan order `order`. Reading a NULL release date throws. */
  function GetSortDirectorsOfFilms(db: Db, directorId: int, sort: SortingFilms, order: seq<int>): (r: Result<seq<Film>>)
    requires IsEnumeration(order, DirectedBy(db, directorId))
    ensures r.Err? <==> exists k :: k in DirectedBy(db, directorId) && db.films[k].releaseDate.None?
    ensures r.Err? ==> r.error == Internal
    ensures r.Ok? ==> exists ids ::
      && Ranking.IsOrderedByKey(ids, DirectedBy(db, directorId), SortKey(db, sort))
      && |ids| == |r.value|
      && forall i :: 0 <= i < |ids| ==> ShowsBuilt(db, ids[i], r.value[i])
  {
    if exists k :: k in DirectedBy(db, directorId) && db.films[k].releaseDate.None? then Err(Internal)
    else
      var ids := Ranking.SortAscending(order, SortKey(db, sort));
      Ranking.SortedIsOrderedByKey(order, DirectedBy(db, directorId), SortKey(db, sort));
      forall i | 0 <= i < |ids|
        ensures ids[i] in db.films
      {
        assert ids[i] in ids;
      }
      FillBuiltShows(db, ids);
      Ok(FillFilms(db, BuildAll(db, ids)))
  }

  // ---------------------------------------------------------------------
  // Search and shared films.

  datatype SearchMode = TitleOrDirector | DirectorOnly | TitleOnly

  /** The `by` dispatch of `searchMovieByTitleAndDirector`; neither keyword
      is NotFound. */
  function SearchBy(keys: seq<string>): (r: Result<SearchMode>)
    ensures r.Err? <==> "title" !in keys && "director" !in keys
    ensures r.Err? ==> r.error == NotFound
    ensures r.Ok? ==> (r.value.TitleOrDirector? || r.value.TitleOnly?) == ("title" in keys)
    ensures r.Ok? ==> (r.value.TitleOrDirector? || r.value.DirectorOnly?) == ("director" in keys)
  {
    if "title" in keys && "director" in keys then Ok(TitleOrDirector)
    else if "director" in keys then Ok(DirectorOnly)
    else if "title" in keys then Ok(TitleOnly)
    else Err(NotFound)
  }

  /** The stored films both users liked. */
  function SharedLikes(db: Db, userId: int, friendId: int): set<int> {
    set k | k in db.films && k in LikedBy(db, userId) && k in LikedBy(db, friendId)
  }

  /** `moviesSharedWithFriend`: the films liked by both users, read from
      their rows only (the list is not filled, so likes and genres are
      left empty). The outer query has no ORDER BY; the model lists ids
      ascending. */
  function MoviesSharedWithFriend(db: Db, userId: int, friendId: int): (r: seq<Film>)
    ensures |r| == |SharedLikes(db, userId, friendId)|
    ensures forall i :: 0 <= i < |r| ==>
      r[i].id.Some? && r[i].id.value in SharedLikes(db, userId, friendId) && r[i] == ReadFilm(db, r[i].id.value)
    ensures forall k :: k in SharedLikes(db, userId, friendId) ==> exists i :: 0 <= i < |r| && r[i].id == Some(k)
  {
    var ids := SortedElements(SharedLikes(db, userId, friendId));
    assert forall i :: 0 <= i < |ids| ==> ids[i] in ids;
    var r := ReadAll(db, ids);
    assert forall k :: k in ids ==> exists i :: 0 <= i < |ids| && ids[i] == k && r[i].id == Some(k);
    r
  }

  // ---------------------------------------------------------------------
  // Properties.

  /** Whichever way round the two users are given, the answer is the same. */
  lemma SharedWithFriendSymmetric(db: Db, a: int, b: int)
    ensures MoviesSharedWithFriend(db, a, b) == MoviesSharedWithFriend(db, b, a)
  {
    assert SharedLikes(db, a, b) == SharedLikes(db, b, a);
  }

  /** A film is shared exactly when both users have a like row for it. */
  lemma SharedMeansLikedByBoth(db: Db, a: int, b: int, k: int)
    requires k in db.films
    ensures k in SharedLikes(db, a, b) <==> IsFilmHasAppraiser(db, k, a) && IsFilmHasAppraiser(db, k, b)
  {
    if IsFilmHasAppraiser(db, k, a) && IsFilmHasAppraiser(db, k, b) {
      assert (a, k) in db.appraisers && (b, k) in db.appraisers;
    }
  }

  /** Right after an add the pair is recorded; right after a remove it is not. */
  lemma AppraiserAfterAddAndRemove(db: Db, filmId: int, userId: int)
    ensures IsFilmHasAppraiser(AddAppraiser(db, filmId, userId).1, filmId, userId)
    ensures !IsFilmHasAppraiser(RemoveAppraiser(db, filmId, userId), filmId, userId)
  {
  }

  /** Each like is one row under the unique key: a first like raises the
      film's like count by one, a repeated one changes no count, and no other
      film's count moves either way. */
  lemma AddAppraiserCounts(db: Db, filmId: int, userId: int, k: int)
    ensures var (r, db') := AddAppraiser(db, filmId, userId);
      && (r.Ok? ==> LikeCount(db')(filmId) == LikeCount(db)(filmId) + 1)
      && (r.Err? ==> LikeCount(db')(filmId) == LikeCount(db)(filmId))
      && (k != filmId ==> LikeCount(db')(k) == LikeCount(db)(k))
  {
    var (r, db') := AddAppraiser(db, filmId, userId);
    if k != filmId {
      assert AppraisersOf(db', k) == AppraisersOf(db, k);
    }
  }

  /** Adding a like not yet recorded and removing it again restores the
      tables. */
  lemma AddThenRemoveRestores(db: Db, filmId: int, userId: int)
    requires !IsFilmHasAppraiser(db, filmId, userId)
    ensures RemoveAppraiser(AddAppraiser(db, filmId, userId).1, filmId, userId) == db
  {
    assert db.appraisers + {(userId, filmId)} - {(userId, filmId)} == db.appraisers;
  }

  /** After an edit with a genre list the film reads back with exactly the
      requested genres, and another film's genres read as before. */
  lemma EditThenGenres(db: Db, f: Film, other: int)
    requires f.mpa.Some? && f.id.Some? && f.genres.Some? && other != f.id.value
    ensures GenresOf(EditFilm(db, f).1, f.id.value) == GenreSet(f.genres.value)
    ensures GenresOf(EditFilm(db, f).1, other) == GenresOf(db, other)
  {
    var db' := EditFilm(db, f).1;
    forall g
      ensures g in GenresOf(db', other) <==> g in GenresOf(db, other)
    {
      if g in GenresOf(db, other) {
        assert (other, g) in db.filmGenres;
      }
      if g in GenresOf(db', other) {
        assert (other, g) in db'.filmGenres;
      }
    }
  }

  /** A film added with a rating reads back under its new id with the
      fields written. */
  lemma AddThenGet(db: Db, f: Film)
    requires f.mpa.Some?
    ensures var (r, db') := AddFilm(db, f);
      var g := GetById(db', db.lastId + 1);
      && g.Some? && g.value.id == Some(db.lastId + 1)
      && g.value.name == f.name && g.value.description == f.description
      && g.value.releaseDate == f.releaseDate && g.value.mpa == f.mpa
  {
  }

  /** The film that alone has the most likes is the whole answer for a
      count of one. */
  lemma UniqueFavouriteIsSoleAnswer(db: Db, order: seq<int>, best: int)
    requires IsEnumeration(order, db.films.Keys)
    requires best in db.films
    requires forall k :: k in db.films && k != best ==> |AppraisersOf(db, k)| < |AppraisersOf(db, best)|
    ensures GetPopularFilms(db, order, 1).Ok?
    ensures var r := GetPopularFilms(db, order, 1).value; |r| == 1 && r[0].id == Some(best)
  {
    var r := GetPopularFilms(db, order, 1).value;
    var ids :| Ranking.IsTopByKey(ids, db.films.Keys, 1, LikeCount(db)) && ShowsAll(db, ids, r);
    Ranking.UniqueBestHeadsTop(ids, db.films.Keys, 1, LikeCount(db), best);
    assert Shows(db, ids[0], r[0]);
  }
}

=== FILE: friend_table.dfy ===
/** The friendship table (storage/impl/UserFriendDbStorage.java): directed
    rows `(id, userId, friendId, status)`. A pair is looked up in both
    directions, but a user's list holds only the rows the user asked for. */
module FriendTable {
  import opened Common
  import opened Model

  datatype Row = Row(id: int, userId: int, friendId: int, status: int)

  /** USER_FRIENDS together with the last identity value handed out. */
  datatype Table = Table(rows: seq<Row>, lastId: int)

  const Empty := Table([], 0)

  /** Identity values are positive, never above the counter, and each
      names one row. */
  predicate Valid(t: Table) {
    && t.lastId >= 0
    && Distinct(t.rows)
    && (forall x :: x in t.rows ==> 1 <= x.id <= t.lastId)
    && (forall x, y :: x in t.rows && y in t.rows && x.id == y.id ==> x == y)
  }

  /** `r` links `a` and `b`, in either direction. */
  predicate Links(r: Row, a: int, b: int) {
    (r.userId == a && r.friendId == b) || (r.userId == b && r.friendId == a)
  }

  /** No two rows link the same unordered pair: what the service's duplicate
      check keeps true. */
  predicate OnePerPair(t: Table) {
    PairUnique(t.rows)
  }

  predicate PairUnique(rows: seq<Row>) {
    forall x, y :: x in rows && y in rows && x != y ==> !Links(y, x.userId, x.friendId)
  }

  /** `mapToUserFriend`. */
  function ToUserFriend(r: Row): (uf: UserFriend)
    ensures uf.id == Some(r.id)
    ensures uf.userId == r.userId && uf.friendId == r.friendId && uf.status == r.status
  {
    UserFriend(Some(r.id), r.userId, r.friendId, r.status)
  }

  /** A fresh friendship request: the two-argument constructor of
      `UserFriend` starts every request with status 0. */
  function NewRequest(userId: int, friendId: int): (uf: UserFriend)
    ensures uf.id.None? && uf.status == 0
    ensures uf.userId == userId && uf.friendId == friendId
  {
    UserFriend(None, userId, friendId, 0)
  }

  // ---------------------------------------------------------------------
  // Scans of the table, in storage order.

  /** The rows linking `a` and `b` in either direction. */
  function Linking(rows: seq<Row>, a: int, b: int): (r: seq<Row>)
    ensures forall x :: x in r <==> x in rows && Links(x, a, b)
    ensures (forall x :: x in rows ==> !Links(x, a, b)) ==> r == []
    ensures Distinct(rows) ==> Distinct(r)
  {
    if rows == [] then []
    else
      var init := Linking(rows[..|rows| - 1], a, b);
      var last := rows[|rows| - 1];
      assert rows == rows[..|rows| - 1] + [last];
      if Links(last, a, b) then init + [last] else init
  }

  /** The rows whose requester is `u`. */
  function RequestsBy(rows: seq<Row>, u: int): (r: seq<Row>)
    ensures forall x :: x in r <==> x in rows && x.userId == u
  {
    if rows == [] then []
    else
      var init := RequestsBy(rows[..|rows| - 1], u);
      var last := rows[|rows| - 1];
      assert rows == rows[..|rows| - 1] + [last];
      if last.userId == u then init + [last] else init
  }

  /** The rows whose identity is not `id`. */
  function Without(rows: seq<Row>, id: int): (r: seq<Row>)
    ensures forall x :: x in r <==> x in rows && x.id != id
    ensures |r| <= |rows|
    ensures Distinct(rows) ==> Distinct(r)
  {
    if rows == [] then []
    else
      var init := Without(rows[..|rows| - 1], id);
      var last := rows[|rows| - 1];
      assert rows == rows[..|rows| - 1] + [last];
      if last.id != id then init + [last] else init
  }

  // ---------------------------------------------------------------------
  // The storage operations.

  /** `save`: a request that already has an id is left alone; otherwise one
      row is inserted with the next identity and the request receives it.
      Both columns reference USERS, so an unknown user is an integrity
      violation and nothing is inserted. */
  function Save(t: Table, uf: UserFriend, users: set<int>): (res: (Result<UserFriend>, Table))
    ensures uf.id.Some? ==> res == (Ok(uf), t)
    ensures uf.id.None? && (uf.userId !in users || uf.friendId !in users) ==> res == (Err(Integrity), t)
    ensures uf.id.None? && uf.userId in users && uf.friendId in users ==>
      && res.0 == Ok(uf.(id := Some(t.lastId + 1)))
      && res.1.rows == t.rows + [Row(t.lastId + 1, uf.userId, uf.friendId, uf.status)]
    ensures Valid(t) ==> Valid(res.1)
  {
    if uf.id.Some? then (Ok(uf), t)
    else if uf.userId !in users || uf.friendId !in users then (Err(Integrity), t)
    else
      var id := t.lastId + 1;
      (Ok(uf.(id := Some(id))), Table(t.rows + [Row(id, uf.userId, uf.friendId, uf.status)], id))
  }

  /** `findByUserAndFriend`: the single row linking the pair, in either
      direction. No row is an empty answer; more than one makes
      `queryForObject` throw. */
  function FindByUserAndFriend(t: Table, a: int, b: int): (r: Result<Option<UserFriend>>)
    ensures r == Ok(None) <==> forall x :: x in t.rows ==> !Links(x, a, b)
    ensures r.Ok? && r.value.Some? ==>
      exists x :: x in t.rows && Links(x, a, b) && r.value.value == ToUserFriend(x)
    ensures r.Err? ==> r.error == Internal
    ensures r.Err? <==> |Linking(t.rows, a, b)| > 1
  {
    var m := Linking(t.rows, a, b);
    if |m| == 0 then Ok(None)
    else if |m| == 1 then
      assert m[0] in m;
      Ok(Some(ToUserFriend(m[0])))
    else Err(Internal)
  }

  /** `findAllByUser`: the requests `u` made. */
  function FindAllByUser(t: Table, u: int): (r: seq<UserFriend>)
    ensures forall x :: x in t.rows && x.userId == u ==> ToUserFriend(x) in r
    ensures forall i :: 0 <= i < |r| ==> r[i].userId == u && r[i].id.Some?
    ensures forall i :: 0 <= i < |r| ==> exists x :: x in t.rows && ToUserFriend(x) == r[i]
  {
    var rows := RequestsBy(t.rows, u);
    var r := seq(|rows|, i requires 0 <= i < |rows| => ToUserFriend(rows[i]));
    assert forall i :: 0 <= i < |r| ==> rows[i] in t.rows && r[i] == ToUserFriend(rows[i]);
    assert forall x :: x in rows ==> exists i :: 0 <= i < |rows| && rows[i] == x && r[i] == ToUserFriend(x);
    r
  }

  /** `delete`: removes the row carrying the request's id. A request with no
      id compares with NULL and so matches no row. */
  function Delete(t: Table, uf: UserFriend): (t': Table)
    ensures uf.id.None? ==> t' == t
    ensures uf.id.Some? ==> forall x :: x in t'.rows <==> x in t.rows && x.id != uf.id.value
    ensures t'.lastId == t.lastId
    ensures Valid(t) ==> Valid(t')
  {
    match uf.id
    case None => t
    case Some(id) => t.(rows := Without(t.rows, id))
  }

  // ---------------------------------------------------------------------
  // Properties.

  /** The lookup does not care which of the two was the requester. */
  lemma {:induction false} LinkingSymmetric(rows: seq<Row>, a: int, b: int)
    ensures Linking(rows, a, b) == Linking(rows, b, a)
  {
    if rows != [] {
      LinkingSymmetric(rows[..|rows| - 1], a, b);
    }
  }

  lemma FindSymmetric(t: Table, a: int, b: int)
    ensures FindByUserAndFriend(t, a, b) == FindByUserAndFriend(t, b, a)
  {
    LinkingSymmetric(t.rows, a, b);
  }

  /** With one row per pair, at most one row links any pair. */
  lemma {:induction false} LinkingAtMostOne(rows: seq<Row>, a: int, b: int)
    requires Distinct(rows) && PairUnique(rows)
    ensures |Linking(rows, a, b)| <= 1
  {
    if rows != [] {
      var n := |rows| - 1;
      var init := rows[..n];
      var last := rows[n];
      assert rows == init + [last];
      if Links(last, a, b) {
        forall x | x in init
          ensures !Links(x, a, b)
        {
          var k :| 0 <= k < n && init[k] == x;
          assert rows[k] != last && x in rows && last in rows;
        }
      } else {
        assert forall x :: x in init ==> x in rows;
        LinkingAtMostOne(init, a, b);
      }
    }
  }

  /** With one row per pair, the lookup never finds two. */
  lemma FindNeverFails(t: Table, a: int, b: int)
    requires Valid(t) && OnePerPair(t)
    ensures FindByUserAndFriend(t, a, b).Ok?
  {
    LinkingAtMostOne(t.rows, a, b);
  }

  /** Saving a new request for a pair not yet linked: the pair is found
      afterwards, in either direction, as the saved row with the fresh id and
      status 0. */
  lemma SaveThenFind(t: Table, a: int, b: int, users: set<int>)
    requires a in users && b in users
    requires FindByUserAndFriend(t, a, b) == Ok(None)
    ensures var (r, t') := Save(t, NewRequest(a, b), users);
      && r == Ok(UserFriend(Some(t.lastId + 1), a, b, 0))
      && FindByUserAndFriend(t', a, b) == Ok(Some(r.value))
      && FindByUserAndFriend(t', b, a) == Ok(Some(r.value))
  {
    var (r, t') := Save(t, NewRequest(a, b), users);
    var row := Row(t.lastId + 1, a, b, 0);
    assert t'.rows[..|t'.rows| - 1] == t.rows;
    assert Linking(t.rows, a, b) == [];
    assert Linking(t'.rows, a, b) == [row];
    FindSymmetric(t', a, b);
  }

  /** Saving a request for a pair not yet linked keeps one row per pair. */
  lemma SaveKeepsOnePerPair(t: Table, uf: UserFriend, users: set<int>)
    requires OnePerPair(t)
    requires FindByUserAndFriend(t, uf.userId, uf.friendId) == Ok(None)
    ensures OnePerPair(Save(t, uf, users).1)
  {
    var t' := Save(t, uf, users).1;
    forall x, y | x in t'.rows && y in t'.rows && x != y
      ensures !Links(y, x.userId, x.friendId)
    {
      if x in t.rows && y !in t.rows {
        assert !Links(x, uf.userId, uf.friendId);
      }
    }
  }

  /** Deleting a row keeps one row per pair. */
  lemma DeleteKeepsOnePerPair(t: Table, uf: UserFriend)
    requires OnePerPair(t)
    ensures OnePerPair(Delete(t, uf))
  {
  }

  /** After deleting the row the lookup returned, the pair is unlinked. */
  lemma DeleteThenFind(t: Table, a: int, b: int)
    requires Valid(t) && OnePerPair(t)
    requires FindByUserAndFriend(t, a, b).Ok? && FindByUserAndFriend(t, a, b).value.Some?
    ensures FindByUserAndFriend(Delete(t, FindByUserAndFriend(t, a, b).value.value), a, b) == Ok(None)
  {
    var uf := FindByUserAndFriend(t, a, b).value.value;
    var t' := Delete(t, uf);
    var m := Linking(t.rows, a, b);
    assert |m| == 1;
  }

  /** With unique ids, deleting the row the lookup found removes exactly the
      rows linking the pair and keeps every other row. */
  lemma DeleteFoundRow(t: Table, a: int, b: int, uf: UserFriend)
    requires FindByUserAndFriend(t, a, b) == Ok(Some(uf))
    ensures Valid(t) ==> forall x :: x in Delete(t, uf).rows <==> x in t.rows && !Links(x, a, b)
  {
    var m := Linking(t.rows, a, b);
    assert |m| == 1 && m[0] in m && uf == ToUserFriend(m[0]);
  }

  /** Deleting removes exactly one row when the id is stored. */
  lemma {:induction false} WithoutStoredId(rows: seq<Row>, id: int)
    requires Distinct(rows)
    requires exists x :: x in rows && x.id == id
    requires forall i, j :: 0 <= i < j < |rows| ==> rows[i].id != rows[j].id
    ensures |Without(rows, id)| == |rows| - 1
  {
    var init := rows[..|rows| - 1];
    var last := rows[|rows| - 1];
    assert rows == init + [last];
    if last.id == id {
      assert forall x :: x in init ==> x.id != id;
      WithoutAbsentId(init, id);
    } else {
      var x :| x in rows && x.id == id;
      assert x in init;
      WithoutStoredId(init, id);
    }
  }

  lemma {:induction false} WithoutAbsentId(rows: seq<Row>, id: int)
    requires forall x :: x in rows ==> x.id != id
    ensures Without(rows, id) == rows
  {
    if rows != [] {
      var init := rows[..|rows| - 1];
      assert rows == init + [rows[|rows| - 1]];
      WithoutAbsentId(init, id);
    }
  }

  /** A request saved by `a` for `b` shows in `a`'s list and not in `b`'s:
      the list is one-directional. */
  lemma SaveListsOneWay(t: Table, a: int, b: int, users: set<int>)
    requires a != b && a in users && b in users
    ensures var (r, t') := Save(t, NewRequest(a, b), users);
      && FindAllByUser(t', b) == FindAllByUser(t, b)
      && FindAllByUser(t', a) == FindAllByUser(t, a) + [r.value]
  {
    var (r, t') := Save(t, NewRequest(a, b), users);
    assert t'.rows[..|t'.rows| - 1] == t.rows;
  }
}

=== FILE: model.dfy ===
/** The records the services pass around (the `model` package). A field the
    Java class declares as a nullable reference is an `Option`. */
module Model {
  import opened Common

  /** A user; the `friends` collection the service fills on read is not
      stored here (it is derived from the friendship table). */
  datatype User = User(
    id: Option<int>,
    email: Option<string>,
    login: Option<string>,
    name: Option<string>,
    birthday: Option<LocalDate>)

  /** A film. Genres and the rating (MPA) are referenced by id; `appraisers`
      is the set of ids of users who liked the film, where an absent (`null`)
      set and an empty one are not told apart. */
  datatype Film = Film(
    id: Option<int>,
    name: Option<string>,
    description: Option<string>,
    releaseDate: Option<LocalDate>,
    duration: Option<int>,
    appraisers: set<int>,
    genres: Option<seq<int>>,
    mpa: Option<int>,
    directors: Option<seq<Director>>)

  /** A director; read through an outer join, a link to a deleted director
      comes back with a null name. */
  datatype Director = Director(id: Option<int>, name: Option<string>)

  /** One directed friendship row: `userId` asked `friendId`. */
  datatype UserFriend = UserFriend(id: Option<int>, userId: int, friendId: int, status: int)

  datatype Review = Review(
    reviewId: Option<int>,
    content: string,
    isPositive: bool,
    userId: int,
    filmId: int,
    useful: Option<int>)
}

=== FILE: ranking.dfy ===
/** Ordering identifiers by an integer score: what `sorted(...)`, `ORDER BY`
    and `LIMIT` do in the source. Ties keep no promised order, because neither
    a hash map's iteration nor an SQL sort fixes one. */
module Ranking {
  import opened Common

  predicate Ascending(s: seq<int>, key: int -> int) {
    forall i, j :: 0 <= i < j < |s| ==> key(s[i]) <= key(s[j])
  }

  predicate Descending(s: seq<int>, key: int -> int) {
    forall i, j :: 0 <= i < j < |s| ==> key(s[i]) >= key(s[j])
  }

  function Insert(x: int, s: seq<int>, key: int -> int): (r: seq<int>)
    requires Ascending(s, key)
    ensures Ascending(r, key)
    ensures multiset(r) == multiset(s) + multiset{x}
    ensures forall y :: y in r ==> y == x || y in s
  {
    if s == [] || key(x) <= key(s[0]) then [x] + s
    else
      var tail := Insert(x, s[1..], key);
      assert s == [s[0]] + s[1..];
      AscendingHeadBound(s, key);
      ConsAscending(s[0], tail, key);
      var r := [s[0]] + tail;
      assert multiset(r) == multiset{s[0]} + multiset(tail);
      assert forall y :: y in r ==> y == s[0] || y in tail;
      r
  }

  /** The head of an ascending sequence has the least key. */
  lemma AscendingHeadBound(s: seq<int>, key: int -> int)
    requires |s| > 0 && Ascending(s, key)
    ensures forall y :: y in s[1..] ==> key(s[0]) <= key(y)
  {
    forall y | y in s[1..]
      ensures key(s[0]) <= key(y)
    {
      var j :| 0 <= j < |s[1..]| && s[1..][j] == y;
      assert s[j + 1] == y;
    }
  }

  /** A key no larger than any in an ascending sequence may head it. */
  lemma ConsAscending(h: int, tail: seq<int>, key: int -> int)
    requires Ascending(tail, key)
    requires forall y :: y in tail ==> key(h) <= key(y)
    ensures Ascending([h] + tail, key)
  {
    var r := [h] + tail;
    forall i, j | 0 <= i < j < |r|
      ensures key(r[i]) <= key(r[j])
    {
      assert r[j] == tail[j - 1] && r[j] in tail;
      if i > 0 {
        assert r[i] == tail[i - 1];
      }
    }
  }

  /** Insertion sort, ascending by `key`. */
  function SortAscending(s: seq<int>, key: int -> int): (r: seq<int>)
    ensures Ascending(r, key)
    ensures multiset(r) == multiset(s)
  {
    if s == [] then []
    else
      assert s == [s[0]] + s[1..];
      Insert(s[0], SortAscending(s[1..], key), key)
  }

  /** Sort descending by `key`: ascending by its negation. */
  function SortDescending(s: seq<int>, key: int -> int): (r: seq<int>)
    ensures Descending(r, key)
    ensures multiset(r) == multiset(s)
  {
    var r := SortAscending(s, x => -key(x));
    assert forall i, j :: 0 <= i < j < |r| ==> -key(r[i]) <= -key(r[j]);
    r
  }

  /** `LIMIT count`. */
  function Top(s: seq<int>, count: nat): (r: seq<int>)
    ensures |r| == Min(count, |s|)
    ensures r == s[..|r|]
  {
    s[..Min(count, |s|)]
  }

  // ---------------------------------------------------------------------
  // Permutations of an enumeration.

  lemma DistinctByMultiplicity(s: seq<int>)
    ensures Distinct(s) <==> forall x | x in multiset(s) :: multiset(s)[x] == 1
  {
    if Distinct(s) {
      forall x | x in multiset(s)
        ensures multiset(s)[x] == 1
      {
        DistinctCountsOnce(s, x);
      }
    } else {
      var i, j :| 0 <= i < j < |s| && s[i] == s[j];
      RepeatedCountsTwice(s, i, j);
    }
  }

  lemma {:induction false} DistinctCountsOnce(s: seq<int>, x: int)
    requires Distinct(s)
    requires x in s
    ensures multiset(s)[x] == 1
  {
    var last := s[|s| - 1];
    var init := s[..|s| - 1];
    assert s == init + [last];
    if x == last {
      assert x !in init;
    } else {
      assert x in init;
      DistinctCountsOnce(init, x);
    }
  }

  lemma RepeatedCountsTwice(s: seq<int>, i: int, j: int)
    requires 0 <= i < j < |s| && s[i] == s[j]
    ensures multiset(s)[s[i]] >= 2
  {
    assert s == s[..i] + [s[i]] + s[i + 1..j] + [s[j]] + s[j + 1..];
  }

  /** Reordering an enumeration of `keys` yields another one. */
  lemma PermutedEnumeration(order: seq<int>, r: seq<int>, keys: set<int>)
    requires IsEnumeration(order, keys)
    requires multiset(r) == multiset(order)
    ensures IsEnumeration(r, keys)
  {
    DistinctByMultiplicity(order);
    DistinctByMultiplicity(r);
    forall k ensures k in r <==> k in order {
      assert k in r <==> k in multiset(r);
      assert k in order <==> k in multiset(order);
    }
  }

  lemma {:induction false} EnumerationSize(order: seq<int>, keys: set<int>)
    requires IsEnumeration(order, keys)
    ensures |order| == |keys|
  {
    if order != [] {
      var last := order[|order| - 1];
      var init := order[..|order| - 1];
      assert order == init + [last];
      assert last !in init;
      assert IsEnumeration(init, keys - {last});
      EnumerationSize(init, keys - {last});
    } else {
      EmptyOrInhabited(keys);
    }
  }

  // ---------------------------------------------------------------------
  // The answer to "the `count` best of `keys`".

  /** `r` is a correct answer to "the `count` identifiers of `keys` with the
      highest `key`, best first": as many as asked for or as exist, each
      once, non-increasing, and no identifier left out beats one taken. */
  predicate IsTopByKey(r: seq<int>, keys: set<int>, count: nat, key: int -> int) {
    && |r| == Min(count, |keys|)
    && Distinct(r)
    && (forall i :: 0 <= i < |r| ==> r[i] in keys)
    && Descending(r, key)
    && (forall k, i :: k in keys && k !in r && 0 <= i < |r| ==> key(k) <= key(r[i]))
  }

  /** Sorting one enumeration of `keys` by descending score and keeping the
      first `count` answers the question, whatever the enumeration order. */
  lemma TopOfSortedIsTopByKey(order: seq<int>, keys: set<int>, count: nat, key: int -> int)
    requires IsEnumeration(order, keys)
    ensures IsTopByKey(Top(SortDescending(order, key), count), keys, count, key)
  {
    var sorted := SortDescending(order, key);
    var r := Top(sorted, count);
    PermutedEnumeration(order, sorted, keys);
    EnumerationSize(sorted, keys);
    assert forall i :: 0 <= i < |r| ==> r[i] == sorted[i] && r[i] in sorted;
    forall k, i | k in keys && k !in r && 0 <= i < |r|
      ensures key(k) <= key(r[i])
    {
      var j :| 0 <= j < |sorted| && sorted[j] == k;
      if j < |r| {
        assert r[j] == k;
      }
    }
  }

  /** When one identifier scores strictly more than every other, it heads
      every non-empty correct answer. */
  lemma UniqueBestHeadsTop(r: seq<int>, keys: set<int>, count: nat, key: int -> int, best: int)
    requires IsTopByKey(r, keys, count, key)
    requires count >= 1 && best in keys
    requires forall k :: k in keys && k != best ==> key(k) < key(best)
    ensures |r| >= 1 && r[0] == best
  {
    assert |keys| >= 1 by {
      assert keys >= {best};
    }
    assert key(best) <= key(r[0]) by {
      if best in r {
        var j :| 0 <= j < |r| && r[j] == best;
        assert j == 0 || key(r[0]) >= key(r[j]);
      }
    }
  }

  /** `r` lists exactly the identifiers of `keys`, each once, in ascending
      order of `key`. */
  predicate IsOrderedByKey(r: seq<int>, keys: set<int>, key: int -> int) {
    IsEnumeration(r, keys) && Ascending(r, key)
  }

  lemma SortedIsOrderedByKey(order: seq<int>, keys: set<int>, key: int -> int)
    requires IsEnumeration(order, keys)
    ensures IsOrderedByKey(SortAscending(order, key), keys, key)
  {
    PermutedEnumeration(order, SortAscending(order, key), keys);
  }
}

=== FILE: review_service.dfy ===
/** Reviews and their votes as the application sees them
    (service/ReviewService.java): every write that succeeds is recorded in
    the event feed, and storage errors are translated into the errors the
    API reports. Each operation is transactional, so a failed one leaves
    the state as it was. */
module ReviewService {
  import opened Common
  import opened Model
  import FeedLog
  import ReviewTables
  import Ranking

  /** The review tables, the feed, and the ids of USERS and FILMS. */
  datatype State = State(tables: ReviewTables.Tables, feed: FeedLog.Table, users: set<int>, films: set<int>)

  /** `addReview`: any id in the request is ignored; a second review of the
      same film by the same user is a Conflict. On success a REVIEW/ADD
      event names the author and the new review. */
  function AddReview(s: State, r: Review, timestamp: int): (res: (Result<Review>, State))
    ensures res.0.Err? ==> res.1 == s
    ensures res.0 == Err(NotFound) <==> r.userId !in s.users || r.filmId !in s.films
    ensures res.0 == Err(Conflict) <==>
      r.userId in s.users && r.filmId in s.films && ReviewTables.HasReviewBy(s.tables, r.userId, r.filmId)
    ensures res.0.Err? ==> res.0.error in {NotFound, Conflict}
    ensures res.0.Ok? ==>
      var id := s.tables.lastId + 1;
      && res.0.value == r.(reviewId := Some(id))
      && ReviewTables.FindById(res.1.tables, id).Some?
      && ReviewTables.FindById(res.1.tables, id).value == r.(reviewId := Some(id), useful := Some(ReviewTables.Useful(s.tables.votes, id)))
      && res.1.feed == FeedLog.CreateFeed(s.feed, r.userId, id, FeedLog.REVIEW, FeedLog.ADD, timestamp)
    ensures ReviewTables.Valid(s.tables) ==> ReviewTables.Valid(res.1.tables)
  {
    var (saved, t') := ReviewTables.Save(s.tables, r.(reviewId := None), s.users, s.films);
    match saved
    case Err(Integrity) => (Err(Conflict), s)
    case Err(e) => (Err(e), s)
    case Ok(created) =>
      (Ok(created), s.(tables := t', feed := FeedLog.CreateFeed(s.feed, r.userId, created.reviewId.value, FeedLog.REVIEW, FeedLog.ADD, timestamp)))
  }

  /** `editReview`: with an id, only content and isPositive change, and an
      unknown id fails inside the storage layer (Internal); without one the
      request creates a review, and a duplicate is then NotFound. On success
      a REVIEW/UPDATE event names the review as stored, so its author is the
      stored author whatever user the request names. */
  function EditReview(s: State, r: Review, timestamp: int): (res: (Result<Review>, State))
    ensures res.0.Err? ==> res.1 == s
    ensures r.reviewId.Some? ==>
      var id := r.reviewId.value;
      && (res.0.Err? <==> id !in s.tables.reviews)
      && (res.0.Err? ==> res.0.error == Internal)
      && (res.0.Ok? ==>
            var row := s.tables.reviews[id];
            && res.0.value.reviewId == Some(id)
            && res.0.value.content == r.content && res.0.value.isPositive == r.isPositive
            && res.0.value.userId == row.userId && res.0.value.filmId == row.filmId
            && Some(res.0.value) == ReviewTables.FindById(res.1.tables, id)
            && (forall k :: k != id ==> ReviewTables.FindById(res.1.tables, k) == ReviewTables.FindById(s.tables, k))
            && res.1.feed == FeedLog.CreateFeed(s.feed, row.userId, id, FeedLog.REVIEW, FeedLog.UPDATE, timestamp))
    ensures r.reviewId.None? ==>
      && (res.0 == Err(NotFound) <==>
            r.userId !in s.users || r.filmId !in s.films || ReviewTables.HasReviewBy(s.tables, r.userId, r.filmId))
      && (res.0.Err? ==> res.0.error == NotFound)
      && (res.0.Ok? ==>
            && res.0.value == r.(reviewId := Some(s.tables.lastId + 1))
            && res.1.feed == FeedLog.CreateFeed(s.feed, r.userId, s.tables.lastId + 1, FeedLog.REVIEW, FeedLog.UPDATE, timestamp))
    ensures ReviewTables.Valid(s.tables) ==> ReviewTables.Valid(res.1.tables)
  {
    var (saved, t') := ReviewTables.Save(s.tables, r, s.users, s.films);
    match saved
    case Err(Integrity) => (Err(NotFound), s)
    case Err(e) => (Err(e), s)
    case Ok(review) =>
      (Ok(review), s.(tables := t', feed := FeedLog.CreateFeed(s.feed, review.userId, review.reviewId.value, FeedLog.REVIEW, FeedLog.UPDATE, timestamp)))
  }

  /** `deleteReview`: an unknown id is NotFound with nothing written;
      otherwise the review goes and a REVIEW/REMOVE event names its author. */
  function DeleteReview(s: State, id: int, timestamp: int): (res: (Result<()>, State))
    ensures res.0.Err? <==> id !in s.tables.reviews
    ensures res.0.Err? ==> res.0.error == NotFound && res.1 == s
    ensures res.0.Ok? ==>
      && ReviewTables.FindById(res.1.tables, id).None?
      && (forall k :: k != id ==> ReviewTables.FindById(res.1.tables, k) == ReviewTables.FindById(s.tables, k))
      && res.1.feed == FeedLog.CreateFeed(s.feed, s.tables.reviews[id].userId, id, FeedLog.REVIEW, FeedLog.REMOVE, timestamp)
  {
    match ReviewTables.FindById(s.tables, id)
    case None => (Err(NotFound), s)
    case Some(review) =>
      (Ok(()), s.(tables := ReviewTables.DeleteById(s.tables, id),
                  feed := FeedLog.CreateFeed(s.feed, review.userId, id, FeedLog.REVIEW, FeedLog.REMOVE, timestamp)))
  }

  /** `getReviewById`: NotFound exactly when no review has that id. */
  function GetReviewById(s: State, id: int): (r: Result<Review>)
    ensures r.Err? <==> id !in s.tables.reviews
    ensures r.Err? ==> r.error == NotFound
    ensures r.Ok? ==> Some(r.value) == ReviewTables.FindById(s.tables, id) && r.value.reviewId == Some(id)
  {
    match ReviewTables.FindById(s.tables, id)
    case None => Err(NotFound)
    case Some(review) => Ok(review)
  }

  /** The reviews a listing ranks: all of them, or one film's. */
  function Candidates(s: State, filmId: Option<int>): set<int> {
    if filmId.None? then s.tables.reviews.Keys else ReviewTables.ReviewsOf(s.tables, filmId.value)
  }

  /** `getAll` and `getAllByFilm`, as the controller picks between them on
      whether a film id is given: the `count` most useful reviews, best
      first. */
  function GetReviews(s: State, order: seq<int>, filmId: Option<int>, count: int): (r: Result<seq<Review>>)
    requires IsEnumeration(order, Candidates(s, filmId))
    ensures r.Err? <==> count < 0
    ensures r.Ok? ==> filmId.Some? ==> forall i :: 0 <= i < |r.value| ==> r.value[i].filmId == filmId.value
    ensures r.Ok? ==> exists ids ::
      && Ranking.IsTopByKey(ids, Candidates(s, filmId), count, ReviewTables.UsefulOf(s.tables))
      && ReviewTables.ReadsAll(s.tables, ids, r.value)
  {
    if filmId.None? then ReviewTables.FindAll(s.tables, order, count)
    else ReviewTables.FindAllByFilm(s.tables, order, filmId.value, count)
  }

  /** `addLike` (rate 1) and `addDislike` (rate -1): a second vote by the
      same user on the same review is reported as NotFound. */
  function Rate(s: State, reviewId: int, userId: int, rate: int): (res: (Result<()>, State))
    ensures res.0.Err? <==> ReviewTables.HasVoted(s.tables.votes, reviewId, userId)
    ensures res.0.Err? ==> res.0.error == NotFound && res.1 == s
    ensures res.0.Ok? ==>
      && ReviewTables.Useful(res.1.tables.votes, reviewId) == ReviewTables.Useful(s.tables.votes, reviewId) + rate
      && res.1.tables.reviews == s.tables.reviews
    ensures forall k :: k != reviewId ==> ReviewTables.Useful(res.1.tables.votes, k) == ReviewTables.Useful(s.tables.votes, k)
    ensures res.1.feed == s.feed
    ensures ReviewTables.Valid(s.tables) ==> ReviewTables.Valid(res.1.tables)
  {
    var (r, t') := ReviewTables.AddLike(s.tables, reviewId, userId, rate);
    if r.Err? then (Err(NotFound), s) else (Ok(()), s.(tables := t'))
  }

  function AddLike(s: State, reviewId: int, userId: int): (res: (Result<()>, State))
    ensures res.0.Ok? ==> ReviewTables.Useful(res.1.tables.votes, reviewId) == ReviewTables.Useful(s.tables.votes, reviewId) + 1
    ensures res.0.Err? <==> ReviewTables.HasVoted(s.tables.votes, reviewId, userId)
  {
    Rate(s, reviewId, userId, 1)
  }

  function AddDislike(s: State, reviewId: int, userId: int): (res: (Result<()>, State))
    ensures res.0.Ok? ==> ReviewTables.Useful(res.1.tables.votes, reviewId) == ReviewTables.Useful(s.tables.votes, reviewId) - 1
    ensures res.0.Err? <==> ReviewTables.HasVoted(s.tables.votes, reviewId, userId)
  {
    Rate(s, reviewId, userId, -1)
  }

  /** `deleteLike`: only a like (rate 1) by that user is removed. */
  function DeleteLike(s: State, reviewId: int, userId: int): (s': State)
    ensures ReviewTables.Vote(reviewId, userId, 1) !in s'.tables.votes
    ensures forall w :: w in s'.tables.votes <==> w in s.tables.votes && w != ReviewTables.Vote(reviewId, userId, 1)
  {
    s.(tables := ReviewTables.DeleteLike(s.tables, reviewId, userId, 1))
  }

  /** `deleteDislike`: only a dislike (rate -1) by that user is removed. */
  function DeleteDislike(s: State, reviewId: int, userId: int): (s': State)
    ensures ReviewTables.Vote(reviewId, userId, -1) !in s'.tables.votes
    ensures forall w :: w in s'.tables.votes <==> w in s.tables.votes && w != ReviewTables.Vote(reviewId, userId, -1)
  {
    s.(tables := ReviewTables.DeleteLike(s.tables, reviewId, userId, -1))
  }

  // ---------------------------------------------------------------------
  // Properties.

  /** A new review joins its author's feed as a REVIEW/ADD event. */
  lemma AddReviewJoinsAuthorFeed(s: State, r: Review, timestamp: int)
    requires FeedLog.Valid(s.feed)
    requires AddReview(s, r, timestamp).0.Ok?
    ensures FeedLog.GetFeeds(AddReview(s, r, timestamp).1.feed, r.userId) ==
      Ok(FeedLog.GetFeeds(s.feed, r.userId).value
         + {FeedLog.Event(s.feed.lastId + 1, r.userId, s.tables.lastId + 1, FeedLog.REVIEW, FeedLog.ADD, timestamp)})
  {
    FeedLog.OwnEventJoinsFeed(s.feed, r.userId, s.tables.lastId + 1, FeedLog.REVIEW, FeedLog.ADD, timestamp);
  }

  /** An edit by someone other than the author is still recorded in the
      author's feed, and leaves the requester's feed alone. */
  lemma EditCreditsStoredAuthor(s: State, r: Review, timestamp: int)
    requires FeedLog.Valid(s.feed)
    requires r.reviewId.Some? && r.reviewId.value in s.tables.reviews
    requires r.userId != s.tables.reviews[r.reviewId.value].userId
    ensures var s' := EditReview(s, r, timestamp).1;
      && FeedLog.GetFeeds(s'.feed, r.userId) == FeedLog.GetFeeds(s.feed, r.userId)
      && FeedLog.Event(s.feed.lastId + 1, s.tables.reviews[r.reviewId.value].userId, r.reviewId.value, FeedLog.REVIEW, FeedLog.UPDATE, timestamp)
           in FeedLog.GetFeeds(s'.feed, s.tables.reviews[r.reviewId.value].userId).value
  {
    var author := s.tables.reviews[r.reviewId.value].userId;
    FeedLog.OtherActorLeavesFeed(s.feed, r.userId, author, r.reviewId.value, FeedLog.REVIEW, FeedLog.UPDATE, timestamp);
    FeedLog.OwnEventJoinsFeed(s.feed, author, r.reviewId.value, FeedLog.REVIEW, FeedLog.UPDATE, timestamp);
  }

  /** A review read back after an add carries the request's fields and no
      votes beyond those already recorded under its new id. */
  lemma AddThenGet(s: State, r: Review, timestamp: int)
    requires AddReview(s, r, timestamp).0.Ok?
    ensures var (added, s') := AddReview(s, r, timestamp);
      var got := GetReviewById(s', added.value.reviewId.value);
      && got.Ok?
      && got.value.content == r.content && got.value.isPositive == r.isPositive
      && got.value.userId == r.userId && got.value.filmId == r.filmId
  {
  }

  /** A deleted review can no longer be read, and deleting it again is
      NotFound. */
  lemma DeleteThenGet(s: State, id: int, timestamp: int)
    requires DeleteReview(s, id, timestamp).0.Ok?
    ensures var s' := DeleteReview(s, id, timestamp).1;
      GetReviewById(s', id) == Err(NotFound) && DeleteReview(s', id, timestamp).0 == Err(NotFound)
  {
  }

  /** With one vote per (review, user): removing a like takes one off the
      review's usefulness when the user liked it, and leaves a dislike by
      the same user where it is. */
  lemma DeleteLikeEffect(s: State, reviewId: int, userId: int)
    requires ReviewTables.Valid(s.tables)
    ensures ReviewTables.Vote(reviewId, userId, 1) in s.tables.votes ==>
      ReviewTables.Useful(DeleteLike(s, reviewId, userId).tables.votes, reviewId) == ReviewTables.Useful(s.tables.votes, reviewId) - 1
    ensures ReviewTables.Vote(reviewId, userId, -1) in s.tables.votes ==> DeleteLike(s, reviewId, userId) == s
  {
    ReviewTables.DeleteLikeEffect(s.tables, reviewId, userId, 1);
    if ReviewTables.Vote(reviewId, userId, -1) in s.tables.votes {
      var i :| 0 <= i < |s.tables.votes| && s.tables.votes[i] == ReviewTables.Vote(reviewId, userId, -1);
      assert ReviewTables.Vote(reviewId, userId, 1) !in s.tables.votes by {
        forall j | 0 <= j < |s.tables.votes|
          ensures s.tables.votes[j] != ReviewTables.Vote(reviewId, userId, 1)
        {
          if j != i {
            assert (s.tables.votes[i].reviewId, s.tables.votes[i].userId) != (s.tables.votes[j].reviewId, s.tables.votes[j].userId);
          }
        }
      }
    }
  }

  /** A first like followed by its removal restores the votes. */
  lemma LikeThenDeleteLike(s: State, reviewId: int, userId: int)
    requires !ReviewTables.HasVoted(s.tables.votes, reviewId, userId)
    ensures DeleteLike(AddLike(s, reviewId, userId).1, reviewId, userId) == s
  {
    ReviewTables.AddThenDeleteRestores(s.tables, reviewId, userId, 1);
  }

  /** A like and a dislike by the same user cannot both be recorded. */
  lemma LikeBlocksDislike(s: State, reviewId: int, userId: int)
    requires AddLike(s, reviewId, userId).0.Ok?
    ensures AddDislike(AddLike(s, reviewId, userId).1, reviewId, userId) == (Err(NotFound), AddLike(s, reviewId, userId).1)
  {
    var s' := AddLike(s, reviewId, userId).1;
    var n := |s.tables.votes|;
    assert s'.tables.votes[n] == ReviewTables.Vote(reviewId, userId, 1);
  }
}

=== FILE: review_tables.dfy ===
/** The review tables (storage/impl/ReviewDbStorage.java): REVIEWS as a map
    from id to row, and REVIEW_LIKES as a sequence of votes, each a user's
    rate (+1 for a like, -1 for a dislike) on a review.

    The schema is not part of this model. Two unique keys are assumed, the
    ones the service's error messages name: one review per (user, film)
    and one vote per (review, user). Foreign keys are not modelled. */
module ReviewTables {
  import opened Common
  import opened Model
  import Ranking

  /** A row of REVIEWS; `isPositive` is stored as a BIT, 1 or 0. */
  datatype ReviewRow = ReviewRow(content: string, isPositive: int, userId: int, filmId: int)

  /** A row of REVIEW_LIKES. */
  datatype Vote = Vote(reviewId: int, userId: int, rate: int)

  datatype Tables = Tables(reviews: map<int, ReviewRow>, lastId: int, votes: seq<Vote>)

  const Empty := Tables(map[], 0, [])

  /** At most one review per (user, film). */
  predicate OneReviewEach(reviews: map<int, ReviewRow>) {
    forall a, b :: a in reviews && b in reviews && a != b ==>
      (reviews[a].userId, reviews[a].filmId) != (reviews[b].userId, reviews[b].filmId)
  }

  /** At most one vote per (review, user). */
  predicate OneVoteEach(votes: seq<Vote>) {
    forall i, j :: 0 <= i < j < |votes| ==>
      (votes[i].reviewId, votes[i].userId) != (votes[j].reviewId, votes[j].userId)
  }

  /** Ids come from the identity column, and both unique keys hold. */
  predicate Valid(t: Tables) {
    && t.lastId >= 0
    && (forall k :: k in t.reviews ==> 1 <= k <= t.lastId)
    && OneReviewEach(t.reviews)
    && OneVoteEach(t.votes)
  }

  /** The BIT a boolean is written as. */
  function Bit(b: bool): int {
    if b then 1 else 0
  }

  /** The sum of the rates of a review's votes; 0 with no votes. */
  function Useful(votes: seq<Vote>, reviewId: int): int {
    if votes == [] then 0
    else
      var last := votes[|votes| - 1];
      Useful(votes[..|votes| - 1], reviewId) + (if last.reviewId == reviewId then last.rate else 0)
  }

  /** `findById`: the stored review, its BIT read back as a boolean and its
      `useful` the sum of its votes' rates (a NULL sum reads as 0). */
  function FindById(t: Tables, id: int): (r: Option<Review>)
    ensures r.None? <==> id !in t.reviews
    ensures r.Some? ==>
      && r.value.reviewId == Some(id)
      && r.value.content == t.reviews[id].content
      && (r.value.isPositive <==> t.reviews[id].isPositive == 1)
      && r.value.userId == t.reviews[id].userId && r.value.filmId == t.reviews[id].filmId
      && r.value.useful == Some(Useful(t.votes, id))
  {
    if id !in t.reviews then None
    else
      var row := t.reviews[id];
      Some(Review(Some(id), row.content, row.isPositive == 1, row.userId, row.filmId, Some(Useful(t.votes, id))))
  }

  /** Some review is by this user about this film. */
  predicate HasReviewBy(t: Tables, userId: int, filmId: int) {
    exists k :: k in t.reviews && t.reviews[k].userId == userId && t.reviews[k].filmId == filmId
  }

  /** `save`: without an id, insert after checking that the user and then the
      film exist (`users` and `films` are the ids of USERS and FILMS);
      with an id, overwrite content and isPositive only and read the review
      back, which fails (`Optional.get`) when there is none. */
  function Save(t: Tables, r: Review, users: set<int>, films: set<int>): (res: (Result<Review>, Tables))
    ensures res.0.Err? ==> res.1 == t
    ensures res.1.votes == t.votes
    ensures Valid(t) ==> Valid(res.1)
    ensures r.reviewId.None? ==>
      && (res.0 == Err(NotFound) <==> r.userId !in users || r.filmId !in films)
      && (res.0 == Err(Integrity) <==> r.userId in users && r.filmId in films && HasReviewBy(t, r.userId, r.filmId))
      && (res.0.Ok? ==>
            && res.0.value == r.(reviewId := Some(t.lastId + 1))
            && res.1.reviews == t.reviews[t.lastId + 1 := ReviewRow(r.content, Bit(r.isPositive), r.userId, r.filmId)]
            && res.1.lastId == t.lastId + 1)
    ensures r.reviewId.Some? ==>
      && (res.0.Err? <==> r.reviewId.value !in t.reviews)
      && (res.0.Err? ==> res.0.error == Internal)
      && (res.0.Ok? ==>
            && res.1.reviews == t.reviews[r.reviewId.value := t.reviews[r.reviewId.value].(content := r.content, isPositive := Bit(r.isPositive))]
            && res.1.lastId == t.lastId
            && Some(res.0.value) == FindById(res.1, r.reviewId.value))
  {
    match r.reviewId
    case None =>
      if r.userId !in users || r.filmId !in films then (Err(NotFound), t)
      else if HasReviewBy(t, r.userId, r.filmId) then (Err(Integrity), t)
      else
        var id := t.lastId + 1;
        var t' := t.(reviews := t.reviews[id := ReviewRow(r.content, Bit(r.isPositive), r.userId, r.filmId)], lastId := id);
        (Ok(r.(reviewId := Some(id))), t')
    case Some(id) =>
      if id !in t.reviews then (Err(Internal), t)
      else
        var t' := t.(reviews := t.reviews[id := t.reviews[id].(content := r.content, isPositive := Bit(r.isPositive))]);
        (Ok(FindById(t', id).value), t')
  }

  /** `deleteById`: the review's row goes; its votes are left to the schema. */
  function DeleteById(t: Tables, id: int): (t': Tables)
    ensures FindById(t', id).None?
    ensures forall k :: k != id ==> FindById(t', k) == FindById(t, k)
    ensures Valid(t) ==> Valid(t')
  {
    t.(reviews := t.reviews - {id})
  }

  // ---------------------------------------------------------------------
  // Listing by usefulness.

  /** A review's usefulness, as a ranking key. */
  function UsefulOf(t: Tables): int -> int {
    k => Useful(t.votes, k)
  }

  /** The reviews of one film. */
  function ReviewsOf(t: Tables, filmId: int): set<int> {
    set k | k in t.reviews && t.reviews[k].filmId == filmId
  }

  /** `reviews` are the stored reviews `ids` as `findById` reads them. */
  predicate ReadsAll(t: Tables, ids: seq<int>, reviews: seq<Review>) {
    && |ids| == |reviews|
    && forall i :: 0 <= i < |ids| ==> ids[i] in t.reviews && Some(reviews[i]) == FindById(t, ids[i])
  }

  /** The `count` most useful reviews among `keys`, best first; ties in the
      scan order `order`. A negative LIMIT is taken to fail. */
  function Ranked(t: Tables, order: seq<int>, keys: set<int>, count: int): (r: Result<seq<Review>>)
    requires keys <= t.reviews.Keys
    requires IsEnumeration(order, keys)
    ensures r.Err? <==> count < 0
    ensures r.Err? ==> r.error == Internal
    ensures r.Ok? ==> exists ids :: Ranking.IsTopByKey(ids, keys, count, UsefulOf(t)) && ReadsAll(t, ids, r.value)
  {
    if count < 0 then Err(Internal)
    else
      var ids := Ranking.Top(Ranking.SortDescending(order, UsefulOf(t)), count);
      Ranking.TopOfSortedIsTopByKey(order, keys, count, UsefulOf(t));
      var rs := seq(|ids|, i requires 0 <= i < |ids| && ids[i] in t.reviews => FindById(t, ids[i]).value);
      assert ReadsAll(t, ids, rs);
      Ok(rs)
  }

  /** `findAll`: the `count` most useful reviews. */
  function FindAll(t: Tables, order: seq<int>, count: int): (r: Result<seq<Review>>)
    requires IsEnumeration(order, t.reviews.Keys)
    ensures r.Err? <==> count < 0
    ensures r.Ok? ==> exists ids :: Ranking.IsTopByKey(ids, t.reviews.Keys, count, UsefulOf(t)) && ReadsAll(t, ids, r.value)
  {
    Ranked(t, order, t.reviews.Keys, count)
  }

  /** `findAllByFilm`: the `count` most useful reviews of one film. */
  function FindAllByFilm(t: Tables, order: seq<int>, filmId: int, count: int): (r: Result<seq<Review>>)
    requires IsEnumeration(order, ReviewsOf(t, filmId))
    ensures r.Err? <==> count < 0
    ensures r.Ok? ==> forall i :: 0 <= i < |r.value| ==> r.value[i].filmId == filmId
    ensures r.Ok? ==> exists ids :: Ranking.IsTopByKey(ids, ReviewsOf(t, filmId), count, UsefulOf(t)) && ReadsAll(t, ids, r.value)
  {
    var r := Ranked(t, order, ReviewsOf(t, filmId), count);
    if r.Err? then r
    else
      assert forall i :: 0 <= i < |r.value| ==> r.value[i].filmId == filmId by {
        var ids :| Ranking.IsTopByKey(ids, ReviewsOf(t, filmId), count, UsefulOf(t)) && ReadsAll(t, ids, r.value);
        forall i | 0 <= i < |r.value|
          ensures r.value[i].filmId == filmId
        {
          assert ids[i] in ReviewsOf(t, filmId);
        }
      }
      r
  }

  // ---------------------------------------------------------------------
  // Votes.

  /** Some vote of this user on this review exists, whatever its rate. */
  predicate HasVoted(votes: seq<Vote>, reviewId: int, userId: int) {
    exists i :: 0 <= i < |votes| && votes[i].reviewId == reviewId && votes[i].userId == userId
  }

  /** `addLike`: insert the vote; a second vote by the same user on the same
      review breaks the unique key. */
  function AddLike(t: Tables, reviewId: int, userId: int, rate: int): (res: (Result<()>, Tables))
    ensures res.0.Err? <==> HasVoted(t.votes, reviewId, userId)
    ensures res.0.Err? ==> res.0.error == Integrity && res.1 == t
    ensures res.0.Ok? ==> res.1 == t.(votes := t.votes + [Vote(reviewId, userId, rate)])
    ensures res.0.Ok? ==> Useful(res.1.votes, reviewId) == Useful(t.votes, reviewId) + rate
    ensures forall k :: k != reviewId ==> Useful(res.1.votes, k) == Useful(t.votes, k)
    ensures Valid(t) ==> Valid(res.1)
  {
    if HasVoted(t.votes, reviewId, userId) then (Err(Integrity), t)
    else
      var votes := t.votes + [Vote(reviewId, userId, rate)];
      assert votes[..|votes| - 1] == t.votes;
      (Ok(()), t.(votes := votes))
  }

  /** The votes other than `v`, in order. */
  function Remove(votes: seq<Vote>, v: Vote): (r: seq<Vote>)
    ensures forall w :: w in r <==> w in votes && w != v
    ensures |r| <= |votes|
  {
    if votes == [] then []
    else
      var n := |votes| - 1;
      assert votes == votes[..n] + [votes[n]];
      Remove(votes[..n], v) + (if votes[n] == v then [] else [votes[n]])
  }

  /** `deleteLike`: delete the vote only if its rate matches. */
  function DeleteLike(t: Tables, reviewId: int, userId: int, rate: int): (t': Tables)
    ensures Vote(reviewId, userId, rate) !in t'.votes
    ensures forall w :: w in t'.votes <==> w in t.votes && w != Vote(reviewId, userId, rate)
    ensures t'.reviews == t.reviews && t'.lastId == t.lastId
  {
    t.(votes := Remove(t.votes, Vote(reviewId, userId, rate)))
  }

  // ---------------------------------------------------------------------
  // Properties.

  /** Removing a vote that is not there changes nothing. */
  lemma {:induction false} RemoveAbsent(votes: seq<Vote>, v: Vote)
    requires v !in votes
    ensures Remove(votes, v) == votes
  {
    if votes != [] {
      var n := |votes| - 1;
      assert votes == votes[..n] + [votes[n]];
      RemoveAbsent(votes[..n], v);
      assert votes == votes[..n] + [votes[n]];
    }
  }

  /** A prefix of votes with one vote per (review, user) has that property
      too. */
  lemma OneVoteEachPrefix(votes: seq<Vote>, n: nat)
    requires OneVoteEach(votes) && n <= |votes|
    ensures OneVoteEach(votes[..n])
  {
    assert forall i :: 0 <= i < n ==> votes[..n][i] == votes[i];
  }

  /** Removal and usefulness both unfold on the last vote. */
  lemma UnfoldLast(votes: seq<Vote>, v: Vote, reviewId: int)
    requires votes != []
    ensures var n := |votes| - 1;
      && Remove(votes, v) == Remove(votes[..n], v) + (if votes[n] == v then [] else [votes[n]])
      && Useful(votes, reviewId) == Useful(votes[..n], reviewId) + (if votes[n].reviewId == reviewId then votes[n].rate else 0)
  {
  }

  /** With one vote per (review, user), a vote that ends the sequence
      occurs nowhere before. */
  lemma LastIsUnique(votes: seq<Vote>)
    requires OneVoteEach(votes) && votes != []
    ensures votes[|votes| - 1] !in votes[..|votes| - 1]
  {
    var n := |votes| - 1;
    forall i | 0 <= i < n
      ensures votes[..n][i] != votes[n]
    {
      assert (votes[i].reviewId, votes[i].userId) != (votes[n].reviewId, votes[n].userId);
    }
  }

  /** With one vote per (review, user), removing a vote takes exactly its
      rate off its review's usefulness. */
  lemma {:induction false} RemoveTakesRateOff(votes: seq<Vote>, v: Vote, reviewId: int)
    requires OneVoteEach(votes)
    ensures Useful(Remove(votes, v), reviewId) ==
      Useful(votes, reviewId) - (if v in votes && v.reviewId == reviewId then v.rate else 0)
  {
    if votes != [] {
      var n := |votes| - 1;
      var init := votes[..n];
      assert votes == init + [votes[n]];
      UnfoldLast(votes, v, reviewId);
      if votes[n] == v {
        LastIsUnique(votes);
        RemoveAbsent(init, v);
        assert Remove(votes, v) == init;
        assert v in votes by { assert votes[n] == v; }
      } else {
        OneVoteEachPrefix(votes, n);
        RemoveTakesRateOff(init, v, reviewId);
        UsefulAppend(Remove(init, v), votes[n], reviewId);
        assert v in votes <==> v in init;
      }
    }
  }

  /** A vote is counted in the usefulness of the review it names. */
  lemma UsefulAppend(votes: seq<Vote>, v: Vote, reviewId: int)
    ensures Useful(votes + [v], reviewId) == Useful(votes, reviewId) + (if v.reviewId == reviewId then v.rate else 0)
  {
    assert (votes + [v])[..|votes|] == votes;
  }

  /** A review nobody voted on has usefulness 0, whatever the other
      reviews' votes. */
  lemma {:induction false} UsefulWithoutVotes(votes: seq<Vote>, reviewId: int)
    requires forall i :: 0 <= i < |votes| ==> votes[i].reviewId != reviewId
    ensures Useful(votes, reviewId) == 0
  {
    if votes != [] {
      var n := |votes| - 1;
      assert forall i :: 0 <= i < n ==> votes[..n][i] == votes[i];
      UsefulWithoutVotes(votes[..n], reviewId);
    }
  }

  /** Deleting a vote with its own rate takes the rate off; with the other
      rate it leaves the votes untouched. */
  lemma DeleteLikeEffect(t: Tables, reviewId: int, userId: int, rate: int)
    requires OneVoteEach(t.votes)
    ensures Vote(reviewId, userId, rate) in t.votes ==>
      Useful(DeleteLike(t, reviewId, userId, rate).votes, reviewId) == Useful(t.votes, reviewId) - rate
    ensures Vote(reviewId, userId, rate) !in t.votes ==> DeleteLike(t, reviewId, userId, rate) == t
  {
    RemoveTakesRateOff(t.votes, Vote(reviewId, userId, rate), reviewId);
    if Vote(reviewId, userId, rate) !in t.votes {
      RemoveAbsent(t.votes, Vote(reviewId, userId, rate));
    }
  }

  /** A new vote added and then deleted with the same rate leaves the votes
      as they were. */
  lemma AddThenDeleteRestores(t: Tables, reviewId: int, userId: int, rate: int)
    requires !HasVoted(t.votes, reviewId, userId)
    ensures DeleteLike(AddLike(t, reviewId, userId, rate).1, reviewId, userId, rate) == t
  {
    var v := Vote(reviewId, userId, rate);
    var votes := t.votes + [v];
    assert v !in t.votes;
    RemoveAbsent(t.votes, v);
    assert votes[..|votes| - 1] == t.votes;
  }

  /** The stored boolean reads back as written, on insert and on update. */
  lemma IsPositiveRoundTrip(t: Tables, r: Review, users: set<int>, films: set<int>)
    requires Save(t, r, users, films).0.Ok?
    ensures var (saved, t') := Save(t, r, users, films);
      FindById(t', saved.value.reviewId.value).value.isPositive == r.isPositive
  {
  }
}

=== FILE: user_service.dfy ===
/** The friendship operations of service/UserService.java over the user
    store, the friendship table and the feed. */
module UserService {
  import opened Common
  import opened Model
  import UserStore
  import FriendTable
  import FeedLog

  datatype State = State(users: UserStore.Store, friends: FriendTable.Table, feed: FeedLog.Table)

  /** What every operation below keeps true: well-formed stores and at most
      one friendship row per unordered pair of users. */
  predicate Inv(s: State) {
    && UserStore.Valid(s.users)
    && FriendTable.Valid(s.friends)
    && FriendTable.OnePerPair(s.friends)
    && FeedLog.Valid(s.feed)
  }

  predicate Known(s: State, id: int) {
    id in s.users.users
  }

  /** The row the feed gains for an event with the next identity. */
  function NextEvent(s: State, userId: int, entityId: int, t: FeedLog.EventType, o: FeedLog.Operation, now: int): FeedLog.Row {
    FeedLog.ToRow(FeedLog.Event(s.feed.lastId + 1, userId, entityId, t, o, now))
  }

  /** The ids `u` has sent friendship requests to. */
  function FriendIdSet(t: FriendTable.Table, u: int): set<int> {
    set x | x in t.rows && x.userId == u :: x.friendId
  }

  /** The friend ids of a list of requests, in order. */
  function FriendIds(sent: seq<UserFriend>): (r: seq<int>)
    ensures |r| == |sent|
    ensures forall i :: 0 <= i < |sent| ==> r[i] == sent[i].friendId
  {
    seq(|sent|, i requires 0 <= i < |sent| => sent[i].friendId)
  }

  // ---------------------------------------------------------------------
  // Operations.

  /** `addFriend`: both users must exist (NotFound, checked first), must
      differ and must not be linked in either direction (Conflict). Then a
      FRIEND/ADD event is recorded and one row (id, friendId, status 0) is
      saved. A constraint violation while saving is reported as NotFound,
      and the event recorded before it stays. */
  function AddFriend(s: State, id: int, friendId: int, now: int): (res: (Result<()>, State))
    ensures !Known(s, id) ==> res == (Err(NotFound), s)
    ensures Known(s, id) && !Known(s, friendId) ==> res == (Err(NotFound), s)
    ensures Known(s, id) && Known(s, friendId) && id == friendId ==> res == (Err(Conflict), s)
    ensures Known(s, id) && Known(s, friendId) && id != friendId
              && (exists x :: x in s.friends.rows && FriendTable.Links(x, id, friendId)) ==>
              res.1 == s && (res.0 == Err(Conflict) || res.0 == Err(Internal))
    ensures res.0.Ok? <==>
              Known(s, id) && Known(s, friendId) && id != friendId
              && forall x :: x in s.friends.rows ==> !FriendTable.Links(x, id, friendId)
    ensures res.0.Ok? ==>
              && res.1.feed.rows == s.feed.rows + [NextEvent(s, id, friendId, FeedLog.FRIEND, FeedLog.ADD, now)]
              && res.1.friends.rows == s.friends.rows + [FriendTable.Row(s.friends.lastId + 1, id, friendId, 0)]
              && res.1.users == s.users
  {
    if UserStore.GetById(s.users, id).None? then (Err(NotFound), s)
    else if UserStore.GetById(s.users, friendId).None? then (Err(NotFound), s)
    else if id == friendId then (Err(Conflict), s)
    else
      match FriendTable.FindByUserAndFriend(s.friends, id, friendId)
      case Err(e) => (Err(e), s)
      case Ok(Some(_)) => (Err(Conflict), s)
      case Ok(None) =>
        var feed := FeedLog.CreateFeed(s.feed, id, friendId, FeedLog.FRIEND, FeedLog.ADD, now);
        var (saved, friends) := FriendTable.Save(s.friends, FriendTable.NewRequest(id, friendId), s.users.users.Keys);
        if saved.Err? then (Err(NotFound), s.(feed := feed))
        else (Ok(()), s.(friends := friends, feed := feed))
  }

  /** `deleteFriend`: deleting oneself is a Conflict; so is a pair with no
      row in either direction (the users are not looked up at all). Otherwise
      the single row linking the pair goes, whichever way it was stored, and
      a FRIEND/REMOVE event is recorded. */
  function DeleteFriend(s: State, id: int, friendId: int, now: int): (res: (Result<()>, State))
    ensures id == friendId ==> res == (Err(Conflict), s)
    ensures id != friendId && (forall x :: x in s.friends.rows ==> !FriendTable.Links(x, id, friendId)) ==>
              res == (Err(Conflict), s)
    ensures res.0.Err? ==> res.1 == s
    ensures res.0.Ok? ==> id != friendId && exists x :: x in s.friends.rows && FriendTable.Links(x, id, friendId)
    ensures res.0.Ok? ==>
              && res.1.feed.rows == s.feed.rows + [NextEvent(s, id, friendId, FeedLog.FRIEND, FeedLog.REMOVE, now)]
              && res.1.users == s.users
              && (forall x :: x in res.1.friends.rows ==> x in s.friends.rows)
              && res.1.friends.lastId == s.friends.lastId
    ensures res.0.Ok? && FriendTable.Valid(s.friends) ==>
              forall x :: x in res.1.friends.rows <==> x in s.friends.rows && !FriendTable.Links(x, id, friendId)
  {
    if id == friendId then (Err(Conflict), s)
    else
      match FriendTable.FindByUserAndFriend(s.friends, id, friendId)
      case Err(e) => (Err(e), s)
      case Ok(None) => (Err(Conflict), s)
      case Ok(Some(uf)) =>
        FriendTable.DeleteFoundRow(s.friends, id, friendId, uf);
        var friends := FriendTable.Delete(s.friends, uf);
        var feed := FeedLog.CreateFeed(s.feed, id, friendId, FeedLog.FRIEND, FeedLog.REMOVE, now);
        (Ok(()), s.(friends := friends, feed := feed))
  }

  /** `getUserById`: the user with the requests it sent. */
  function GetUserById(s: State, id: int): (r: Result<(User, seq<UserFriend>)>)
    ensures r.Err? <==> !Known(s, id)
    ensures r.Err? ==> r.error == NotFound
    ensures r.Ok? ==> r.value.0 == s.users.users[id]
    ensures r.Ok? ==> forall x :: x in s.friends.rows && x.userId == id ==> FriendTable.ToUserFriend(x) in r.value.1
    ensures r.Ok? ==> forall uf :: uf in r.value.1 ==>
      exists x :: x in s.friends.rows && x.userId == id && FriendTable.ToUserFriend(x) == uf
  {
    match UserStore.GetById(s.users, id)
    case None => Err(NotFound)
    case Some(u) => Ok((u, FriendTable.FindAllByUser(s.friends, id)))
  }

  /** `mapToUser`: the other end of a friendship row as seen from `u`. The
      answer is always one of the row's two users, and for a row that `u` is
      one end of and that links two different users it is never `u`. */
  function MapToUser(uf: UserFriend, u: User): (other: int)
    ensures other == uf.userId || other == uf.friendId
    ensures (u.id == Some(uf.userId) || u.id == Some(uf.friendId)) && uf.userId != uf.friendId ==>
      Some(other) != u.id
  {
    if Some(uf.userId) == u.id then uf.friendId else uf.userId
  }

  /** `getFriends`: the users at the other end of the rows `id` sent, in the
      order of those rows. Rows whose requester is someone else are never
      read, so being added by another user does not make them a friend. */
  function GetFriends(s: State, id: int): (r: Result<seq<User>>)
    ensures r.Err? <==> !Known(s, id)
    ensures r.Err? ==> r.error == NotFound
  {
    match GetUserById(s, id)
    case Err(e) => Err(e)
    case Ok((u, sent)) =>
      Ok(UserStore.GetUsersById(s.users, seq(|sent|, i requires 0 <= i < |sent| => MapToUser(sent[i], u))))
  }

  /** `getCommonFriends`: for the same user, that user's friends; otherwise
      the stored users both have sent requests to, and an empty list when
      there are none. The source iterates a hash set here, whose order it
      does not fix; the model lists ids ascending. */
  function GetCommonFriends(s: State, id: int, otherId: int): (r: Result<seq<User>>)
    ensures r.Err? <==> !Known(s, id) || !Known(s, otherId)
    ensures r.Err? ==> r.error == NotFound
    ensures id == otherId ==> r == GetFriends(s, id)
  {
    match GetUserById(s, id)
    case Err(e) => Err(e)
    case Ok(_) =>
      if id == otherId then GetFriends(s, id)
      else
        match GetUserById(s, otherId)
        case Err(e) => Err(e)
        case Ok(_) =>
          var common := FriendIdSet(s.friends, id) * FriendIdSet(s.friends, otherId);
          if common == {} then Ok([])
          else Ok(UserStore.GetUsersById(s.users, SortedElements(common)))
  }

  /** `getFeeds`: the events of a known user, NotFound otherwise. */
  function GetFeeds(s: State, id: int): (r: Result<set<FeedLog.Event>>)
    ensures !Known(s, id) ==> r == Err(NotFound)
    ensures Known(s, id) ==> r == FeedLog.GetFeeds(s.feed, id)
  {
    if UserStore.GetById(s.users, id).None? then Err(NotFound)
    else FeedLog.GetFeeds(s.feed, id)
  }

  /** A known user's feed always reads, and holds only that user's events. */
  lemma KnownUserFeedReads(s: State, id: int)
    requires Inv(s) && Known(s, id)
    ensures GetFeeds(s, id).Ok?
    ensures forall e :: e in GetFeeds(s, id).value ==> e.userId == id
  {
    FeedLog.ValidFeedsRead(s.feed, id);
  }

  /** `getRecommendations`: only the existence check belongs to this
      service; `computed` stands for the list the film storage answers. */
  function GetRecommendations(s: State, userId: int, computed: seq<Film>): (r: Result<seq<Film>>)
    ensures r.Err? <==> !Known(s, userId)
    ensures r.Err? ==> r.error == NotFound
    ensures r.Ok? ==> r.value == computed
  {
    if UserStore.GetById(s.users, userId).None? then Err(NotFound)
    else if computed == [] then Ok([])
    else Ok(computed)
  }

  // ---------------------------------------------------------------------
  // Properties.

  /** The ids `getFriends` looks up are exactly the friend ids of the rows
      `id` sent, in the order the scan of the table returns them. */
  lemma FriendsAreSentRequests(s: State, id: int)
    requires Inv(s) && Known(s, id)
    ensures GetFriends(s, id) == Ok(UserStore.GetUsersById(s.users, FriendIds(FriendTable.FindAllByUser(s.friends, id))))
  {
    var u := s.users.users[id];
    var sent := FriendTable.FindAllByUser(s.friends, id);
    assert u.id == Some(id);
    assert seq(|sent|, i requires 0 <= i < |sent| => MapToUser(sent[i], u)) == FriendIds(sent);
  }

  /** The friend ids of the requests `id` sent are the ids of its friend
      set. */
  lemma SentIdsAreFriendIdSet(s: State, id: int, k: int)
    ensures k in FriendIds(FriendTable.FindAllByUser(s.friends, id)) <==> k in FriendIdSet(s.friends, id)
  {
    var sent := FriendTable.FindAllByUser(s.friends, id);
    var ids := FriendIds(sent);
    if k in ids {
      var i :| 0 <= i < |ids| && ids[i] == k;
      var x :| x in s.friends.rows && FriendTable.ToUserFriend(x) == sent[i];
      assert x.friendId == k && x.userId == id;
    }
    if k in FriendIdSet(s.friends, id) {
      var x :| x in s.friends.rows && x.userId == id && x.friendId == k;
      assert FriendTable.ToUserFriend(x) in sent;
      var i :| 0 <= i < |sent| && sent[i] == FriendTable.ToUserFriend(x);
      assert ids[i] == k;
    }
  }

  /** A user is in `id`'s friend list exactly when it is stored and `id`
      sent it a request. */
  lemma GetFriendsMembers(s: State, id: int, v: User)
    requires Inv(s) && Known(s, id)
    ensures v in GetFriends(s, id).value <==>
      v.id.Some? && UserStore.Stores(s.users, v.id.value, v) && v.id.value in FriendIdSet(s.friends, id)
  {
    FriendsAreSentRequests(s, id);
    UserStore.GetUsersByIdMembers(s.users, FriendIds(FriendTable.FindAllByUser(s.friends, id)), v);
    if v.id.Some? {
      SentIdsAreFriendIdSet(s, id, v.id.value);
    }
  }

  /** Common friends do not depend on the order of the two users. */
  lemma CommonFriendsSymmetric(s: State, a: int, b: int)
    ensures GetCommonFriends(s, a, b) == GetCommonFriends(s, b, a)
  {
    var fa := FriendIdSet(s.friends, a);
    var fb := FriendIdSet(s.friends, b);
    assert fa * fb == fb * fa;
  }

  /** For two different known users, a user is a common friend exactly when
      it is stored and both sent it a request. */
  lemma CommonFriendsMembers(s: State, a: int, b: int, v: User)
    requires Inv(s) && Known(s, a) && Known(s, b) && a != b
    ensures v in GetCommonFriends(s, a, b).value <==>
      && v.id.Some? && UserStore.Stores(s.users, v.id.value, v)
      && v.id.value in FriendIdSet(s.friends, a) && v.id.value in FriendIdSet(s.friends, b)
  {
    var common := FriendIdSet(s.friends, a) * FriendIdSet(s.friends, b);
    if v in GetCommonFriends(s, a, b).value {
      var k :| k in SortedElements(common) && UserStore.Stores(s.users, k, v);
      assert v.id == Some(k);
    }
    if v.id.Some? && UserStore.Stores(s.users, v.id.value, v) && v.id.value in common {
      assert common != {};
      assert v.id.value in SortedElements(common);
    }
  }

  /** The service keeps the invariant. */
  lemma AddFriendKeepsInv(s: State, id: int, friendId: int, now: int)
    requires Inv(s)
    ensures Inv(AddFriend(s, id, friendId, now).1)
  {
    if Known(s, id) && Known(s, friendId) && id != friendId
       && FriendTable.FindByUserAndFriend(s.friends, id, friendId) == Ok(None) {
      FriendTable.SaveKeepsOnePerPair(s.friends, FriendTable.NewRequest(id, friendId), s.users.users.Keys);
    }
  }

  lemma DeleteFriendKeepsInv(s: State, id: int, friendId: int, now: int)
    requires Inv(s)
    ensures Inv(DeleteFriend(s, id, friendId, now).1)
  {
    var f := FriendTable.FindByUserAndFriend(s.friends, id, friendId);
    if id != friendId && f.Ok? && f.value.Some? {
      FriendTable.DeleteKeepsOnePerPair(s.friends, f.value.value);
    }
  }

  /** With the invariant, the only failures of `addFriend` are the ones it
      checks for: an unknown user, oneself, or an existing link. */
  lemma AddFriendFailsOnlyByChecks(s: State, id: int, friendId: int, now: int)
    requires Inv(s)
    ensures AddFriend(s, id, friendId, now).0.Err? ==>
      || (AddFriend(s, id, friendId, now) == (Err(NotFound), s) && (!Known(s, id) || !Known(s, friendId)))
      || AddFriend(s, id, friendId, now) == (Err(Conflict), s)
  {
    FriendTable.FindNeverFails(s.friends, id, friendId);
  }

  /** After a successful delete the two users are linked in neither
      direction. */
  lemma DeleteFriendUnlinks(s: State, id: int, friendId: int, now: int)
    requires Inv(s)
    requires DeleteFriend(s, id, friendId, now).0.Ok?
    ensures var s' := DeleteFriend(s, id, friendId, now).1;
      forall x :: x in s'.friends.rows ==> !FriendTable.Links(x, id, friendId) && !FriendTable.Links(x, friendId, id)
  {
    FriendTable.DeleteThenFind(s.friends, id, friendId);
  }

  /** After `a` adds `b`, `b`'s list is as before: friendship is
      one-directional until `b` adds `a` back. */
  lemma AddFriendLeavesOtherList(s: State, a: int, b: int, now: int)
    requires Inv(s)
    requires AddFriend(s, a, b, now).0.Ok?
    ensures GetFriends(AddFriend(s, a, b, now).1, b) == GetFriends(s, b)
  {
    var s' := AddFriend(s, a, b, now).1;
    FriendTable.SaveListsOneWay(s.friends, a, b, s.users.users.Keys);
    assert s'.friends == FriendTable.Save(s.friends, FriendTable.NewRequest(a, b), s.users.users.Keys).1;
  }

  /** The state a successful `addFriend` leaves, piece by piece. */
  lemma AddFriendState(s: State, a: int, b: int, now: int)
    requires AddFriend(s, a, b, now).0.Ok?
    ensures AddFriend(s, a, b, now).1 == State(
      s.users,
      FriendTable.Save(s.friends, FriendTable.NewRequest(a, b), s.users.users.Keys).1,
      FeedLog.CreateFeed(s.feed, a, b, FeedLog.FRIEND, FeedLog.ADD, now))
  {
  }

  /** After `a` adds `b`, `a`'s friends are the ones it had and `b`. The
      scan behind the list has no ORDER BY, so only membership is stated. */
  lemma AddFriendExtendsOwnList(s: State, a: int, b: int, now: int, v: User)
    requires Inv(s)
    requires AddFriend(s, a, b, now).0.Ok?
    ensures v in GetFriends(AddFriend(s, a, b, now).1, a).value <==>
      v in GetFriends(s, a).value || v == s.users.users[b]
  {
    AddFriendState(s, a, b, now);
    AddFriendKeepsInv(s, a, b, now);
    var s' := AddFriend(s, a, b, now).1;
    var row := FriendTable.Row(s.friends.lastId + 1, a, b, 0);
    assert s'.friends.rows == s.friends.rows + [row];
    assert FriendIdSet(s'.friends, a) == FriendIdSet(s.friends, a) + {b} by {
      assert row in s'.friends.rows;
    }
    GetFriendsMembers(s, a, v);
    GetFriendsMembers(s', a, v);
  }
}

=== FILE: user_store.dfy ===
/** The keyed user store (storage/impl/InMemoryUserStorage.java): a map from
    id to user and a counter that hands out ids 1, 2, 3, ... */
module UserStore {
  import opened Common
  import opened Model

  datatype Store = Store(users: map<int, User>, counter: int)

  const Empty := Store(map[], 0)

  /** Every stored user sits under its own id, and every id is one the
      counter has already handed out. */
  predicate Valid(s: Store) {
    && s.counter >= 0
    && (forall k :: k in s.users ==> 1 <= k <= s.counter && s.users[k].id == Some(k))
  }

  /** `addUser`: the user receives the next id and is stored under it. */
  function AddUser(s: Store, u: User): (res: (User, Store))
    ensures res.0 == u.(id := Some(s.counter + 1))
    ensures Valid(s) ==> s.counter + 1 !in s.users
    ensures res.1.users == s.users[s.counter + 1 := res.0]
    ensures res.1.counter == s.counter + 1
    ensures Valid(s) ==> Valid(res.1)
  {
    var id := s.counter + 1;
    var u' := u.(id := Some(id));
    (u', Store(s.users[id := u'], id))
  }

  /** `editUser`: replaces the user stored under the same id; a missing or
      unknown id is NotFound. */
  function EditUser(s: Store, u: User): (res: (Result<()>, Store))
    ensures res.0.Err? <==> u.id.None? || u.id.value !in s.users
    ensures res.0.Err? ==> res.0.error == NotFound && res.1 == s
    ensures res.0.Ok? ==> res.1 == s.(users := s.users[u.id.value := u])
    ensures Valid(s) ==> Valid(res.1)
  {
    if u.id.None? || u.id.value !in s.users then (Err(NotFound), s)
    else (Ok(()), s.(users := s.users[u.id.value := u]))
  }

  /** `getAll`: the stored users. */
  function GetAll(s: Store): (r: set<User>)
    ensures forall k :: k in s.users ==> s.users[k] in r
    ensures forall u :: u in r ==> exists k :: k in s.users && s.users[k] == u
    ensures Valid(s) ==> forall u :: u in r ==> u.id.Some? && u.id.value in s.users && s.users[u.id.value] == u
  {
    set k | k in s.users :: s.users[k]
  }

  /** `getById`: empty exactly when the id is not stored. */
  function GetById(s: Store, id: int): (r: Option<User>)
    ensures r.None? <==> id !in s.users
    ensures r.Some? ==> r.value == s.users[id]
    ensures r.Some? && Valid(s) ==> r.value.id == Some(id)
  {
    if id in s.users then Some(s.users[id]) else None
  }

  /** `u` is the user stored under `k`. */
  predicate Stores(s: Store, k: int, u: User) {
    k in s.users && s.users[k] == u
  }

  /** `getUsersById`: looks each id up in turn and drops those not stored. */
  function GetUsersById(s: Store, ids: seq<int>): (r: seq<User>)
    ensures |r| <= |ids|
    ensures forall u :: u in r ==> exists k :: k in ids && Stores(s, k, u)
    ensures forall k :: k in ids && k in s.users ==> s.users[k] in r
    ensures (forall i :: 0 <= i < |ids| ==> ids[i] in s.users) ==> |r| == |ids|
  {
    if ids == [] then []
    else
      var n := |ids| - 1;
      var init := GetUsersById(s, ids[..n]);
      assert ids == ids[..n] + [ids[n]];
      assert forall k :: k in ids[..n] ==> k in ids;
      assert ids[n] in ids;
      if ids[n] in s.users then
        assert Stores(s, ids[n], s.users[ids[n]]);
        init + [s.users[ids[n]]]
      else
        assert !(forall i :: 0 <= i < |ids| ==> ids[i] in s.users);
        init
  }

  /** In a valid store, a user is in the answer exactly when it is stored
      and its id was asked for. */
  lemma GetUsersByIdMembers(s: Store, ids: seq<int>, v: User)
    requires Valid(s)
    ensures v in GetUsersById(s, ids) <==> v.id.Some? && Stores(s, v.id.value, v) && v.id.value in ids
  {
    if v in GetUsersById(s, ids) {
      var k :| k in ids && Stores(s, k, v);
      assert v.id == Some(k);
    }
  }

  /** Looking up a concatenation is looking up each part: the answer keeps the
      order of the ids asked for. */
  lemma {:induction false} GetUsersByIdAppend(s: Store, ids1: seq<int>, ids2: seq<int>)
    ensures GetUsersById(s, ids1 + ids2) == GetUsersById(s, ids1) + GetUsersById(s, ids2)
    decreases |ids2|
  {
    if ids2 != [] {
      var n := |ids2| - 1;
      assert (ids1 + ids2)[..|ids1 + ids2| - 1] == ids1 + ids2[..n];
      GetUsersByIdAppend(s, ids1, ids2[..n]);
    } else {
      assert ids1 + ids2 == ids1;
    }
  }

  /** The answer for a single id. */
  lemma GetUsersByIdSingle(s: Store, id: int)
    ensures GetUsersById(s, [id]) == if id in s.users then [s.users[id]] else []
  {
    assert [id][..0] == [];
  }

  /** A user added is found under its new id, and nobody else moved. */
  lemma AddThenGet(s: Store, u: User, id: int)
    requires Valid(s)
    ensures var (u', s') := AddUser(s, u);
      && GetById(s', u'.id.value) == Some(u')
      && (id != u'.id.value ==> GetById(s', id) == GetById(s, id))
      && GetAll(s') == GetAll(s) + {u'}
  {
    var (u', s') := AddUser(s, u);
    forall x | x in GetAll(s')
      ensures x in GetAll(s) + {u'}
    {
      var k := x.id.value;
      if k != u'.id.value {
        assert s.users[k] == x;
      }
    }
    forall x | x in GetAll(s) + {u'}
      ensures x in GetAll(s')
    {
      if x != u' {
        assert s'.users[x.id.value] == x;
      } else {
        assert s'.users[u'.id.value] == x;
      }
    }
  }
}

=== FILE: validation.dfy ===
/** The request validators (controller/FilmController.java `validateFilm`
    and controller/UserController.java `validateUser`). Both reject with a
    Validation error; `validateUser` also fills in a missing name, and does
    so before it looks at the birthday, so a rejected user can come back
    with its name already set. */
module Validation {
  import opened Common
  import opened Model

  /** The earliest release date accepted, the date of the first public film
      screening. */
  const AfterDate: LocalDate := Date(1895, 12, 28)

  /** The longest description accepted, counted after trimming in the UTF-16
      units of `String.length()`. */
  const MaxDescription := 200

  // ---------------------------------------------------------------------
  // Films.

  /** `validateFilm`: the film itself is never changed. */
  function ValidateFilm(f: Film): (r: Result<()>)
    ensures r.Err? ==> r.error == Validation
    ensures r.Ok? ==>
      && f.name.Some? && !IsBlank(f.name.value)
      && f.releaseDate.Some? && !IsBefore(f.releaseDate.value, AfterDate)
    ensures r.Ok? <==>
      && f.name.Some? && Trim(f.name.value) != []
      && (f.description.None? || Utf16Length(Trim(f.description.value)) <= MaxDescription)
      && f.releaseDate.Some? && !IsBefore(f.releaseDate.value, AfterDate)
      && (f.duration.None? || f.duration.value > 0)
  {
    if f.name.None? || IsBlank(f.name.value) then Err(Validation)
    else if f.description.Some? && Utf16Length(Trim(f.description.value)) > MaxDescription then Err(Validation)
    else if f.releaseDate.None? || IsBefore(f.releaseDate.value, AfterDate) then Err(Validation)
    else if f.duration.Some? && f.duration.value < 1 then Err(Validation)
    else Ok(())
  }

  /** A string that neither starts nor ends with a trimmable character is
      its own trim. */
  lemma TrimOfUntrimmable(s: string)
    requires |s| > 0 && !IsTrimmable(s[0]) && !IsTrimmable(s[|s| - 1])
    ensures Trim(s) == s
  {
    assert TrimStart(s) == s;
  }

  /** The release-date rule: the first screening day itself passes, the day
      before fails, whatever the rest of an otherwise valid film. */
  lemma ReleaseDateBoundary(f: Film)
    requires f.name.Some? && !IsBlank(f.name.value)
    requires f.description.None? && f.duration.None?
    ensures ValidateFilm(f.(releaseDate := Some(Date(1895, 12, 28)))).Ok?
    ensures ValidateFilm(f.(releaseDate := Some(Date(1895, 12, 27)))) == Err(Validation)
    ensures ValidateFilm(f.(releaseDate := None)) == Err(Validation)
  {
  }

  /** The description rule counts trimmed UTF-16 units: at most 200 always
      passes, and more than 200 in a description that does not start or end
      with a trimmable character fails. */
  lemma DescriptionBoundary(f: Film, d: string)
    ensures Utf16Length(d) <= MaxDescription ==>
      ValidateFilm(f.(description := Some(d))) == ValidateFilm(f.(description := None))
    ensures Utf16Length(d) > MaxDescription && !IsTrimmable(d[0]) && !IsTrimmable(d[|d| - 1]) ==>
      ValidateFilm(f.(description := Some(d))) == Err(Validation)
  {
    if Utf16Length(d) <= MaxDescription {
      TrimUtf16Shorter(d);
      ShortDescriptionDefers(f, d);
    } else if !IsTrimmable(d[0]) && !IsTrimmable(d[|d| - 1]) {
      TrimOfUntrimmable(d);
      LongDescriptionFails(f, d);
    }
  }

  /** A trimmed description within the limit leaves the verdict to the other
      rules. */
  lemma ShortDescriptionDefers(f: Film, d: string)
    requires Utf16Length(Trim(d)) <= MaxDescription
    ensures ValidateFilm(f.(description := Some(d))) == ValidateFilm(f.(description := None))
  {
  }

  /** A trimmed description over the limit is rejected. */
  lemma LongDescriptionFails(f: Film, d: string)
    requires Utf16Length(Trim(d)) > MaxDescription
    ensures ValidateFilm(f.(description := Some(d))) == Err(Validation)
  {
  }

  /** 101 emoji are 101 characters but 202 UTF-16 units, so the description
      is too long, while 200 plain letters are not. */
  lemma SurrogatePairsCountTwice(f: Film)
    ensures ValidateFilm(f.(description := Some(seq(101, _ => '\U{1F600}')))) == Err(Validation)
    ensures ValidateFilm(f.(description := Some(seq(200, _ => 'a')))) == ValidateFilm(f.(description := None))
  {
    var d := seq(101, _ => '\U{1F600}');
    Utf16LengthRepeat('\U{1F600}', 101);
    TrimOfUntrimmable(d);
    Utf16LengthRepeat('a', 200);
    DescriptionBoundary(f, seq(200, _ => 'a'));
  }

  /** The duration rule rejects zero and negatives but lets a missing
      duration through. */
  lemma DurationRule(f: Film, n: int)
    requires ValidateFilm(f).Ok?
    ensures ValidateFilm(f.(duration := None)).Ok?
    ensures ValidateFilm(f.(duration := Some(n))).Ok? <==> n >= 1
  {
  }

  // ---------------------------------------------------------------------
  // Users.

  /** `Character` classes of Java's `\s`: space, tab, line feed, vertical
      tab, form feed, carriage return. */
  predicate IsRegexSpace(c: char) {
    c == ' ' || c == '\t' || c == '\n' || c == '\U{B}' || c == '\U{C}' || c == '\r'
  }

  /** `s.matches("\\s")`: the WHOLE string is one whitespace character. */
  predicate MatchesOneSpace(s: string) {
    |s| == 1 && IsRegexSpace(s[0])
  }

  /** `email` is present, not blank and holds an '@'. */
  predicate EmailAccepted(u: User) {
    u.email.Some? && !IsBlank(u.email.value) && '@' in u.email.value
  }

  /** The login check as written. */
  predicate LoginAccepted(u: User) {
    u.login.Some? && !IsBlank(u.login.value) && !MatchesOneSpace(u.login.value)
  }

  /** The user with a missing or blank name replaced by the login. */
  function WithDefaultName(u: User): (u': User)
    ensures u'.name.Some? && !IsBlank(u'.name.value) <==>
      (u.name.Some? && !IsBlank(u.name.value)) || (u.login.Some? && !IsBlank(u.login.value))
    ensures u' == u.(name := u'.name)
  {
    if u.name.None? || IsBlank(u.name.value) then u.(name := u.login) else u
  }

  /** `validateUser`, against the day `today` the clock reports: the result
      and the user as the caller sees it afterwards. */
  function ValidateUser(u: User, today: LocalDate): (res: (Result<()>, User))
    ensures res.0.Err? ==> res.0.error == Validation
    ensures res.0.Ok? <==>
      && EmailAccepted(u) && LoginAccepted(u)
      && u.birthday.Some? && !IsBefore(today, u.birthday.value)
    ensures res.1 == u.(name := res.1.name)
    ensures EmailAccepted(u) && LoginAccepted(u) ==> res.1.name.Some? && !IsBlank(res.1.name.value)
    ensures u.name.Some? && !IsBlank(u.name.value) ==> res.1 == u
    ensures !(EmailAccepted(u) && LoginAccepted(u)) ==> res.1 == u
  {
    if !EmailAccepted(u) then (Err(Validation), u)
    else if !LoginAccepted(u) then (Err(Validation), u)
    else
      var named := WithDefaultName(u);
      if named.birthday.None? || IsBefore(today, named.birthday.value) then (Err(Validation), named)
      else (Ok(()), named)
  }

  /** A user that passes passes again unchanged. */
  lemma ValidateUserIdempotent(u: User, today: LocalDate)
    requires ValidateUser(u, today).0.Ok?
    ensures var u' := ValidateUser(u, today).1; ValidateUser(u', today) == (Ok(()), u')
  {
  }

  /** A missing name becomes the login, and stays the login even when the
      birthday then rejects the user. */
  lemma NameDefaultPrecedesBirthday(u: User, today: LocalDate)
    requires EmailAccepted(u) && LoginAccepted(u) && u.name.None?
    ensures ValidateUser(u, today).1.name == u.login
  {
  }

  /** A birthday of today passes; tomorrow's does not. */
  lemma BirthdayBoundary(u: User, today: LocalDate, tomorrow: LocalDate)
    requires EmailAccepted(u) && LoginAccepted(u)
    requires IsBefore(today, tomorrow)
    ensures ValidateUser(u.(birthday := Some(today)), today).0.Ok?
    ensures ValidateUser(u.(birthday := Some(tomorrow)), today).0 == Err(Validation)
  {
  }

  /** The check `matches("\\s")` never fires on a login that got past the
      blank check, so a login with spaces inside or at the end passes. */
  lemma SpacedLoginPasses(u: User, today: LocalDate)
    requires EmailAccepted(u)
    requires u.birthday.Some? && !IsBefore(today, u.birthday.value)
    ensures ValidateUser(u.(login := Some("sd ")), today).0.Ok?
    ensures forall s :: !IsBlank(s) ==> !MatchesOneSpace(s)
  {
    assert !IsBlank("sd ") by { assert !IsTrimmable("sd "[0]); }
    forall s | !IsBlank(s)
      ensures !MatchesOneSpace(s)
    {
      var i :| 0 <= i < |s| && !IsTrimmable(s[i]);
    }
  }

  // ---------------------------------------------------------------------
  // The login rule as its error message states it: not blank and without
  // whitespace anywhere.

  predicate LoginAcceptedIntended(u: User) {
    u.login.Some? && !IsBlank(u.login.value)
    && forall i :: 0 <= i < |u.login.value| ==> !IsRegexSpace(u.login.value[i])
  }

  /** `validateUser` with the login rule its message states. */
  function ValidateUserIntended(u: User, today: LocalDate): (res: (Result<()>, User))
    ensures res.0.Err? ==> res.0.error == Validation
    ensures res.0.Ok? ==> u.login.Some? && forall i :: 0 <= i < |u.login.value| ==> !IsRegexSpace(u.login.value[i])
    ensures res.0.Ok? <==>
      && EmailAccepted(u) && LoginAcceptedIntended(u)
      && u.birthday.Some? && !IsBefore(today, u.birthday.value)
    ensures res.1 == u.(name := res.1.name)
  {
    if !EmailAccepted(u) || !LoginAcceptedIntended(u) then (Err(Validation), u)
    else
      var named := WithDefaultName(u);
      if named.birthday.None? || IsBefore(today, named.birthday.value) then (Err(Validation), named)
      else (Ok(()), named)
  }

  /** The intended rule is stricter, and exactly as strict on logins without
      whitespace; "sd " is what tells them apart. */
  lemma IntendedRefinesWritten(u: User, today: LocalDate)
    ensures ValidateUserIntended(u, today).0.Ok? ==> ValidateUser(u, today) == ValidateUserIntended(u, today)
    ensures u.login.Some? && (forall i :: 0 <= i < |u.login.value| ==> !IsRegexSpace(u.login.value[i])) ==>
      ValidateUser(u, today) == ValidateUserIntended(u, today)
    ensures u.login == Some("sd ") ==> ValidateUserIntended(u, today).0 == Err(Validation)
  {
    if u.login == Some("sd ") {
      assert IsRegexSpace(u.login.value[2]);
    }
  }
}
